=== FILE: README.md ===
# Face registration and recognition: the decision layer, in Dafny

This project models the logic that sits on top of the neural detector and
feature extractor of the face-recognition backend:

- which detected face is chosen, how its box is clamped and widened for the
  crop, and how a manually drawn region is checked (`detect_face`,
  `FaceAdjustment`);
- how a query feature is compared with the stored ones, including the boost for
  cosines just under the threshold (`compare_face_features`);
- the uniqueness check, its similarity levels, the confirmation prompt and the
  registration permission (`FaceUniquenessChecker`);
- user numbers "USR" + YYMMDD + sequence, their validation, prefixed numbers
  (`UserIDGenerator`), and the numeric identity ids of `generate_unique_identity_id`;
- `register_face` and `recognize_face` as functions over a store and the
  detector's and extractor's answers;
- looking users up, deleting one or a batch, the confirmation text and the
  integrity scan (`UserDataManager`);
- the index-selection parser of the command-line delete menu ("1,3,5-7").

The detector, the extractor, the cosine, the clock, uuid, SQLite and the file
system are inputs: a detector result is a sequence of `RawDetection`, a cosine
is a `real` carried by each stored entry, the table is a `Store.Db` (rows in
insertion order plus the set of existing paths), and each call that can fail
outside the model (opening an image, a query, a commit, `os.remove`) is a
boolean or an `Option` parameter. Whether an image converts to OpenCV colour
order (an RGB or RGBA image does; files and base64 data are converted to RGB
first) is a boolean carried by the image. Floating-point values are exact reals.

Modules, one per source component: `Wrappers` (Option/Result), `Text`
(Python's `str`, `int`, `zfill`, `strip`, `split`, `upper`, and SQLite's text
order), `StableSort` (Python's stable `sort(reverse=True)` on real keys, as a
permutation of positions), `FaceSelect`, `FaceAdjust`, `Matcher`,
`Uniqueness`, `UserIds`, `Store`, `DataProcess`, `UserDataManager`,
`Selection`.

In these places the code does less, or otherwise, than a reader of its
docstrings might expect, and the model follows the code:

- `register_face` does not run the uniqueness check.
- The quality gate on confidence and size does not exist in the code.
- `recognize_face` reports `unmatched_count_db` as faces minus matched names, and 0 for an empty table.
- Without an identity id, `register_face` takes the generator as written: the text-greatest id plus one, and a registration that never returns when that id is taken. The evidently intended generator, `DataProcess.NextIdentityId`, is modelled beside it (see Findings).
- A `detect_face` that raises is propagated by both `register_face` and `recognize_face`.

## Model

| member | source | states |
|---|---|---|
| Text.NatToString | backend/app/utils/data_process.py:66 | `str(n)`: a non-empty digit string without leading zeros, "0" for 0 |
| Text.NatToStringValue | backend/app/utils/data_process.py:60-66 | reading back `str(n)` gives n |
| Text.NatToStringLength | backend/app/utils/user_id_generator.py:60 | `str(n)` has at most k digits exactly when n < 10^k, which decides when `zfill` pads |
| Text.ZFill | backend/app/utils/user_id_generator.py:60 | `zfill` keeps the text as its suffix, pads with zeros only, and has length max(len, width) |
| Text.ZFillValue | backend/app/utils/user_id_generator.py:60 | zero padding does not change the number the digits denote |
| Text.LexIrreflexive | backend/app/utils/data_process.py:56 | the text order used by `ORDER BY identity_id DESC` is irreflexive |
| Text.LexTransitive | backend/app/utils/data_process.py:56 | the text order is transitive |
| Text.LexTotal | backend/app/utils/data_process.py:56 | any two distinct texts are ordered one way or the other |
| Text.LexDigitsValue | backend/app/utils/user_id_generator.py:93-108 | for digit strings of equal length, the text order is the numeric order |
| Text.LStrip | backend/interactive_test.py:469 | only leading whitespace is removed, and the result starts with non-space |
| Text.RStrip | backend/interactive_test.py:469 | only trailing whitespace is removed, and the result ends with non-space |
| Text.Strip | backend/interactive_test.py:469 | `strip()` keeps the slice after the leading whitespace, which neither starts nor ends with whitespace; everything outside it is whitespace; only an all-whitespace text strips to nothing |
| Text.Split | backend/interactive_test.py:480 | `split(sep)` yields one more part than separators, none containing the separator |
| Text.Join | backend/app/utils/user_data_manager.py:490 | `sep.join(parts)` starts with the first part and ends with the last; with no separator inside the parts it holds one separator fewer than there are parts |
| Text.SplitJoin | backend/interactive_test.py:480 | joining the parts of a split with the separator gives back the text |
| Text.SplitWithout | backend/interactive_test.py:480 | a text without the separator splits into itself alone |
| Text.SplitAfterFirst | backend/app/utils/user_data_manager.py:490 | splitting a part, a separator and a rest gives the part followed by the rest's parts |
| Text.JoinSplit | backend/app/utils/user_data_manager.py:490 | joining parts that hold no separator and splitting again gives the parts back |
| Text.PyInt | backend/interactive_test.py:483-493 | `int()` accepts exactly an optional sign then digits with single underscores between them, inside surrounding whitespace; the value is the digits' decimal value, negated only after '-' |
| Text.PyIntOfNatToString | backend/interactive_test.py:493 | `int()` reads the decimal text of n as n |
| Text.PyIntNoSign | backend/interactive_test.py:483-486 | a text holding '-' that `int()` accepts starts, once stripped, with '-' |
| Text.Upper | backend/app/utils/user_id_generator.py:259 | `upper()` keeps the length, turns each of 'a'..'z' into the same letter in 'A'..'Z', keeps every other character, and leaves no 'a'..'z' |
| StableSort.Insert | backend/app/utils/face_utils.py:606 | insertion adds the new position once and keeps every other one |
| StableSort.InsertSorted | backend/app/utils/face_utils.py:606 | inserting a new position keeps the listing ordered by key, then by position |
| StableSort.InsertPermutation | backend/app/utils/face_utils.py:606 | inserting position n-1 into a permutation of 0..n-2 gives a permutation of 0..n-1 |
| StableSort.Order | backend/app/utils/face_utils.py:606 | the order lists positions 0..n-1 once each, larger key first, equal keys in input order |
| StableSort.StableOrder | backend/app/utils/face_utils.py:606 | the stable descending order of all keys is a permutation ordered by key, then by position |
| StableSort.OrderUnique | backend/app/utils/face_utils.py:606 | any permutation ordered by key and then position equals any other, so the stable order is determined |
| StableSort.SortedUnique | backend/app/utils/face_utils.py:606 | two strictly ordered listings of the same positions are equal |
| StableSort.AlreadySorted | backend/app/utils/face_uniqueness_check.py:98 | sorting keys that are already non-increasing leaves every item in place |
| StableSort.FirstIsEarliestBest | backend/app/utils/face_utils.py:606-609 | the first position has the largest key and is the earliest position holding it |
| StableSort.PickOrder | backend/app/utils/face_uniqueness_check.py:98 | the items taken in the sorted order are the same items, as a multiset |
| StableSort.SortByKey | backend/app/utils/face_uniqueness_check.py:98 | `sort(key, reverse=True)`: the same items permuted, keys non-increasing, equal keys in input order |
| StableSort.SortByKeyKeepsSorted | backend/app/utils/face_uniqueness_check.py:98 | sorting items whose keys are already non-increasing changes nothing |
| FaceSelect.Tenth | backend/app/utils/face_utils.py:551-553 | `int(v * 0.1)` truncates v/10 toward zero, for both signs |
| FaceSelect.ClampBox | backend/app/utils/face_utils.py:535-543 | the clamped box is clamped to the image (no negative near edge, no far edge beyond it), within the raw box, and equal to it when it already fits |
| FaceSelect.Expand | backend/app/utils/face_utils.py:555-559 | the widened box is clamped to the image, contains a box clamped to the image, and is exact when it fits |
| FaceSelect.OverlapArea | backend/app/utils/face_utils.py:577-582 | overlapping boxes have a positive shared area no larger than their union |
| FaceSelect.IoU | backend/app/utils/face_utils.py:581-584 | intersection over union lies in (0, 1], and is 1 for identical boxes |
| FaceSelect.RegionScore | backend/app/utils/face_utils.py:568-592 | no target gives 0; an overlap gives the IoU, which lies in (0, 1]; otherwise it is 1 minus the distance ratio |
| FaceSelect.IoUSymmetric | backend/app/utils/face_utils.py:572-584 | the IoU does not depend on which box is the target |
| FaceSelect.MakeCandidate | backend/app/utils/face_utils.py:533-603 | a face keeps its detection index, the clamped box, a crop clamped to the image that contains that box, box and crop ordered for a detection that meets the image, its confidence, and the score 0.7 · confidence + 0.3 · region score against any target |
| FaceSelect.Candidates | backend/app/utils/face_utils.py:533-603 | one scored face per detection, in detection order |
| FaceSelect.Ranked | backend/app/utils/face_utils.py:605-606 | every face appears once, best score first, equal scores in detection order |
| FaceSelect.Unzip | backend/app/utils/face_utils.py:608-611 | boxes, crops and confidences are index-aligned with the ranked faces |
| FaceSelect.DetectFaces | backend/app/utils/face_utils.py:527-618 | raises exactly when some widened, clamped crop is inverted, never when every detection meets the image; otherwise three lists as long as the detections, empty for none, every box and crop clamped to the image and every crop ordered |
| FaceSelect.DetectionBeyondImageRaises | backend/app/utils/face_utils.py:533-562 | the detection (600,10,50,50) on a 500x500 image gets the inverted crop (595,5,500,65), and detection raises |
| FaceSelect.TopFaceIsBest | backend/app/utils/face_utils.py:606-609 | the first face listed has the best score, and no earlier detection reaches it |
| FaceAdjust.Open | backend/app/utils/face_adjust.py:43-47 | an image handed over directly is used as it is |
| FaceAdjust.ProcessImage | backend/app/utils/face_adjust.py:41-119 | success exactly when the image opens, the detector answers, the image converts to OpenCV colour order and faces are found; an opened image is stored even when a later step fails; on success the first box becomes current and the count is reported |
| FaceAdjust.ProcessSelectsBestFace | backend/app/utils/face_adjust.py:53-62 | automatic detection succeeds exactly when no crop is inverted; it then stores the box of the best-scoring, earliest face, and otherwise keeps the current box |
| FaceAdjust.ManualAdjust | backend/app/utils/face_adjust.py:139-194 | a wrong coordinate count and an inverted box are each reported exactly when they are the first problem; with an image the box is stored, and the call then succeeds exactly when the image converts to OpenCV colour order, otherwise it fails with the box already stored; every other refusal changes nothing |
| FaceAdjust.GetAdjustedFace | backend/app/utils/face_adjust.py:228-252 | nothing is returned exactly when no image or no box is stored; the crop raises exactly when the widened, clamped box is inverted; a returned crop is ordered, clamped to the image, and contains the stored box when that box is ordered and clamped to the image |
| FaceAdjust.BoxInImageCrops | backend/app/utils/face_adjust.py:228-248 | a stored box that is ordered and inside the image always yields its widened crop |
| FaceAdjust.BoxBeyondImageRaises | backend/app/utils/face_adjust.py:161-242 | a manual box (1000,1000,1100,1100) on a 500x500 image is accepted, and cropping it then raises, because the clamped crop is (990,990,500,500) |
| FaceAdjust.CropAround | backend/app/utils/face_adjust.py:233-242 | the crop is clamped to the image, contains an ordered box clamped to the image, and widens each side by at most a tenth |
| FaceAdjust.ManualAdjustKeepsNoImage | backend/app/utils/face_adjust.py:161-180 | a manual box on a handed-over, convertible image succeeds, yet that image is not stored, so with no stored image the crop returns nothing |
| FaceAdjust.ValidateFaceRegion | backend/app/utils/face_adjust.py:265-288 | valid exactly when inside the image, both sides at least 50 and the ratio in [0.5, 2]; the format error comes first, and each later reason is reported exactly when its check is the first to fail |
| FaceAdjust.RatioBounds | backend/app/utils/face_adjust.py:284-285 | the real-valued aspect-ratio test equals an integer comparison |
| FaceAdjust.GetCroppedFace | backend/app/utils/face_adjust.py:342-379 | a crop exists exactly when the image opens and the region is valid; it is clamped to the image and contains the region |
| FaceAdjust.CropPathsAgree | backend/app/utils/face_adjust.py:357-370 | the manual adjustment inside a crop by region succeeds exactly when the image converts, and the crop it stores is the one cropping by region returns |
| Matcher.Boosted | backend/app/utils/face_utils.py:864-870 | a cosine is kept exactly when it is at least t - 0.02; the kept value is at least t and at most 0.02 above the cosine |
| Matcher.Recorded | backend/app/utils/face_utils.py:848-870 | an entry contributes exactly when both vectors are usable and its cosine reaches t - 0.02 |
| Matcher.Accepted | backend/app/utils/face_utils.py:845-870 | the collected matches are recorded entries with their values, in increasing index order |
| Matcher.AcceptedComplete | backend/app/utils/face_utils.py:848-870 | every entry that contributes is collected |
| Matcher.SortMatches | backend/app/utils/face_utils.py:873 | sorting keeps the same matches, ranked by value, ties by index |
| Matcher.Matches | backend/app/utils/face_utils.py:845-873 | the matches are exactly the contributing entries with their values, ranked |
| Matcher.Compare | backend/app/utils/face_utils.py:837-878 | a query that is not 512-long fails; the maximum is the first match's value, or 0.0 without matches, and bounds all values |
| Matcher.RankedUnique | backend/app/utils/face_utils.py:873 | two ranked lists of the same matches are equal, so the result is determined |
| Matcher.MatchesReachThreshold | backend/app/utils/face_utils.py:864-870 | every recorded similarity reaches the threshold |
| Matcher.ListedIff | backend/app/utils/face_utils.py:848-870 | entry i is matched exactly when both vectors are usable and its cosine is at least t - 0.02 |
| Matcher.MatchedIffNearThreshold | backend/app/utils/face_utils.py:848-876 | some match exists exactly when some usable entry has cosine at least t - 0.02 |
| Matcher.LowerThresholdKeepsMatches | backend/app/utils/face_utils.py:864-870 | an entry matched at a threshold is matched at any lower one |
| Uniqueness.SortBySimilarity | backend/app/utils/face_uniqueness_check.py:98 | the re-sort is a stable rearrangement: the same users permuted, similarities non-increasing, equal similarities in their former order |
| Uniqueness.SortKeepsRankedList | backend/app/utils/face_uniqueness_check.py:98 | re-sorting a list already ranked by similarity changes nothing |
| Uniqueness.Describe | backend/app/utils/face_uniqueness_check.py:84-95 | only matches at or above the threshold are described, each by the user it matched |
| Uniqueness.Listing | backend/app/utils/face_uniqueness_check.py:77-98 | the similar users are the comparison's matches in order, each with its user, all at or above the threshold |
| Uniqueness.CheckFaceUniqueness | backend/app/utils/face_uniqueness_check.py:46-135 | unique exactly when features exist and the table is empty or nothing matches; no features, an empty table and a wrong-shaped query each give their own outcome; a similar result names the listed users and the tier of the maximum; every other outcome reports a maximum of 0.0 |
| Uniqueness.RecognisedIsNotUnique | backend/app/utils/face_uniqueness_check.py:48-81 | a face recognition would match at 0.6 is never unique at the default 0.5 |
| Uniqueness.SimilarityLevel | backend/app/utils/face_uniqueness_check.py:244-253 | the level counts how many of the cut points 0.55, 0.65, 0.75 and 0.85 the similarity reaches |
| Uniqueness.LevelMonotone | backend/app/utils/face_uniqueness_check.py:244-253 | a higher similarity never gets a lower level |
| Uniqueness.ConfirmationPrompt | backend/app/utils/face_uniqueness_check.py:270-303 | info without action exactly for a unique result; error exactly when not unique at 0.85 or above and warning below it; the level is the similarity level of the maximum similarity, absent for a unique result; names the top similar user |
| Uniqueness.RegistrationPermission | backend/app/utils/face_uniqueness_check.py:320-364 | allowed exactly when unique, confirmed, or the maximum is below 0.65 |
| Uniqueness.UnconfirmedPermission | backend/app/utils/face_uniqueness_check.py:320-357 | without confirmation, refusal happens exactly when similar users were found at 0.65 or above |
| Uniqueness.PromptAndPermissionAgree | backend/app/utils/face_uniqueness_check.py:270-325 | a prompt that asks for no action always comes with permission |
| UserIds.DaysInMonth | backend/app/utils/user_id_generator.py:143 | every month has 28 to 31 days |
| UserIds.TwoDigits | backend/app/utils/user_id_generator.py:48 | two digits that read back as the number |
| UserIds.DatePart | backend/app/utils/user_id_generator.py:48 | `%y%m%d` is six digits |
| UserIds.Timestamp | backend/app/utils/user_id_generator.py:264 | `%y%m%d%H%M` is ten digits beginning with the date part |
| UserIds.MaxSequenceForToday | backend/app/utils/user_id_generator.py:93-116 | the digits after the date in the latest number, else 0 (no row, non-digits, failed query) |
| UserIds.SequenceText | backend/app/utils/user_id_generator.py:57-60 | digits that read back as the sequence; exactly the width when the sequence fits |
| UserIds.GenerateUserId | backend/app/utils/user_id_generator.py:47-65 | "USR", today's date, then digits reading as the latest sequence plus one; 13 long exactly below 10000 |
| UserIds.SequenceAdvances | backend/app/utils/user_id_generator.py:54-63 | reading back the number just generated gives the next sequence |
| UserIds.GeneratedIdIsFresh | backend/app/utils/user_id_generator.py:54-63 | given the text-greatest of today's standard numbers (numbers of other days and prefixed numbers unconstrained), the generated number is not taken |
| UserIds.IsIdUnique | backend/app/utils/user_id_generator.py:171-184 | unique exactly when no row has the number; a failed query answers false |
| UserIds.IdDate | backend/app/utils/user_id_generator.py:135-140 | the date fields of a well-formed number: year 2000-2099, month and day below 100 |
| UserIds.ValidateUserId | backend/app/utils/user_id_generator.py:130-147 | valid exactly when "USR" plus 10 digits name a real date; bad format exactly when the pattern fails |
| UserIds.CenturyShift | backend/app/utils/user_id_generator.py:138-143 | a real date stays real when its year is read back as 2000 + YY |
| UserIds.GeneratedIdValidates | backend/app/utils/user_id_generator.py:374-380 | a generated number validates while the sequence is below 10000, and fails the format from then on |
| UserIds.ValidateUserIdAsWritten | backend/app/utils/user_id_generator.py:130-131 | when building the pattern succeeds, the answer is the intended one |
| UserIds.ValidateAsWrittenAlwaysRaises | backend/app/utils/user_id_generator.py:130 | building the pattern raises IndexError for every number |
| UserIds.MaxSequenceForPrefix | backend/app/utils/user_id_generator.py:303-320 | the last three characters when they are digits, else 0, so always below 1000 |
| UserIds.Compose | backend/app/utils/user_id_generator.py:274-279 | prefix, timestamp and sequence in order, at most 19 characters |
| UserIds.ChosenPrefix | backend/app/utils/user_id_generator.py:253-261 | "USR" for an empty prefix, otherwise the accepted prefix upper-cased, so at most five characters |
| UserIds.PrefixSequence | backend/app/utils/user_id_generator.py:267-271 | three or four digits reading as the prefix's latest sequence plus one |
| UserIds.GenerateIdWithPrefix | backend/app/utils/user_id_generator.py:251-285 | a refused prefix falls back to the standard number; otherwise prefix, full timestamp, then the next sequence |
| UserIds.PrefixedIdKeepsTimestamp | backend/app/utils/user_id_generator.py:274-279 | the 20-character cut never applies: an accepted prefix keeps the full minute |
| Store.NewRowId | backend/app/models/models.py:26 | a new primary key is positive and above every existing key |
| Store.FindById | backend/app/utils/user_data_manager.py:87-91 | a row with that identity id, found exactly when one exists |
| Store.FindByName | backend/app/utils/user_data_manager.py:94-99 | a row with that name, found exactly when one exists |
| Store.RemoveId | backend/app/utils/user_data_manager.py:220 | the rows kept are exactly those with another identity id |
| Store.RemoveIdKeepsValid | backend/app/models/models.py:26-32 | deleting rows keeps identity ids and keys unique |
| Store.PathJoin | backend/app/utils/user_data_manager.py:201 | an absolute second part replaces the first; otherwise the result starts with the first part and ends with the second |
| Store.DirName | backend/app/utils/user_data_manager.py:201 | the directory part is a prefix of the path, and empty unless the path holds a slash |
| Store.Resolve | backend/app/utils/user_data_manager.py:200-201 | absolute image paths stay; relative ones are taken against the database's directory |
| DataProcess.TextMax | backend/app/utils/data_process.py:56 | the first row of the descending text order: present, and no id is after it |
| DataProcess.Proposal | backend/app/utils/data_process.py:56-66 | the loop's candidate is a digit string, "1" when the greatest id is not all digits |
| DataProcess.GenerateUniqueIdentityIdAsWritten | backend/app/utils/data_process.py:53-71 | returns exactly when the one candidate it ever proposes is free, and then that candidate, an unused id |
| DataProcess.AsWrittenLoopsAtTen | backend/app/utils/data_process.py:53-71 | with ids "1" to "10" the loop never returns |
| DataProcess.RegisterLoopsAtTen | backend/app/utils/data_process.py:146-147 | registering without an identity id once ids "1" to "10" exist never returns |
| DataProcess.ProposalAfterNine | backend/app/utils/data_process.py:58-66 | when "9" is the text-greatest id the candidate is "10" |
| DataProcess.NineIsTextMax | backend/app/utils/data_process.py:56 | among "1" to "10", "9" comes first in descending text order |
| DataProcess.MaxNumeric | backend/app/utils/data_process.py:56-60 | the greatest numeric value among the all-digit ids, or 0 |
| DataProcess.NextIdentityId | backend/app/utils/data_process.py:53-71 | a digit string not in use, one above the greatest numeric id |
| DataProcess.NextAfterSequential | backend/test_id_generation.py:129-139 | after ids "1" to "n" the next id is str(n + 1) |
| DataProcess.ImagePath | backend/app/utils/data_process.py:159-160 | the image file name ends in ".jpg" |
| DataProcess.FeaturePath | backend/app/utils/data_process.py:166-167 | the feature file name ends in ".npy" |
| DataProcess.ResolveIdentity | backend/app/utils/data_process.py:146-152 | a given id is used exactly when it is free, else refused as taken; without one, the generator's candidate is used exactly when it is free, and otherwise the generator never returns; the result is never in use |
| DataProcess.RegisterFace | backend/app/utils/data_process.py:112-190 | checks run in order and each of missing name, bad identity, not an image, a raising detector, no face, a raising extractor and no feature is reported exactly when it is the first to fail, storing nothing; a taken identity id, and a generator candidate that is taken (a registration that never returns), are each reported exactly when every earlier check passes; past them the outcome is that of `Persist`, so a storage failure is reported exactly when a write or the commit fails; success appends one row with a fresh identity id and the first crop |
| DataProcess.Persist | backend/app/utils/data_process.py:155-197 | the image, then the feature file, then the row; a failed commit keeps the files written but not the row |
| DataProcess.RegisterKeepsValid | backend/app/utils/data_process.py:174-182 | registration keeps identity ids and keys unique |
| DataProcess.RegisteredIsFound | backend/app/utils/data_process.py:174-190 | the reported identity id finds the new user by name |
| DataProcess.Loaded | backend/app/utils/data_process.py:265-276 | the users whose feature file loads, in table order |
| DataProcess.FaceDetail | backend/app/utils/data_process.py:285-334 | a face matches exactly when some stored feature contributes; then the loaded user with the best recorded similarity, at least 0.6, the earliest among equals; otherwise similarity 0.0 and an error |
| DataProcess.BestIsTop | backend/app/utils/data_process.py:307-311 | the first match has the largest recorded similarity, and no earlier entry records as much |
| DataProcess.NoMatchesNoneRecorded | backend/app/utils/data_process.py:324-332 | no matches means no stored feature contributes |
| DataProcess.Details | backend/app/utils/data_process.py:282-334 | one detail per face in order when no face raises; otherwise the error of the first face that raises, every earlier face succeeding |
| DataProcess.Collect | backend/app/utils/data_process.py:285-334 | the loop succeeds exactly when every step does, keeping each step's value in order; a failure is the error of the first failing step |
| DataProcess.MatchedNames | backend/app/utils/data_process.py:313 | the matched names are exactly the users some face was given |
| DataProcess.MatchedNamesBound | backend/app/utils/data_process.py:337-339 | there are never more matched names than details |
| DataProcess.Summary | backend/app/utils/data_process.py:337-354 | counts and name sets as reported: unmatched names are loaded names no face matched |
| DataProcess.LoadedNames | backend/app/utils/data_process.py:265-276 | a name is loaded exactly when some stored user with that name has a readable feature file |
| DataProcess.RecognizeFace | backend/app/utils/data_process.py:237-362 | early exits for non-images, a raising detector, no faces, an empty table and no loadable features; past them, success exactly when no face raises, with the loop's details and their summary, and otherwise the error of the first face that raises |
| DataProcess.UnmatchedNamesAreLoadedUsers | backend/app/utils/data_process.py:342-344 | a name is reported unseen exactly when it is a loaded user's name that no face matched |
| DataProcess.MatchedWithinFaces | backend/app/utils/data_process.py:337-339 | matched users never outnumber faces, so the unseen count is not negative |
| DataProcess.MatchedAreLoadedUsers | backend/app/utils/data_process.py:307-313 | every matched name belongs to a stored user whose features loaded |
| UserDataManager.Lookup | backend/app/utils/user_data_manager.py:81-108 | the identity id wins over the name; none exactly when neither matches; a database error finds nobody |
| UserDataManager.LookupOwnId | backend/app/utils/user_data_manager.py:87-91 | in a valid table a user's identity id finds that user |
| UserDataManager.LookupMany | backend/app/utils/user_data_manager.py:126-156 | exactly the rows whose identity id or name is listed, in table order |
| UserDataManager.SubsequenceValid | backend/app/utils/user_data_manager.py:137-149 | rows picked from a valid table form a valid table |
| UserDataManager.Scheduled | backend/app/utils/user_data_manager.py:196-204 | at most the resolved image path, and only when images are to go, the path is set and the file exists |
| UserDataManager.Removed | backend/app/utils/user_data_manager.py:228-235 | the deleted files are exactly the scheduled ones whose removal succeeds |
| UserDataManager.DeleteWithKey | backend/app/utils/user_data_manager.py:180-252 | unknown users fail and change nothing; a dry run reports the scheduled files and changes nothing; a real run removes the reported files and the keyed rows |
| UserDataManager.DeleteUserByIdAsWritten | backend/app/utils/user_data_manager.py:217-223 | the row delete is keyed on the argument itself |
| UserDataManager.DeleteByNameKeepsRow | backend/app/utils/user_data_manager.py:184-220 | deleting by a name reports success while the user's row stays |
| UserDataManager.DeleteUserById | backend/app/utils/user_data_manager.py:158-252 | the row delete is keyed on the found user's identity id |
| UserDataManager.DeletedUserIsGone | backend/app/utils/user_data_manager.py:217-244 | after a successful deletion the user is gone, all other rows stay, and the table stays valid |
| UserDataManager.AgreeOnIdentityIds | backend/app/utils/user_data_manager.py:220 | for an identity id argument the as-written and intended deletions agree |
| UserDataManager.Successes | backend/app/utils/user_data_manager.py:336-339 | the success count reaches the number of details exactly when all succeeded |
| UserDataManager.DeleteEach | backend/app/utils/user_data_manager.py:317-339 | one detail per resolved user, in order, each passed by identity id to the deletion as written; never adds rows |
| UserDataManager.DeleteUsersByIdentifiers | backend/app/utils/user_data_manager.py:280-347 | bad input, no match or a pending confirmation delete nothing; a run counts every user once and succeeds exactly when none failed |
| UserDataManager.ConfirmAndDeleteUsers | backend/app/utils/user_data_manager.py:371-375 | the confirmed run never asks again and accounts for every resolved user |
| UserDataManager.DeleteEachRemovesAll | backend/app/utils/user_data_manager.py:321-339 | with the database answering, every resolved user is deleted and the table stays valid |
| UserDataManager.FirstDeleted | backend/app/utils/user_data_manager.py:321-326 | deleting the first resolved user by its identity id, as written, succeeds and leaves the others in place |
| UserDataManager.ConfirmedBatchDeletesAll | backend/app/utils/user_data_manager.py:317-347 | a confirmed batch on a reachable store succeeds and removes every resolved user |
| UserDataManager.Lines | backend/app/utils/user_data_manager.py:490 | one confirmation line per user, in order |
| UserDataManager.LinesSingle | backend/app/utils/user_data_manager.py:490 | a line names a user whose name and id hold no line break, so it holds none either |
| UserDataManager.CreateDeleteConfirmation | backend/app/utils/user_data_manager.py:489-498 | the text starts with the header naming the count, is only the header for no users, and after it splits at line breaks into one line per user when no name or id holds a line break; the count and details are the users given |
| UserDataManager.ConfirmationMatchesRun | backend/app/utils/user_data_manager.py:303-314 | the users a batch asks to confirm are those the confirmed run counts |
| UserDataManager.MissingIssues | backend/app/utils/user_data_manager.py:528-542 | the issues are exactly the missing-file reports of rows whose image path is set and resolves to no existing file, at most one per row |
| UserDataManager.CheckDatabaseIntegrity | backend/app/utils/user_data_manager.py:516-563 | ok exactly when no image is missing, warning exactly when issues exist, error when the query fails; it reports only missing files |
| UserDataManager.IntegrityIgnoresDeleted | backend/app/utils/user_data_manager.py:523-542 | after a deletion every issue belongs to a row still present |
| Selection.ParsePart | backend/interactive_test.py:483-499 | an accepted part selects a non-empty set of indices below n |
| Selection.RangePart | backend/interactive_test.py:484 | a range without exactly two ends is a format error |
| Selection.Range | backend/interactive_test.py:485-491 | accepted exactly when 1 <= start <= end <= n, selecting start-1 to end-1 |
| Selection.NumberPart | backend/interactive_test.py:493-499 | a number k selects {k - 1} exactly when 1 <= k <= n; other numbers are invalid, non-numbers malformed |
| Selection.Span | backend/interactive_test.py:491 | `range(lo, hi + 1)` holds exactly lo to hi |
| Selection.StripPyInt | backend/interactive_test.py:485-486 | stripping before `int()` changes nothing |
| Selection.ParseParts | backend/interactive_test.py:478-503 | succeeds exactly when every part does, with the union of their indices; otherwise the first failing part's error |
| Selection.Each | backend/interactive_test.py:481-499 | the part loop: all parts succeed, or the first failure stops it |
| Selection.Ascending | backend/interactive_test.py:506 | strictly increasing, holding exactly the members in range |
| Selection.Parse | backend/interactive_test.py:469-506 | empty input cancels; other input is accepted exactly when every comma-separated part is, giving a non-empty, strictly increasing list of the indices some part selects; a rejection carries the first rejected part's error |
| Selection.Sorted | backend/interactive_test.py:506 | `sorted(set(...))` of the selected indices |
| Selection.SingleNumber | backend/interactive_test.py:493-506 | typing one number k selects [k - 1] when 1 <= k <= n and is refused otherwise |
| Selection.ThreeEndsRejected | backend/interactive_test.py:484 | "a-b-c" is malformed |
| Selection.NegativeRejected | backend/interactive_test.py:483-486 | a negative number such as "-1" is malformed |

## Left out

- The neural models, `segment_face` and `extract_face_feature`: these are foreign libraries with tensor arithmetic. Their results are parameters.
- The cosine and norm arithmetic and the square-root centre distance: a stored entry carries its cosine as a `real`, and the distance ratio is a function parameter.
- All floating point is exact `real` arithmetic. Rounding near the thresholds is not modelled.
- Drawing on images, JPEG/base64 encoding and resizing to 160x160 are image I/O. Crops are returned as boxes.
- SQLite, SQLAlchemy sessions, `np.save`/`np.load`, file writes and `os.remove` are modelled by `Store.Db` and by boolean or function parameters saying which steps succeed.
- The uniqueness checker's loader and the id generator's default database path are inputs: they query columns `user_id`, `user_name` and `feature_vector`, and read `Config.DATABASE_PATH`, none of which exist. With no path given, `generate_user_id` raises; the model takes the query's answer as a parameter instead.
- `generate_sequential_id` and the module-level wrapper functions are not part of this model; no core operation calls them.
- `delete_all_users`, the Flask API modules, the interactive menus and the camera are outside the decision layer.
- The timestamp fallback in `generate_unique_identity_id` (lines 72-79) runs only when a query raises. The queries are total in the model, so the fallback is not modelled.
- Concurrency is not modelled: two registrations racing for the same identity id, or for the same face.
- `Text` reads only ASCII digits. Python's `isdigit` and `int` also accept other Unicode digits.
- `LIKE` matching of number prefixes is case-insensitive in SQLite. The model takes the query's answer as a parameter and does not model `LIKE`.
- `UserIds.PyFormat` covers replacement fields that are empty or a decimal index. Format specs and conversions are not needed for the one template it reads.
- `UserDataManager.LookupMany` returns rows in table order, which SQLite does not promise for a query without `ORDER BY`.
- A failed `save_face_feature` is swallowed in the source. The model reflects this as a success without the feature file.
- A new row's primary key is one more than the largest present, as SQLite without AUTOINCREMENT chooses it, also after the largest row was deleted. SQLite's exception, a table whose largest rowid is 2^63-1, where it picks an unused key at random, is not modelled.
- FaceAdjust.GetAdjustedFace: a crop of zero width or height (a box starting exactly one widening beyond the image edge) is returned as a box; the resize of an empty image that follows is image I/O and is not modelled.
- DataProcess.GenerateUniqueIdentityIdAsWritten: takes a fuel bound on the loop, because the loop as written need not terminate. Its contract states what a returning run gives and exactly when it returns; running out of fuel stands for a run that never returns.
- FaceSelect.DetectFaces: on success states the lengths, the empty case, the order of each crop and that every box and crop is clamped to the image. The ranking and the relation of each face to its detection are stated on `FaceSelect.Ranked`, `FaceSelect.Candidates` and `FaceSelect.TopFaceIsBest`, which it composes.
- UserDataManager.CheckDatabaseIntegrity: the query at user_data_manager.py:523 selects `user_id` and `user_name`, which the `users` table (models.py:24-45) lacks, so on that schema the scan always reports error. The branches with `queryOk` describe the scan as intended, reading `identity_id` as the user id.
- Uniqueness.CheckFaceUniqueness: an exception inside the check is reported as `CheckFailed` only for a query of the wrong shape. Other exceptions (image decoding, the loader) are outside the model.

## Findings

| source | as written | input that shows it | evidently intended | confidence | as-written member | corrected member |
|---|---|---|---|---|---|---|
| backend/app/utils/user_id_generator.py:130 | the f-string already turns `{{10}}` into `{10}`, and `.format(ID_PREFIX)` then reads `{10}` as argument 10 and raises IndexError | any number, e.g. a fresh "USR2501010001" | match the id against `^USR\d{10}$` and then check the date | not executed | UserIds.ValidateAsWrittenAlwaysRaises | UserIds.GeneratedIdValidates |
| backend/app/utils/data_process.py:56 | the greatest identity id is taken in text order, so among "1" to "10" it is "9"; the candidate "10" is taken on every iteration of the loop at 53-71 | a table holding identity ids "1" to "10" | one more than the greatest numeric id, giving "11" | not executed | DataProcess.AsWrittenLoopsAtTen | DataProcess.NextAfterSequential |
| backend/app/utils/user_data_manager.py:220 | the row delete is keyed on the argument, which may be a name | deleting "alice", whose row has identity id "1" | delete the row of the user the lookup found | not executed | UserDataManager.DeleteByNameKeepsRow | UserDataManager.DeletedUserIsGone |

=== FILE: data_process.dfy ===
/** The registration and recognition services: the next identity id, the
    order of checks and side effects of `register_face`, and how
    `recognize_face` turns per-face comparisons into its summary. */
module DataProcess {
  import opened Wrappers
  import opened Text
  import Store
  import FaceSelect
  import Matcher

  // ---------------------------------------------------------------------------
  // Identity ids.

  /** The first row of `ORDER BY identity_id DESC`: the greatest id in SQLite's
      text order, which compares code points left to right. */
  function TextMax(ids: seq<string>): (m: string)
    requires |ids| > 0
    ensures m in ids
    ensures forall x :: x in ids ==> !LexLess(m, x)
  {
    if |ids| == 1 then
      LexIrreflexive(ids[0]);
      assert forall x :: x in ids ==> x == ids[0];
      ids[0]
    else
      var r := TextMax(ids[1..]);
      assert forall x :: x in ids ==> x == ids[0] || x in ids[1..];
      if LexLess(r, ids[0]) then
        LexIrreflexive(ids[0]);
        forall x | x in ids[1..]
          ensures !LexLess(ids[0], x)
        {
          if LexLess(ids[0], x) {
            LexTransitive(r, ids[0], x);
          }
        }
        ids[0]
      else r
  }

  /** The id one iteration of the generator's loop proposes: one more than the
      text-greatest id when that id is all digits, otherwise "1". */
  function Proposal(ids: seq<string>): (c: string)
    ensures IsDigits(c)
    ensures |ids| == 0 || !IsDigits(TextMax(ids)) ==> c == "1"
  {
    if |ids| > 0 && IsDigits(TextMax(ids)) then NatToString(DigitsValue(TextMax(ids)) + 1)
    else NatToString(1)
  }

  /** `generate_unique_identity_id` as written, run for at most `fuel` further
      iterations: each iteration proposes the same id, so the loop either
      returns at once or never. */
  function GenerateUniqueIdentityIdAsWritten(ids: seq<string>, fuel: nat): (r: Option<string>)
    ensures r.Some? ==> r.value !in ids && r.value == Proposal(ids)
    ensures r.Some? <==> Proposal(ids) !in ids
  {
    var c := Proposal(ids);
    if c !in ids then Some(c)
    else if fuel == 0 then None
    else GenerateUniqueIdentityIdAsWritten(ids, fuel - 1)
  }

  /** With users "1" to "10" the text-greatest id is "9", the proposal "10" is
      taken, and the generator never returns, however long it runs. */
  lemma AsWrittenLoopsAtTen(fuel: nat)
    ensures GenerateUniqueIdentityIdAsWritten(TenUsers(), fuel).None?
  {
    var ids := TenUsers();
    NineIsTextMax();
    ProposalAfterNine(ids);
    assert ids[9] == "10";
  }

  /** When "9" is the text-greatest id the proposal is "10". */
  lemma ProposalAfterNine(ids: seq<string>)
    requires |ids| > 0 && TextMax(ids) == "9"
    ensures Proposal(ids) == "10"
  {
    assert IsDigits("9");
    assert DigitsValue("9") == 9;
    assert NatToString(10) == "10";
  }

  /** Users "1" to "10". */
  function TenUsers(): (ids: seq<string>)
    ensures |ids| == 10
  {
    ["1", "2", "3", "4", "5", "6", "7", "8", "9", "10"]
  }

  lemma NineIsTextMax()
    ensures TextMax(TenUsers()) == "9"
  {
    var ids := TenUsers();
    forall x | x in ids && x != "9"
      ensures LexLess(x, "9")
    {
      var k :| 0 <= k < |ids| && ids[k] == x;
      assert k != 8;
      assert x[0] < '9';
    }
    TextMaxIs(ids, "9");
  }

  /** An id that every other id precedes is the one `TextMax` picks. */
  lemma TextMaxIs(ids: seq<string>, m: string)
    requires m in ids
    requires forall x :: x in ids && x != m ==> LexLess(x, m)
    ensures TextMax(ids) == m
  {
  }

  /** The greatest numeric value among the all-digit ids, 0 when there is none. */
  function MaxNumeric(ids: seq<string>): (m: nat)
    ensures forall x :: x in ids && IsDigits(x) ==> DigitsValue(x) <= m
    ensures m == 0 || exists x :: x in ids && IsDigits(x) && DigitsValue(x) == m
  {
    if |ids| == 0 then 0
    else
      var init := ids[..|ids| - 1];
      var last := ids[|ids| - 1];
      var prev := MaxNumeric(init);
      assert forall x :: x in ids ==> x in init || x == last;
      assert forall x :: x in init ==> x in ids;
      if IsDigits(last) && DigitsValue(last) > prev then DigitsValue(last) else prev
  }

  /** The identity id the generator evidently means to produce: one more than
      the greatest numeric id. */
  function NextIdentityId(ids: seq<string>): (r: string)
    ensures IsDigits(r) && r !in ids
    ensures DigitsValue(r) == MaxNumeric(ids) + 1
  {
    var r := NatToString(MaxNumeric(ids) + 1);
    NatToStringValue(MaxNumeric(ids) + 1);
    r
  }

  /** The ids "1" to "n", as sequential registration leaves them. */
  function Sequential(n: nat): (ids: seq<string>)
    ensures |ids| == n && forall i :: 0 <= i < n ==> ids[i] == NatToString(i + 1)
  {
    seq(n, i requires 0 <= i < n => NatToString(i + 1))
  }

  /** After users "1" to "n" the next id is str(n + 1): ids come out in order. */
  lemma {:induction false} NextAfterSequential(n: nat)
    ensures MaxNumeric(Sequential(n)) == n
    ensures NextIdentityId(Sequential(n)) == NatToString(n + 1)
  {
    if n > 0 {
      NextAfterSequential(n - 1);
      assert Sequential(n)[..n - 1] == Sequential(n - 1);
      NatToStringValue(n);
    }
  }

  // ---------------------------------------------------------------------------
  // register_face.

  /** A Python argument as `register_face` inspects it: a `str`, a value of
      another type, or `None`. */
  datatype Arg = Str(text: string) | NotStr | NoneArg

  /** What `extract_face_feature([face])` does: raise, return an empty list, or
      return a vector (whose contents the model does not need). */
  datatype Extraction = ExtractionRaised | NoVectors | Vector

  /** The values `register_face` reads from outside: the clock's
      `%Y%m%d_%H%M%S`, the first eight characters of a fresh uuid4, and the
      configured image and data directories. */
  datatype Env = Env(timestamp: string, uid: string, imageDir: string, dataDir: string)

  /** Which storage steps succeed: writing the JPEG, creating the features
      directory, writing the `.npy` file, and committing the new row. */
  datatype Storage = Storage(imageSaved: bool, featureDirReady: bool, featureSaved: bool, committed: bool)

  datatype RegisterError =
    | InvalidName          // ValueError: empty or not a str
    | InvalidIdentityType  // ValueError: identity id neither None nor a str
    | NotAnImage           // ValueError
    | DetectionFailed      // detect_face's Exception("人脸检测失败: ..."), propagated
    | NoFace               // ValueError: detection found nothing
    | ExtractionFailed     // the extractor's exception, propagated
    | NoFeature            // ValueError: the extractor returned nothing
    | IdentityTaken        // ValueError: the given identity id exists
    | IdentityLoop         // generate_unique_identity_id never returns
    | StorageFailed        // Exception("数据库操作失败: ...") after a rollback

  /** The result dictionary of a successful registration, plus the face crop
      that was saved (the first one detection lists). */
  datatype Registration = Registration(userId: nat, identityId: string, crop: FaceSelect.Box)

  /** The returned value or exception, and the database and files afterwards. */
  datatype RegisterOutcome = RegisterOutcome(result: Result<Registration, RegisterError>, db: Store.Db)

  /** `{name}_{timestamp}_{uid}`, the stem shared by the image and feature files. */
  function Stem(name: string, env: Env): string {
    name + "_" + env.timestamp + "_" + env.uid
  }

  function ImagePath(name: string, env: Env): (p: string)
    ensures |p| >= 4 && p[|p| - 4..] == ".jpg"
  {
    Store.PathJoin(env.imageDir, Stem(name, env) + ".jpg")
  }

  function FeaturePath(name: string, env: Env): (p: string)
    ensures |p| >= 4 && p[|p| - 4..] == ".npy"
  {
    Store.PathJoin(Store.PathJoin(env.dataDir, "features"), Stem(name, env) + ".npy")
  }

  /** The identity id the new row gets: the caller's, or what the generator
      as written returns. Every iteration of its loop proposes the same id, so
      one iteration decides whether it returns at all. */
  function ResolveIdentity(db: Store.Db, identity: Arg): (r: Result<string, RegisterError>)
    requires !identity.NotStr?
    ensures r.Success? ==> r.value !in Store.IdentityIds(db.rows)
    ensures identity.Str? ==> (r.Success? <==> identity.text !in Store.IdentityIds(db.rows))
    ensures identity.Str? && r.Success? ==> r.value == identity.text
    ensures identity.Str? && r.Failure? ==> r.error == IdentityTaken
    ensures identity.NoneArg? ==> (r.Success? <==> Proposal(Store.IdentityIds(db.rows)) !in Store.IdentityIds(db.rows))
    ensures identity.NoneArg? && r.Success? ==> r.value == Proposal(Store.IdentityIds(db.rows))
    ensures identity.NoneArg? && r.Failure? ==> r.error == IdentityLoop
  {
    var ids := Store.IdentityIds(db.rows);
    match identity
    case NoneArg =>
      (match GenerateUniqueIdentityIdAsWritten(ids, 0)
       case None => Failure(IdentityLoop)
       case Some(id) => Success(id))
    case Str(text) => if text in ids then Failure(IdentityTaken) else Success(text)
  }

  /** The name is a non-empty `str` and the identity id is `None` or a `str`. */
  predicate ArgumentsOk(name: Arg, identity: Arg) {
    name.Str? && name.text != [] && !identity.NotStr?
  }

  /** Every check before the identity id passes: the arguments, the image, a
      detected face, and a feature vector. */
  predicate ReadyToStore(name: Arg, identity: Arg, isImage: bool, faces: Option<FaceSelect.Faces>,
                         extraction: Extraction) {
    ArgumentsOk(name, identity) && isImage && faces.Some? && |faces.value.crops| > 0 && extraction.Vector?
  }

  /** `register_face(name, image, identity_id)`. `faces` is what `detect_face`
      returned for the image (see `FaceSelect.DetectFaces`), `None` when it
      raised. */
  function RegisterFace(db: Store.Db, name: Arg, identity: Arg, isImage: bool, faces: Option<FaceSelect.Faces>,
                        extraction: Extraction, env: Env, storage: Storage): (out: RegisterOutcome)
    // Arguments are checked in order; nothing is stored before the first write.
    ensures (!name.Str? || name.text == []) <==> out.result == Failure(InvalidName)
    ensures out.result == Failure(InvalidIdentityType) <==>
              name.Str? && name.text != [] && identity.NotStr?
    ensures out.result == Failure(NotAnImage) <==> ArgumentsOk(name, identity) && !isImage
    ensures out.result == Failure(DetectionFailed) <==> ArgumentsOk(name, identity) && isImage && faces.None?
    ensures out.result == Failure(NoFace) <==>
              ArgumentsOk(name, identity) && isImage && faces.Some? && |faces.value.crops| == 0
    ensures out.result == Failure(ExtractionFailed) <==>
              ArgumentsOk(name, identity) && isImage && faces.Some? && |faces.value.crops| > 0
              && extraction == ExtractionRaised
    ensures out.result == Failure(NoFeature) <==>
              ArgumentsOk(name, identity) && isImage && faces.Some? && |faces.value.crops| > 0
              && extraction == NoVectors
    ensures out.result.Success? ==> isImage && faces.Some? && |faces.value.crops| > 0 && extraction.Vector?
    ensures out.result.Failure? && out.result.error != StorageFailed ==> out.db == db
    // A caller-supplied identity id that exists is refused; success always adds a fresh id.
    ensures out.result == Failure(IdentityTaken) <==>
              ReadyToStore(name, identity, isImage, faces, extraction)
              && identity.Str? && identity.text in Store.IdentityIds(db.rows)
    // Without one, registration never returns when the generator's only proposal is taken.
    ensures out.result == Failure(IdentityLoop) <==>
              ReadyToStore(name, identity, isImage, faces, extraction)
              && identity.NoneArg? && Proposal(Store.IdentityIds(db.rows)) in Store.IdentityIds(db.rows)
    // Once the identity id is settled, the outcome is that of storing the first face.
    ensures ReadyToStore(name, identity, isImage, faces, extraction) && ResolveIdentity(db, identity).Success? ==>
              out == Persist(db, name.text, ResolveIdentity(db, identity).value, faces.value.crops[0], env, storage)
    ensures out.result == Failure(StorageFailed) <==>
              ReadyToStore(name, identity, isImage, faces, extraction) && ResolveIdentity(db, identity).Success?
              && !(storage.imageSaved && storage.featureDirReady && storage.committed)
    ensures out.result.Success? ==>
              var r := out.result.value;
              && r.identityId !in Store.IdentityIds(db.rows)
              && (identity.Str? ==> r.identityId == identity.text)
              && (identity.NoneArg? ==> r.identityId == Proposal(Store.IdentityIds(db.rows)))
              && r.crop == faces.value.crops[0]
              && r.userId == Store.NewRowId(db.rows)
              && out.db.rows == db.rows + [Store.Record(r.userId, name.text, r.identityId,
                                                         FeaturePath(name.text, env), ImagePath(name.text, env))]
    // Success needs the image written and the row committed; the feature file may be missing.
    ensures out.result.Success? <==>
              && name.Str? && name.text != [] && !identity.NotStr? && isImage && faces.Some?
              && |faces.value.crops| > 0
              && extraction.Vector? && ResolveIdentity(db, identity).Success?
              && storage.imageSaved && storage.featureDirReady && storage.committed
    ensures out.result.Success? ==>
              out.db.files == db.files + {ImagePath(name.text, env)}
                              + (if storage.featureSaved then {FeaturePath(name.text, env)} else {})
    // A failed commit leaves the table as it was but keeps the files already written.
    ensures out.result == Failure(StorageFailed) ==> out.db.rows == db.rows && db.files <= out.db.files
  {
    if !name.Str? || name.text == [] then RegisterOutcome(Failure(InvalidName), db)
    else if identity.NotStr? then RegisterOutcome(Failure(InvalidIdentityType), db)
    else if !isImage then RegisterOutcome(Failure(NotAnImage), db)
    else if faces.None? then RegisterOutcome(Failure(DetectionFailed), db)
    else if |faces.value.crops| == 0 then RegisterOutcome(Failure(NoFace), db)
    else if extraction == ExtractionRaised then RegisterOutcome(Failure(ExtractionFailed), db)
    else if extraction == NoVectors then RegisterOutcome(Failure(NoFeature), db)
    else match ResolveIdentity(db, identity)
      case Failure(e) => RegisterOutcome(Failure(e), db)
      case Success(id) => Persist(db, name.text, id, faces.value.crops[0], env, storage)
  }

  /** The storage half of `register_face`, once the identity id is settled:
      write the image, the feature file, then the row. */
  function Persist(db: Store.Db, name: string, id: string, crop: FaceSelect.Box, env: Env, storage: Storage)
    : (out: RegisterOutcome)
    ensures out.result.Success? <==> storage.imageSaved && storage.featureDirReady && storage.committed
    ensures out.result.Failure? ==> out.result.error == StorageFailed && out.db.rows == db.rows
    ensures !storage.imageSaved ==> out.db == db
    ensures storage.imageSaved ==>
              (out.db.files == db.files + {ImagePath(name, env)}
                 + (if storage.featureDirReady && storage.featureSaved then {FeaturePath(name, env)} else {}))
    ensures out.result.Success? ==>
              && out.result.value == Registration(Store.NewRowId(db.rows), id, crop)
              && out.db.rows == db.rows + [Store.Record(Store.NewRowId(db.rows), name, id,
                                                         FeaturePath(name, env), ImagePath(name, env))]
  {
    var imagePath := ImagePath(name, env);
    var featurePath := FeaturePath(name, env);
    if !storage.imageSaved then RegisterOutcome(Failure(StorageFailed), db)
    else
      var withImage := db.files + {imagePath};
      if !storage.featureDirReady then RegisterOutcome(Failure(StorageFailed), db.(files := withImage))
      else
        var files := withImage + (if storage.featureSaved then {featurePath} else {});
        if !storage.committed then RegisterOutcome(Failure(StorageFailed), db.(files := files))
        else
          var userId := Store.NewRowId(db.rows);
          var row := Store.Record(userId, name, id, featurePath, imagePath);
          RegisterOutcome(Success(Registration(userId, id, crop)), Store.Db(db.rows + [row], files))
  }

  /** Registration keeps identity ids and primary keys unique. */
  lemma RegisterKeepsValid(db: Store.Db, name: Arg, identity: Arg, isImage: bool, faces: Option<FaceSelect.Faces>,
                           extraction: Extraction, env: Env, storage: Storage)
    requires Store.Valid(db)
    ensures Store.Valid(RegisterFace(db, name, identity, isImage, faces, extraction, env, storage).db)
  {
    var out := RegisterFace(db, name, identity, isImage, faces, extraction, env, storage);
    if out.result.Success? {
      var rows := out.db.rows;
      var n := |db.rows|;
      forall i, j | 0 <= i < j < |rows|
        ensures Store.Apart(rows[i], rows[j])
      {
        if j == n {
          assert rows[i] == db.rows[i];
          assert Store.IdentityIds(db.rows)[i] == rows[i].identityId;
        }
      }
    }
  }

  /** A registered user can be found by the identity id registration reported. */
  lemma RegisteredIsFound(db: Store.Db, name: Arg, identity: Arg, isImage: bool, faces: Option<FaceSelect.Faces>,
                          extraction: Extraction, env: Env, storage: Storage)
    requires Store.Valid(db)
    ensures var out := RegisterFace(db, name, identity, isImage, faces, extraction, env, storage);
      out.result.Success? ==>
        && Store.FindById(out.db.rows, out.result.value.identityId).Some?
        && Store.FindById(out.db.rows, out.result.value.identityId).value.name == name.text
  {
    var out := RegisterFace(db, name, identity, isImage, faces, extraction, env, storage);
    if out.result.Success? {
      var id := out.result.value.identityId;
      var rows := out.db.rows;
      RegisterKeepsValid(db, name, identity, isImage, faces, extraction, env, storage);
      var r := Store.FindById(rows, id);
      assert rows[|rows| - 1].identityId == id;
      var k :| 0 <= k < |rows| && rows[k] == r.value;
      assert k == |rows| - 1;
    }
  }

  /** Registering without an identity id once users "1" to "10" exist never
      returns: the generator proposes "10" forever. */
  lemma RegisterLoopsAtTen(db: Store.Db, name: string, faces: FaceSelect.Faces, env: Env, storage: Storage)
    requires Store.IdentityIds(db.rows) == TenUsers()
    requires name != [] && |faces.crops| > 0
    ensures RegisterFace(db, Str(name), NoneArg, true, Some(faces), Vector, env, storage).result
              == Failure(IdentityLoop)
  {
    var ids := TenUsers();
    NineIsTextMax();
    ProposalAfterNine(ids);
    assert ids[9] == "10";
  }

  // ---------------------------------------------------------------------------
  // recognize_face.

  /** `config.RECOGNITION_THRESHOLD`. */
  const RecognitionThreshold: real := 0.6

  /** What extraction yields for one detected face: an exception, an empty
      list, or a query vector together with its comparison against the
      feature stored for each user. */
  datatype FaceFeature =
    | FeatureRaised
    | FeatureMissing
    | Feature(query: Matcher.Query, against: Store.Record -> Matcher.Stored)

  datatype RecognizeError =
    | ImageRejected     // ValueError: not a PIL image
    | DetectorRaised    // detect_face's Exception("人脸检测失败: ..."), propagated
    | NoFaceFound       // ValueError
    | NoStoredFeatures  // ValueError: no stored feature file could be loaded
    | BadQuery          // compare_face_features' ValueError, propagated
    | ExtractorRaised   // any other exception, re-raised as "数据库操作失败"

  datatype FaceError = ExtractionFailedForFace | NoMatchingUser

  /** One entry of `match_details`. */
  datatype Detail = Detail(faceIndex: nat, matchedUser: Option<string>, similarity: real,
                           box: FaceSelect.Box, error: Option<FaceError>)

  datatype Recognition = Recognition(totalCount: nat, matchedCount: nat, unmatchedCountDb: int,
                                     matchedNames: set<string>, unmatchedNamesDb: set<string>,
                                     faceBoxes: seq<FaceSelect.Box>, details: seq<Detail>)

  /** The users whose feature file `load_face_feature` can read, in table order. */
  function Loaded(rows: seq<Store.Record>, loads: string -> bool): (us: seq<Store.Record>)
    ensures forall u :: u in us <==> u in rows && loads(u.featurePath)
    ensures |us| <= |rows|
  {
    if |rows| == 0 then []
    else
      var rest := Loaded(rows[1..], loads);
      assert forall u :: u in rows <==> u == rows[0] || u in rows[1..];
      if loads(rows[0].featurePath) then [rows[0]] + rest else rest
  }

  /** `user_features`: the comparison inputs, one per loaded user. */
  function StoredFeatures(users: seq<Store.Record>, against: Store.Record -> Matcher.Stored)
    : (db: seq<Matcher.Stored>)
    ensures |db| == |users| && forall j :: 0 <= j < |users| ==> db[j] == against(users[j])
  {
    seq(|users|, j requires 0 <= j < |users| => against(users[j]))
  }

  /** No stored feature gets a recorded similarity: the face matches nobody. */
  predicate NoneRecorded(q: Matcher.Query, db: seq<Matcher.Stored>) {
    forall j :: 0 <= j < |db| ==> Matcher.Recorded(q, db, RecognitionThreshold, j).None?
  }

  /** s is at least every recorded similarity. */
  predicate AtLeastAllRecorded(q: Matcher.Query, db: seq<Matcher.Stored>, s: real) {
    forall j :: 0 <= j < |db| && Matcher.Recorded(q, db, RecognitionThreshold, j).Some? ==>
      Matcher.Recorded(q, db, RecognitionThreshold, j).value <= s
  }

  /** Entry j records similarity s, and every earlier entry records less: j is
      the entry the ranked matches put first. */
  predicate EarliestBest(q: Matcher.Query, db: seq<Matcher.Stored>, j: nat, s: real)
    requires j < |db|
  {
    && Matcher.Recorded(q, db, RecognitionThreshold, j) == Some(s)
    && forall k :: 0 <= k < j && Matcher.Recorded(q, db, RecognitionThreshold, k).Some? ==>
         Matcher.Recorded(q, db, RecognitionThreshold, k).value < s
  }

  /** The body of the per-face loop for face i. */
  function FaceDetail(i: nat, box: FaceSelect.Box, f: FaceFeature, users: seq<Store.Record>)
    : (r: Result<Detail, RecognizeError>)
    ensures r.Failure? <==> f.FeatureRaised? || (f.Feature? && f.query.shape != Matcher.FeatureDim)
    ensures r.Failure? ==> r.error == (if f.FeatureRaised? then ExtractorRaised else BadQuery)
    ensures r.Success? ==> r.value.faceIndex == i && r.value.box == box
    ensures r.Success? ==> (r.value.matchedUser.Some? <==> r.value.error.None?)
    ensures r.Success? && r.value.matchedUser.None? ==> r.value.similarity == 0.0
    ensures f.FeatureMissing? ==> r == Success(Detail(i, None, 0.0, box, Some(ExtractionFailedForFace)))
    // A matched face is given to the user with the best similarity, at least
    // the threshold; among equals, the earliest loaded user.
    ensures r.Success? && r.value.matchedUser.Some? ==>
              && f.Feature?
              && r.value.similarity >= RecognitionThreshold
              && (exists j :: 0 <= j < |users| && users[j].name == r.value.matchedUser.value
                     && EarliestBest(f.query, StoredFeatures(users, f.against), j, r.value.similarity))
              && AtLeastAllRecorded(f.query, StoredFeatures(users, f.against), r.value.similarity)
    // A face goes unmatched exactly when no stored feature comes near the threshold.
    ensures r.Success? && f.Feature? ==>
              (r.value.matchedUser.None? <==> NoneRecorded(f.query, StoredFeatures(users, f.against)))
  {
    match f
    case FeatureRaised => Failure(ExtractorRaised)
    case FeatureMissing => Success(Detail(i, None, 0.0, box, Some(ExtractionFailedForFace)))
    case Feature(q, against) =>
      var db := StoredFeatures(users, against);
      match Matcher.Compare(q, db, RecognitionThreshold)
      case Failure(_) => Failure(BadQuery)
      case Success(c) =>
        if |c.matches| > 0 then
          var best := c.matches[0];
          BestIsTop(q, db, c.matches);
          assert users[best.index].name == users[best.index].name;
          Success(Detail(i, Some(users[best.index].name), best.similarity, box, None))
        else
          NoMatchesNoneRecorded(q, db);
          Success(Detail(i, None, c.maxSimilarity, box, Some(NoMatchingUser)))
  }

  /** The first of the ranked matches has the largest recorded similarity. */
  lemma BestIsTop(q: Matcher.Query, db: seq<Matcher.Stored>, ms: seq<Matcher.Match>)
    requires ms == Matcher.Matches(q, db, RecognitionThreshold) && |ms| > 0
    ensures ms[0].similarity >= RecognitionThreshold
    ensures AtLeastAllRecorded(q, db, ms[0].similarity)
    ensures !NoneRecorded(q, db)
    ensures ms[0].index < |db| && EarliestBest(q, db, ms[0].index, ms[0].similarity)
  {
    assert Matcher.Recorded(q, db, RecognitionThreshold, ms[0].index).Some?;
    forall k | 0 <= k < ms[0].index && Matcher.Recorded(q, db, RecognitionThreshold, k).Some?
      ensures Matcher.Recorded(q, db, RecognitionThreshold, k).value < ms[0].similarity
    {
      var a :| 0 <= a < |ms| && ms[a].index == k;
      assert a != 0;
      assert Matcher.Precedes(ms[0], ms[a]);
    }
    forall j | 0 <= j < |db| && Matcher.Recorded(q, db, RecognitionThreshold, j).Some?
      ensures Matcher.Recorded(q, db, RecognitionThreshold, j).value <= ms[0].similarity
    {
      var a :| 0 <= a < |ms| && ms[a].index == j;
      if a > 0 {
        assert Matcher.Precedes(ms[0], ms[a]);
      }
    }
  }

  lemma NoMatchesNoneRecorded(q: Matcher.Query, db: seq<Matcher.Stored>)
    requires |Matcher.Matches(q, db, RecognitionThreshold)| == 0
    ensures NoneRecorded(q, db)
  {
  }

  /** The loop over the first n faces: stops at the first face that raises. */
  function Details(n: nat, boxes: seq<FaceSelect.Box>, features: nat -> FaceFeature, users: seq<Store.Record>)
    : (r: Result<seq<Detail>, RecognizeError>)
    requires n <= |boxes|
    ensures r.Success? <==> forall i :: 0 <= i < n ==> FaceDetail(i, boxes[i], features(i), users).Success?
    ensures r.Failure? ==> r.error == BadQuery || r.error == ExtractorRaised
    ensures r.Failure? ==> FirstFaceError(n, boxes, features, users, r.error)
    ensures r.Success? ==> DetailsOf(r.value, n, boxes, features, users)
  {
    var step := (i: nat) => if i < |boxes| then FaceDetail(i, boxes[i], features(i), users) else Failure(BadQuery);
    assert forall i :: 0 <= i < n ==> step(i) == FaceDetail(i, boxes[i], features(i), users);
    var r := Collect(n, step);
    if r.Failure? then
      var i :| 0 <= i < n && step(i) == Failure(r.error) && forall j :: 0 <= j < i ==> step(j).Success?;
      assert forall j :: 0 <= j < i ==> FaceDetail(j, boxes[j], features(j), users).Success?;
      r
    else r
  }

  /** Face i is the first of faces 0..n-1 whose step raises, and it raises e. */
  predicate FirstFaceError(n: nat, boxes: seq<FaceSelect.Box>, features: nat -> FaceFeature,
                           users: seq<Store.Record>, e: RecognizeError)
    requires n <= |boxes|
  {
    exists i :: 0 <= i < n && FaceDetail(i, boxes[i], features(i), users) == Failure(e)
                && forall j :: 0 <= j < i ==> FaceDetail(j, boxes[j], features(j), users).Success?
  }

  /** The per-face step for faces 0..n-1 in turn, stopping at the first that
      raises, whose error is the result. */
  function Collect(n: nat, step: nat -> Result<Detail, RecognizeError>): (r: Result<seq<Detail>, RecognizeError>)
    ensures r.Success? <==> forall i :: 0 <= i < n ==> step(i).Success?
    ensures r.Failure? ==> exists i :: 0 <= i < n && step(i) == Failure(r.error)
                              && forall j :: 0 <= j < i ==> step(j).Success?
    ensures r.Success? ==> |r.value| == n && forall i :: 0 <= i < n ==> step(i) == Success(r.value[i])
  {
    if n == 0 then Success([])
    else
      match Collect(n - 1, step)
      case Failure(e) => Failure(e)
      case Success(ds) =>
        match step(n - 1)
        case Failure(e) => Failure(e)
        case Success(d) => Success(ds + [d])
  }

  /** ds is what the loop records for faces 0..n-1. */
  predicate DetailsOf(ds: seq<Detail>, n: nat, boxes: seq<FaceSelect.Box>, features: nat -> FaceFeature,
                      users: seq<Store.Record>)
    requires n <= |boxes|
  {
    |ds| == n && forall i :: 0 <= i < n ==> FaceDetail(i, boxes[i], features(i), users) == Success(ds[i])
  }

  /** `matched_names`: the users some face was matched to. */
  function MatchedNames(ds: seq<Detail>): (names: set<string>)
    ensures forall n :: n in names <==> exists i :: 0 <= i < |ds| && ds[i].matchedUser == Some(n)
  {
    set i | 0 <= i < |ds| && ds[i].matchedUser.Some? :: ds[i].matchedUser.value
  }

  /** Every face adds at most one name. */
  lemma {:induction false} MatchedNamesBound(ds: seq<Detail>)
    ensures |MatchedNames(ds)| <= |ds|
  {
    if |ds| > 0 {
      var init := ds[..|ds| - 1];
      MatchedNamesBound(init);
      var last := ds[|ds| - 1];
      var extra: set<string> := if last.matchedUser.Some? then {last.matchedUser.value} else {};
      forall n | n in MatchedNames(ds)
        ensures n in MatchedNames(init) + extra
      {
        var i :| 0 <= i < |ds| && ds[i].matchedUser == Some(n);
        if i < |ds| - 1 {
          assert init[i].matchedUser == Some(n);
        }
      }
      assert MatchedNames(ds) <= MatchedNames(init) + extra;
      SubsetCardinality(MatchedNames(ds), MatchedNames(init) + extra);
    }
  }

  lemma SubsetCardinality(a: set<string>, b: set<string>)
    requires a <= b
    ensures |a| <= |b|
  {
    assert b == a + (b - a);
  }

  /** The summary `recognize_face` builds from the per-face details. */
  function Summary(total: nat, boxes: seq<FaceSelect.Box>, ds: seq<Detail>, users: seq<Store.Record>)
    : (rec: Recognition)
    ensures rec.totalCount == total && rec.faceBoxes == boxes && rec.details == ds
    ensures rec.matchedNames == MatchedNames(ds)
    ensures rec.matchedCount == |rec.matchedNames|
    ensures rec.unmatchedCountDb == rec.totalCount - rec.matchedCount
    ensures forall n :: n in rec.unmatchedNamesDb <==> n !in rec.matchedNames && n in Store.Names(users)
  {
    var names := MatchedNames(ds);
    Recognition(total, |names|, total - |names|, names, Store.Names(users) - names, boxes, ds)
  }

  /** The names of the loaded users are the names of stored users whose
      features load. */
  lemma LoadedNames(rows: seq<Store.Record>, loads: string -> bool, n: string)
    ensures n in Store.Names(Loaded(rows, loads)) <==> exists u :: u in rows && loads(u.featurePath) && u.name == n
  {
    var users := Loaded(rows, loads);
    if n in Store.Names(users) {
      var j :| 0 <= j < |users| && users[j].name == n;
      assert users[j] in users;
    }
    if exists u :: u in rows && loads(u.featurePath) && u.name == n {
      var u :| u in rows && loads(u.featurePath) && u.name == n;
      assert u in users;
      var j :| 0 <= j < |users| && users[j] == u;
    }
  }

  /** `recognize_face(image)`. `faces` is what `detect_face` returned (`None`
      when it raised), `loads`
      says which feature files `load_face_feature` reads, and `features(i)` is
      what extraction and comparison give for face i. */
  function RecognizeFace(rows: seq<Store.Record>, isImage: bool, faces: Option<FaceSelect.Faces>,
                         loads: string -> bool, features: nat -> FaceFeature)
    : (r: Result<Recognition, RecognizeError>)
    ensures r == Failure(ImageRejected) <==> !isImage
    ensures r == Failure(DetectorRaised) <==> isImage && faces.None?
    ensures isImage && faces.Some? && |faces.value.crops| == 0 ==> r == Failure(NoFaceFound)
    ensures r.Success? ==>
              faces.Some? && r.value.totalCount == |faces.value.crops| > 0 && r.value.faceBoxes == faces.value.boxes
    // An empty table recognises nobody and reports no details.
    ensures isImage && faces.Some? && |faces.value.crops| > 0 && |rows| == 0 ==>
              r.Success? && r.value.matchedCount == 0 && r.value.unmatchedCountDb == 0 && r.value.details == []
              && r.value.matchedNames == {} && r.value.unmatchedNamesDb == {}
    ensures isImage && faces.Some? && |faces.value.crops| > 0 && |rows| > 0 ==>
              (r == Failure(NoStoredFeatures) <==> forall u :: u in rows ==> !loads(u.featurePath))
    // With faces and loadable features, recognition succeeds exactly when no
    // face raises, and otherwise ends with the first raising face's error.
    ensures isImage && faces.Some? && |faces.value.crops| > 0 && (exists u :: u in rows && loads(u.featurePath)) ==>
              var fs := faces.value;
              var n := FaceSelect.Min(|fs.crops|, |fs.boxes|);
              var users := Loaded(rows, loads);
              && (r.Success? <==> forall i :: 0 <= i < n ==> FaceDetail(i, fs.boxes[i], features(i), users).Success?)
              && (r.Failure? ==> FirstFaceError(n, fs.boxes, features, users, r.error))
    ensures r.Success? && |rows| > 0 ==>
              var fs := faces.value;
              var users := Loaded(rows, loads);
              && DetailsOf(r.value.details, FaceSelect.Min(|fs.crops|, |fs.boxes|), fs.boxes, features, users)
              && r.value == Summary(|fs.crops|, fs.boxes, r.value.details, users)
  {
    if !isImage then Failure(ImageRejected)
    else if faces.None? then Failure(DetectorRaised)
    else
      var fs := faces.value;
      if |fs.crops| == 0 then Failure(NoFaceFound)
      else if |rows| == 0 then Success(Recognition(|fs.crops|, 0, 0, {}, {}, fs.boxes, []))
      else
        var users := Loaded(rows, loads);
        if |users| == 0 then
          assert forall u :: u in rows ==> u !in users;
          Failure(NoStoredFeatures)
        else
          assert users[0] in users;
          match Details(FaceSelect.Min(|fs.crops|, |fs.boxes|), fs.boxes, features, users)
          case Failure(e) => Failure(e)
          case Success(ds) => Success(Summary(|fs.crops|, fs.boxes, ds, users))
  }

  /** The names reported as not seen are the loaded users' names that no face matched. */
  lemma UnmatchedNamesAreLoadedUsers(rows: seq<Store.Record>, isImage: bool, faces: Option<FaceSelect.Faces>,
                                     loads: string -> bool, features: nat -> FaceFeature, n: string)
    ensures var r := RecognizeFace(rows, isImage, faces, loads, features);
      r.Success? ==>
        (n in r.value.unmatchedNamesDb <==>
           n !in r.value.matchedNames && exists u :: u in rows && loads(u.featurePath) && u.name == n)
  {
    LoadedNames(rows, loads, n);
  }

  /** Never more users are reported matched than faces were detected, so the
      "not in the database" count is never negative. */
  lemma MatchedWithinFaces(rows: seq<Store.Record>, isImage: bool, faces: Option<FaceSelect.Faces>,
                           loads: string -> bool, features: nat -> FaceFeature)
    ensures var r := RecognizeFace(rows, isImage, faces, loads, features);
      r.Success? ==> r.value.matchedCount <= r.value.totalCount && r.value.unmatchedCountDb >= 0
  {
    var r := RecognizeFace(rows, isImage, faces, loads, features);
    if r.Success? && |rows| > 0 {
      MatchedNamesBound(r.value.details);
    }
  }

  /** Each matched name belongs to a stored user whose features loaded. */
  lemma MatchedAreLoadedUsers(rows: seq<Store.Record>, isImage: bool, faces: Option<FaceSelect.Faces>,
                              loads: string -> bool, features: nat -> FaceFeature, n: string)
    ensures var r := RecognizeFace(rows, isImage, faces, loads, features);
      r.Success? && n in r.value.matchedNames ==>
        exists u :: u in rows && loads(u.featurePath) && u.name == n
  {
    var r := RecognizeFace(rows, isImage, faces, loads, features);
    if r.Success? && n in r.value.matchedNames {
      var users := Loaded(rows, loads);
      var ds := r.value.details;
      var i :| 0 <= i < |ds| && ds[i].matchedUser == Some(n);
      var j :| 0 <= j < |users| && users[j].name == n;
      assert users[j] in users;
    }
  }
}

=== FILE: face_adjust.dfy ===
/** `FaceAdjustment`: the adjuster keeps the last image it opened and the
    current face box; a box comes from automatic detection or from a manual
    adjustment, and the face is cropped around it with a margin of a tenth.
    Drawing on the image and encoding it are left out, except that the
    conversion to OpenCV's colour order fails for an image that is not RGB. */
module FaceAdjust {
  import opened Wrappers
  import FaceSelect

  type Box = FaceSelect.Box
  type ImageSize = FaceSelect.ImageSize

  /** `image_data` and `current_face_box`; `converts` says whether the stored
      image survives `cv2.cvtColor(..., COLOR_RGB2BGR)`, which needs three or
      four channels (a PIL image in mode "L", "LA" or "P" has fewer). */
  datatype Adjuster = Adjuster(currentBox: Option<Box>, image: Option<ImageSize>, converts: bool)

  const Initial: Adjuster := Adjuster(None, None, true)

  /** An image handed over directly, with whether it converts to BGR, or a
      file that may fail to open (and is converted to RGB when it opens). */
  datatype ImageFile = Pil(size: ImageSize, converts: bool) | File(loaded: Option<ImageSize>)

  function Converts(f: ImageFile): bool {
    f.File? || f.converts
  }

  function Open(f: ImageFile): (r: Option<ImageSize>)
    ensures f.Pil? ==> r == Some(f.size)
  {
    match f
    case Pil(size, _) => Some(size)
    case File(loaded) => loaded
  }

  datatype ProcessResult = ProcessResult(success: bool, faceBox: Option<Box>, faceCount: nat)

  /** `process_image(image_file, target_region)`; `detection` is what
      `detect_face` returned, or None when it raised. The image is stored
      before detection; an image that does not convert to BGR then fails the
      call before any box is chosen. */
  function ProcessImage(st: Adjuster, file: ImageFile, detection: Option<FaceSelect.Faces>): (out: (Adjuster, ProcessResult))
    ensures var (st', r) := out;
      && (r.success <==> Open(file).Some? && detection.Some? && Converts(file) && |detection.value.boxes| > 0)
      && (r.success ==> r.faceBox == st'.currentBox == Some(detection.value.boxes[0])
                        && r.faceCount == |detection.value.boxes|)
      && (!r.success ==> r.faceBox.None? && r.faceCount == 0)
      && (Open(file).None? ==> st' == st)
      && (Open(file).Some? ==> st'.image == Open(file) && st'.converts == Converts(file))
      && (Open(file).Some? && (detection.None? || !Converts(file)) ==> st'.currentBox == st.currentBox)
      && (Open(file).Some? && detection.Some? && Converts(file) && |detection.value.boxes| == 0 ==>
            st'.currentBox.None?)
  {
    match Open(file)
    case None => (st, ProcessResult(false, None, 0))
    case Some(img) =>
      var st1 := st.(image := Some(img), converts := Converts(file));
      match detection
      case None => (st1, ProcessResult(false, None, 0))
      case Some(faces) =>
        if !Converts(file) then (st1, ProcessResult(false, None, 0))
        else
          if |faces.boxes| > 0 then
            (st1.(currentBox := Some(faces.boxes[0])), ProcessResult(true, Some(faces.boxes[0]), |faces.boxes|))
          else
            (st1.(currentBox := None), ProcessResult(false, None, 0))
  }

  /** Automatic detection stores the face `detect_face` ranks first: the one
      with the best score, and the earliest detection among equals. When a
      crop is inverted, `detect_face` raises and the current box is kept. */
  lemma ProcessSelectsBestFace(st: Adjuster, img: ImageSize, results: seq<FaceSelect.RawDetection>,
                               target: Option<Box>, centreRatio: (Box, Box) -> real)
    requires |results| > 0
    ensures var cs := FaceSelect.Candidates(img, results, target, centreRatio);
      var det := FaceSelect.DetectFaces(img, results, target, centreRatio);
      var (st', r) := ProcessImage(st, Pil(img, true), if det.Success? then Some(det.value) else None);
      && (r.success <==> FaceSelect.CropsOrdered(cs))
      && (!r.success ==> st'.currentBox == st.currentBox)
      && (r.success ==>
            exists i :: 0 <= i < |cs| && st'.currentBox == Some(cs[i].box)
              && (forall j :: 0 <= j < |cs| ==> cs[j].score <= cs[i].score)
              && (forall j :: 0 <= j < i ==> cs[j].score < cs[i].score))
  {
    var cs := FaceSelect.Candidates(img, results, target, centreRatio);
    var det := FaceSelect.DetectFaces(img, results, target, centreRatio);
    if det.Success? {
      FaceSelect.TopFaceIsBest(cs);
      var top := FaceSelect.Ranked(cs)[0];
      assert det.value.boxes[0] == top.box;
      assert cs[top.index] == top;
    }
  }

  /** The image argument of `manual_adjust`: an image (with whether it
      converts to BGR), base64 text that may fail to decode (and is converted
      to RGB when it does), or nothing (use the stored image). */
  datatype AdjustInput = PilImage(size: ImageSize, converts: bool) | Base64(decoded: Option<ImageSize>) | NoImageArg

  datatype AdjustError = BadFormat | BadCoordinates | DecodeFailed | NoImage | DrawFailed

  /** Whether the image `manual_adjust` draws on converts to BGR. */
  function InputConverts(st: Adjuster, input: AdjustInput): bool {
    match input
    case PilImage(_, converts) => converts
    case Base64(_) => true
    case NoImageArg => st.converts
  }

  /** `manual_adjust(image_data, new_face_box)`. The box is stored before the
      image is drawn on, so a failed conversion to BGR reports failure with
      the new box already current. */
  function ManualAdjust(st: Adjuster, input: AdjustInput, box: seq<int>): (out: (Adjuster, Result<Box, AdjustError>))
    ensures var (st', r) := out;
      && (r.Success? <==> |box| == 4 && box[0] < box[2] && box[1] < box[3]
                          && (input.PilImage? || (input.Base64? && input.decoded.Some?) || (input.NoImageArg? && st.image.Some?))
                          && InputConverts(st, input))
      && (r.Success? ==> r.value == FaceSelect.Box(box[0], box[1], box[2], box[3]) && st' == st.(currentBox := Some(r.value)))
      && (r == Failure(DrawFailed) <==>
            |box| == 4 && box[0] < box[2] && box[1] < box[3]
            && (input.PilImage? || (input.NoImageArg? && st.image.Some?)) && !InputConverts(st, input))
      && (r == Failure(DrawFailed) ==> st' == st.(currentBox := Some(FaceSelect.Box(box[0], box[1], box[2], box[3]))))
      && (r.Failure? && r.error != DrawFailed ==> st' == st)
      && (r == Failure(BadFormat) <==> |box| != 4)
      && (r == Failure(BadCoordinates) <==> |box| == 4 && (box[0] >= box[2] || box[1] >= box[3]))
  {
    if |box| != 4 then (st, Failure(BadFormat))
    else if box[0] >= box[2] || box[1] >= box[3] then (st, Failure(BadCoordinates))
    else
      var image: Result<Option<ImageSize>, AdjustError> := match input
        case PilImage(size, _) => Success(Some(size))
        case Base64(decoded) => if decoded.Some? then Success(decoded) else Failure(DecodeFailed)
        case NoImageArg => Success(st.image);
      if image.Failure? then (st, Failure(image.error))
      else if image.value.None? then (st, Failure(NoImage))
      else
        var b := FaceSelect.Box(box[0], box[1], box[2], box[3]);
        if InputConverts(st, input) then (st.(currentBox := Some(b)), Success(b))
        else (st.(currentBox := Some(b)), Failure(DrawFailed))
  }

  /** `get_adjusted_face()`: the crop region, before resizing to 160x160;
      `Success(None)` when there is no image or no box. Nothing catches the
      crop's ValueError, so a box beyond the image makes the call raise. */
  function GetAdjustedFace(st: Adjuster): (r: Result<Option<Box>, FaceSelect.CropError>)
    ensures r == Success(None) <==> st.image.None? || st.currentBox.None?
    ensures r == Failure(FaceSelect.InvertedCrop) <==>
              st.image.Some? && st.currentBox.Some? && !FaceSelect.Ordered(CropAround(st.currentBox.value, st.image.value))
    ensures r.Success? && r.value.Some? ==>
              && FaceSelect.Ordered(r.value.value)
              && FaceSelect.ClampedToImage(r.value.value, st.image.value)
              && (FaceSelect.Ordered(st.currentBox.value) && FaceSelect.ClampedToImage(st.currentBox.value, st.image.value) ==>
                    FaceSelect.Contains(r.value.value, st.currentBox.value))
  {
    if st.image.Some? && st.currentBox.Some? then
      var c := CropAround(st.currentBox.value, st.image.value);
      if FaceSelect.Ordered(c) then Success(Some(c)) else Failure(FaceSelect.InvertedCrop)
    else Success(None)
  }

  /** A box that lies in the image is always cropped. */
  lemma BoxInImageCrops(st: Adjuster)
    requires st.image.Some? && st.currentBox.Some?
    requires FaceSelect.Ordered(st.currentBox.value) && FaceSelect.ClampedToImage(st.currentBox.value, st.image.value)
    ensures GetAdjustedFace(st) == Success(Some(CropAround(st.currentBox.value, st.image.value)))
  {
    var c := CropAround(st.currentBox.value, st.image.value);
    assert FaceSelect.Contains(c, st.currentBox.value);
  }

  /** The manual adjustment accepts a box beyond the image, and the crop then
      raises: a 100-pixel box at (1000, 1000) on a 500 by 500 image is cut
      down to (990, 990, 500, 500). */
  lemma BoxBeyondImageRaises()
    ensures var st := Adjuster(None, Some(FaceSelect.ImageSize(500, 500)), true);
      var (st', r) := ManualAdjust(st, NoImageArg, [1000, 1000, 1100, 1100]);
      && r.Success?
      && GetAdjustedFace(st') == Failure(FaceSelect.InvertedCrop)
  {
    var c := CropAround(FaceSelect.Box(1000, 1000, 1100, 1100), FaceSelect.ImageSize(500, 500));
    assert FaceSelect.Tenth(100) == 10;
    assert c == FaceSelect.Box(990, 990, 500, 500);
  }

  /** The box widened by a tenth of its width and height, within the image. */
  function CropAround(b: Box, img: ImageSize): (c: Box)
    ensures FaceSelect.ClampedToImage(c, img)
    ensures b.x1 <= b.x2 && b.y1 <= b.y2 && FaceSelect.ClampedToImage(b, img) ==> FaceSelect.Contains(c, b)
    ensures b.x1 <= b.x2 && b.y1 <= b.y2 ==>
              b.x1 - c.x1 <= (b.x2 - b.x1) / 10 && c.x2 - b.x2 <= (b.x2 - b.x1) / 10
              && b.y1 - c.y1 <= (b.y2 - b.y1) / 10 && c.y2 - b.y2 <= (b.y2 - b.y1) / 10
  {
    FaceSelect.Expand(b, FaceSelect.Tenth(b.x2 - b.x1), FaceSelect.Tenth(b.y2 - b.y1), img)
  }

  /** A manual box replaces the stored one, but the image it was drawn on is
      not kept: with no stored image, the adjustment succeeds and yet there is
      no face to crop afterwards. */
  lemma ManualAdjustKeepsNoImage(size: ImageSize, box: seq<int>)
    requires |box| == 4 && box[0] < box[2] && box[1] < box[3]
    ensures var (st', r) := ManualAdjust(Initial, PilImage(size, true), box);
      r.Success? && GetAdjustedFace(st') == Success(None)
  {
  }

  const MinFaceSize: int := 50

  datatype RegionError = RegionFormat | OutOfImage | TooSmall | BadAspectRatio

  /** The bounds check of `validate_face_region`. */
  predicate InImage(box: seq<int>, size: ImageSize)
    requires |box| == 4
  {
    0 <= box[0] && 0 <= box[1] && box[2] <= size.width && box[3] <= size.height
  }

  /** A face region the adjuster accepts, in integers: inside the image, at
      least 50 pixels each way, and neither side more than twice the other. */
  predicate AcceptableRegion(box: seq<int>, size: ImageSize) {
    && |box| == 4
    && InImage(box, size)
    && box[2] - box[0] >= MinFaceSize && box[3] - box[1] >= MinFaceSize
    && box[3] - box[1] <= 2 * (box[2] - box[0])
    && box[2] - box[0] <= 2 * (box[3] - box[1])
  }

  /** `validate_face_region(face_box, image_size)`; checks run in the order
      format, bounds, size, aspect ratio. */
  function ValidateFaceRegion(box: Option<seq<int>>, size: ImageSize): (r: Result<(), RegionError>)
    ensures r.Success? <==> box.Some? && AcceptableRegion(box.value, size)
    ensures r == Failure(RegionFormat) <==> box.None? || |box.value| != 4
    // The first check that fails decides the reason reported.
    ensures r == Failure(OutOfImage) <==>
              box.Some? && |box.value| == 4 && !InImage(box.value, size)
    ensures r == Failure(TooSmall) <==>
              box.Some? && |box.value| == 4 && InImage(box.value, size)
              && (box.value[2] - box.value[0] < MinFaceSize || box.value[3] - box.value[1] < MinFaceSize)
    ensures r == Failure(BadAspectRatio) <==>
              box.Some? && |box.value| == 4 && InImage(box.value, size)
              && box.value[2] - box.value[0] >= MinFaceSize && box.value[3] - box.value[1] >= MinFaceSize
              && (2 * (box.value[2] - box.value[0]) < box.value[3] - box.value[1]
                  || box.value[2] - box.value[0] > 2 * (box.value[3] - box.value[1]))
  {
    match box
    case None => Failure(RegionFormat)
    case Some(b) =>
      if |b| != 4 then Failure(RegionFormat)
      else if b[0] < 0 || b[1] < 0 || b[2] > size.width || b[3] > size.height then Failure(OutOfImage)
      else
        var w := b[2] - b[0];
        var h := b[3] - b[1];
        if w < MinFaceSize || h < MinFaceSize then Failure(TooSmall)
        else
          var ratio := w as real / h as real;
          RatioBounds(w, h);
          if ratio < 0.5 || ratio > 2.0 then Failure(BadAspectRatio) else Success(())
  }

  /** The real aspect-ratio test agrees with the integer one. */
  lemma RatioBounds(w: int, h: int)
    requires h > 0
    ensures (w as real / h as real < 0.5) <==> 2 * w < h
    ensures (w as real / h as real > 2.0) <==> w > 2 * h
  {
    QuotientBelow(w as real, h as real, 0.5);
    QuotientAbove(w as real, h as real, 2.0);
  }

  lemma QuotientBelow(x: real, y: real, k: real)
    requires y > 0.0
    ensures x / y < k <==> x < k * y
  {
    var q := x / y;
    assert q * y == x;
    ScaleStrict(q, k, y);
  }

  lemma QuotientAbove(x: real, y: real, k: real)
    requires y > 0.0
    ensures x / y > k <==> x > k * y
  {
    var q := x / y;
    assert q * y == x;
    ScaleStrict(k, q, y);
  }

  lemma ScaleStrict(a: real, b: real, c: real)
    requires c > 0.0
    ensures a < b <==> a * c < b * c
  {
    assert (b - a) * c == b * c - a * c;
    if a < b {
      assert (b - a) * c > 0.0;
    }
    if a >= b {
      assert (a - b) * c >= 0.0;
    }
  }

  /** `get_cropped_face(image_file, face_box)`: the crop region, or None when
      the image cannot be opened or the region is not acceptable. */
  function GetCroppedFace(file: ImageFile, box: Option<seq<int>>): (crop: Option<Box>)
    ensures crop.Some? <==> Open(file).Some? && box.Some? && AcceptableRegion(box.value, Open(file).value)
    ensures crop.Some? ==>
      var b := FaceSelect.Box(box.value[0], box.value[1], box.value[2], box.value[3]);
      && FaceSelect.ClampedToImage(crop.value, Open(file).value)
      && FaceSelect.Contains(crop.value, b)
  {
    match Open(file)
    case None => None
    case Some(img) =>
      if ValidateFaceRegion(box, img).Failure? then None
      else
        var b := box.value;
        Some(CropAround(FaceSelect.Box(b[0], b[1], b[2], b[3]), img))
  }

  /** Cropping a validated region by file and cropping it through the adjuster
      after a manual adjustment on the stored image give the same region; the
      adjustment itself reports success exactly when the stored image converts. */
  lemma CropPathsAgree(img: ImageSize, box: seq<int>, current: Option<Box>, converts: bool)
    requires AcceptableRegion(box, img)
    ensures var (st', r) := ManualAdjust(Adjuster(current, Some(img), converts), NoImageArg, box);
      && (r.Success? <==> converts)
      && GetAdjustedFace(st') == Success(GetCroppedFace(Pil(img, converts), Some(box)))
  {
    BoxInImageCrops(Adjuster(Some(FaceSelect.Box(box[0], box[1], box[2], box[3])), Some(img), converts));
  }
}

=== FILE: face_select.dfy ===
/** Face selection in `detect_face`: every detector box is clamped to the
    image, widened by a tenth of its size for the crop, scored from its
    confidence and its agreement with an optional target region, and the
    faces are returned best first. The detector itself is an input. */
module FaceSelect {
  import opened Wrappers
  import StableSort

  datatype ImageSize = ImageSize(width: nat, height: nat)

  /** Corners (x1, y1) and (x2, y2) in pixels. */
  datatype Box = Box(x1: int, y1: int, x2: int, y2: int)

  /** One detector result: top-left corner, width, height, and the confidence
      if the detector reported one. */
  datatype RawDetection = RawDetection(x: int, y: int, w: int, h: int, confidence: Option<real>)

  /** A scored face; `index` is its position in the detector's output. */
  datatype Candidate = Candidate(index: nat, box: Box, crop: Box, confidence: real, score: real)

  /** The three index-aligned lists `detect_face` returns. */
  datatype Faces = Faces(boxes: seq<Box>, crops: seq<Box>, confidences: seq<real>)

  const ConfidenceWeight: real := 0.7
  const RegionWeight: real := 0.3

  function Max(a: int, b: int): int { if a >= b then a else b }
  function Min(a: int, b: int): int { if a <= b then a else b }

  /** The corners are clamped to the image: no negative near edge, no far edge
      beyond the image. A box wholly outside the image can still satisfy it,
      as `max(0, x)` leaves an x beyond the width unchanged. */
  predicate ClampedToImage(b: Box, img: ImageSize) {
    0 <= b.x1 && 0 <= b.y1 && b.x2 <= img.width && b.y2 <= img.height
  }

  predicate Contains(outer: Box, inner: Box) {
    outer.x1 <= inner.x1 && outer.y1 <= inner.y1 && inner.x2 <= outer.x2 && inner.y2 <= outer.y2
  }

  /** Left edge not right of the right edge, top not below the bottom: the
      boxes PIL's `crop` accepts. */
  predicate Ordered(b: Box) {
    b.x1 <= b.x2 && b.y1 <= b.y2
  }

  /** PIL's `crop` raises ValueError for a box that is not `Ordered`. */
  datatype CropError = InvertedCrop

  /** A detection of non-negative size that reaches into the image or touches
      its edge, as the detector reports a face it found in the image. */
  predicate MeetsImage(d: RawDetection, img: ImageSize) {
    && 0 <= d.w && 0 <= d.h
    && d.x <= img.width && d.y <= img.height
    && 0 <= d.x + d.w && 0 <= d.y + d.h
  }

  /** `int(v * 0.1)`: a tenth of v, truncated toward zero. */
  function Tenth(v: int): (t: int)
    ensures v >= 0 ==> 0 <= 10 * t <= v < 10 * t + 10
    ensures v < 0 ==> 10 * t - 10 < v <= 10 * t <= 0
  {
    if v >= 0 then v / 10 else -((-v) / 10)
  }

  /** The detector box cut down to the image. */
  function ClampBox(d: RawDetection, img: ImageSize): (b: Box)
    ensures ClampedToImage(b, img)
    ensures b.x1 in {0, d.x} && b.y1 in {0, d.y}
    ensures b.x2 in {img.width, d.x + d.w} && b.y2 in {img.height, d.y + d.h}
    ensures d.x <= b.x1 && d.y <= b.y1 && b.x2 <= d.x + d.w && b.y2 <= d.y + d.h
    ensures ClampedToImage(Box(d.x, d.y, d.x + d.w, d.y + d.h), img) ==>
              b == Box(d.x, d.y, d.x + d.w, d.y + d.h)
  {
    Box(Max(0, d.x), Max(0, d.y), Min(img.width, d.x + d.w), Min(img.height, d.y + d.h))
  }

  /** A box widened by ew and eh on each side, cut down to the image. */
  function Expand(b: Box, ew: int, eh: int, img: ImageSize): (c: Box)
    ensures 0 <= c.x1 && 0 <= c.y1 && c.x2 <= img.width && c.y2 <= img.height
    ensures ew >= 0 && eh >= 0 && ClampedToImage(b, img) ==> Contains(c, b)
    ensures b.x1 - ew <= c.x1 && b.y1 - eh <= c.y1 && c.x2 <= b.x2 + ew && c.y2 <= b.y2 + eh
    ensures ClampedToImage(Box(b.x1 - ew, b.y1 - eh, b.x2 + ew, b.y2 + eh), img) ==>
              c == Box(b.x1 - ew, b.y1 - eh, b.x2 + ew, b.y2 + eh)
  {
    Box(Max(0, b.x1 - ew), Max(0, b.y1 - eh), Min(img.width, b.x2 + ew), Min(img.height, b.y2 + eh))
  }

  function Area(b: Box): int {
    (b.x2 - b.x1) * (b.y2 - b.y1)
  }

  predicate Overlaps(b: Box, t: Box) {
    Max(b.x1, t.x1) < Min(b.x2, t.x2) && Max(b.y1, t.y1) < Min(b.y2, t.y2)
  }

  function Intersection(b: Box, t: Box): Box {
    Box(Max(b.x1, t.x1), Max(b.y1, t.y1), Min(b.x2, t.x2), Min(b.y2, t.y2))
  }

  lemma MulMono(a: int, b: int, c: int, d: int)
    requires 0 < c <= a && 0 < d <= b
    ensures 0 < c * d <= a * b
  {
    assert c * d <= a * d;
    assert a * d <= a * b;
  }

  function Union(b: Box, t: Box): int {
    Area(b) + Area(t) - Area(Intersection(b, t))
  }

  /** Overlapping boxes share a positive area, no larger than their union. */
  lemma OverlapArea(b: Box, t: Box)
    requires Overlaps(b, t)
    ensures 0 < Area(Intersection(b, t)) <= Union(b, t)
  {
    var o := Intersection(b, t);
    MulMono(b.x2 - b.x1, b.y2 - b.y1, o.x2 - o.x1, o.y2 - o.y1);
    MulMono(t.x2 - t.x1, t.y2 - t.y1, o.x2 - o.x1, o.y2 - o.y1);
  }

  /** Intersection over union, when the boxes overlap. */
  function IoU(b: Box, t: Box): (r: real)
    requires Overlaps(b, t)
    ensures 0.0 < r <= 1.0
    ensures b == t ==> r == 1.0
  {
    OverlapArea(b, t);
    Area(Intersection(b, t)) as real / Union(b, t) as real
  }

  /** How well a face agrees with the target region: 0 without a target, the IoU
      when they overlap, otherwise 1 minus the centre distance as a fraction of
      the image diagonal (`distRatio`, computed outside with a square root). */
  function RegionScore(b: Box, target: Option<Box>, distRatio: real): (r: real)
    ensures target.None? ==> r == 0.0
    ensures target.Some? && Overlaps(b, target.value) ==> r == IoU(b, target.value) && 0.0 < r <= 1.0
    ensures target.Some? && !Overlaps(b, target.value) ==> r + distRatio == 1.0
  {
    match target
    case None => 0.0
    case Some(t) =>
      if Overlaps(b, t) then
        OverlapArea(b, t);
        if Union(b, t) > 0 then IoU(b, t) else 0.0
      else 1.0 - distRatio
  }

  /** IoU does not depend on which box is the target. */
  lemma IoUSymmetric(b: Box, t: Box)
    requires Overlaps(b, t)
    ensures Overlaps(t, b) && IoU(b, t) == IoU(t, b)
  {
    assert Intersection(b, t) == Intersection(t, b);
  }

  function Score(confidence: real, region: real): real {
    ConfidenceWeight * confidence + RegionWeight * region
  }

  /** The face built from the detection at position i. */
  function MakeCandidate(i: nat, d: RawDetection, img: ImageSize, target: Option<Box>,
                         centreRatio: (Box, Box) -> real): (c: Candidate)
    ensures c.index == i && c.box == ClampBox(d, img)
    ensures d.w >= 0 && d.h >= 0 ==> Contains(c.crop, c.box)
    ensures ClampedToImage(c.crop, img)
    ensures MeetsImage(d, img) ==> Ordered(c.box) && Ordered(c.crop)
    ensures c.confidence == d.confidence.GetOr(0.0)
    ensures target.None? ==> c.score == ConfidenceWeight * c.confidence
    ensures c.score == ConfidenceWeight * c.confidence
              + RegionWeight * RegionScore(c.box, target, if target.Some? then centreRatio(c.box, target.value) else 0.0)
  {
    var b := ClampBox(d, img);
    var crop := Expand(b, Tenth(d.w), Tenth(d.h), img);
    var conf := d.confidence.GetOr(0.0);
    var ratio := if target.Some? then centreRatio(b, target.value) else 0.0;
    Candidate(i, b, crop, conf, Score(conf, RegionScore(b, target, ratio)))
  }

  function Candidates(img: ImageSize, results: seq<RawDetection>, target: Option<Box>,
                      centreRatio: (Box, Box) -> real): (cs: seq<Candidate>)
    ensures |cs| == |results|
    ensures forall i :: 0 <= i < |cs| ==>
              && cs[i].index == i
              && cs[i].box == ClampBox(results[i], img)
              && ClampedToImage(cs[i].crop, img)
              && cs[i].confidence == results[i].confidence.GetOr(0.0)
    ensures forall i :: 0 <= i < |cs| ==> cs[i] == MakeCandidate(i, results[i], img, target, centreRatio)
  {
    seq(|results|, i requires 0 <= i < |results| => MakeCandidate(i, results[i], img, target, centreRatio))
  }

  function ScoreOf(c: Candidate): real {
    c.score
  }

  /** `face_data` after `sort(key=score, reverse=True)`: every candidate once,
      highest score first, equal scores in detection order. */
  function Ranked(cs: seq<Candidate>): (r: seq<Candidate>)
    requires forall i :: 0 <= i < |cs| ==> cs[i].index == i
    ensures |r| == |cs|
    ensures forall a :: 0 <= a < |r| ==> r[a].index < |cs| && r[a] == cs[r[a].index]
    ensures forall i :: 0 <= i < |cs| ==> cs[i] in r
    ensures forall a, b :: 0 <= a < b < |r| ==>
              r[a].score > r[b].score || (r[a].score == r[b].score && r[a].index < r[b].index)
  {
    var p := StableSort.StableOrder(StableSort.Keys(cs, ScoreOf));
    var r := seq(|p|, a requires 0 <= a < |p| => cs[p[a]]);
    assert forall i :: 0 <= i < |cs| ==> i in p;
    forall i | 0 <= i < |cs|
      ensures cs[i] in r
    {
      assert i in p;
      var a :| 0 <= a < |p| && p[a] == i;
      assert r[a] == cs[i];
    }
    forall a, b | 0 <= a < b < |r|
      ensures r[a].score > r[b].score || (r[a].score == r[b].score && r[a].index < r[b].index)
    {
      assert StableSort.Before(StableSort.Keys(cs, ScoreOf), p[a], p[b]);
    }
    r
  }

  /** The three lists of `detect_face` read off the ranked faces. */
  function Unzip(r: seq<Candidate>): (f: Faces)
    ensures |f.boxes| == |r| && |f.crops| == |r| && |f.confidences| == |r|
    ensures forall a :: 0 <= a < |r| ==>
              f.boxes[a] == r[a].box && f.crops[a] == r[a].crop && f.confidences[a] == r[a].confidence
  {
    Faces(seq(|r|, a requires 0 <= a < |r| => r[a].box),
          seq(|r|, a requires 0 <= a < |r| => r[a].crop),
          seq(|r|, a requires 0 <= a < |r| => r[a].confidence))
  }

  /** Every candidate's widened crop is one PIL can cut out. */
  predicate CropsOrdered(cs: seq<Candidate>) {
    forall i :: 0 <= i < |cs| ==> Ordered(cs[i].crop)
  }

  /** `detect_face(image, target_region)` given the detector's raw results. The
      loop crops every face before sorting, so one inverted crop makes the call
      raise (re-raised as "face detection failed"), whatever the other faces. */
  function DetectFaces(img: ImageSize, results: seq<RawDetection>, target: Option<Box>,
                       centreRatio: (Box, Box) -> real): (r: Result<Faces, CropError>)
    ensures r.Failure? <==> !CropsOrdered(Candidates(img, results, target, centreRatio))
    ensures (forall i :: 0 <= i < |results| ==> MeetsImage(results[i], img)) ==> r.Success?
    ensures r.Success? ==>
              var f := r.value;
              && |f.boxes| == |results| && |f.crops| == |results| && |f.confidences| == |results|
              && (forall a :: 0 <= a < |f.boxes| ==>
                    ClampedToImage(f.boxes[a], img) && ClampedToImage(f.crops[a], img) && Ordered(f.crops[a]))
    ensures |results| == 0 ==> r == Success(Faces([], [], []))
  {
    var cs := Candidates(img, results, target, centreRatio);
    if CropsOrdered(cs) then
      var ranked := Ranked(cs);
      assert forall a :: 0 <= a < |ranked| ==> Ordered(ranked[a].crop) by {
        forall a | 0 <= a < |ranked|
          ensures Ordered(ranked[a].crop)
        {
          assert ranked[a] == cs[ranked[a].index];
        }
      }
      Success(Unzip(ranked))
    else Failure(InvertedCrop)
  }

  /** A detection wholly right of a 500x500 image, such as (600, 10, 50, 50), is
      clamped to the inverted crop (595, 5, 500, 65), and detection raises. */
  lemma DetectionBeyondImageRaises(target: Option<Box>, centreRatio: (Box, Box) -> real)
    ensures var img := ImageSize(500, 500);
      var results := [RawDetection(600, 10, 50, 50, Some(0.9))];
      && Candidates(img, results, target, centreRatio)[0].crop == Box(595, 5, 500, 65)
      && DetectFaces(img, results, target, centreRatio) == Failure(InvertedCrop)
  {
    var img := ImageSize(500, 500);
    var results := [RawDetection(600, 10, 50, 50, Some(0.9))];
    assert Tenth(50) == 5;
    var c := Candidates(img, results, target, centreRatio)[0];
    assert c.crop == Box(595, 5, 500, 65);
    assert !Ordered(c.crop);
  }

  /** The face `detect_face` lists first has the best score, and no earlier
      detection has that score: it is the face registration and the adjuster use. */
  lemma TopFaceIsBest(cs: seq<Candidate>)
    requires |cs| > 0
    requires forall i :: 0 <= i < |cs| ==> cs[i].index == i
    ensures var top := Ranked(cs)[0];
      && (forall i :: 0 <= i < |cs| ==> cs[i].score <= top.score)
      && (forall i :: 0 <= i < top.index ==> cs[i].score < top.score)
  {
    var r := Ranked(cs);
    forall i | 0 <= i < |cs|
      ensures cs[i].score <= r[0].score && (i < r[0].index ==> cs[i].score < r[0].score)
    {
      if i != r[0].index {
        var a :| 0 <= a < |r| && r[a] == cs[i];
        assert a != 0;
      }
    }
  }
}

=== FILE: matcher.dfy ===
/** `compare_face_features`: cosine similarity of a query feature against the
    stored features, with the near-threshold boost, returning the accepted
    matches best first and the best similarity. The cosine itself is computed
    outside the model and arrives with each stored entry. */
module Matcher {
  import opened Wrappers
  import StableSort

  const FeatureDim: nat := 512
  /** Similarities this far below the threshold are considered for the boost. */
  const BoostWindow: real := 0.05
  const Boost: real := 0.02

  /** A stored feature as seen by the comparison: not a 512-vector, or a vector
      whose norm may be zero, with its cosine against the query. */
  datatype Stored = NotAVector | Vector(nonZero: bool, cosine: real)

  /** The query: whether it is a 512-vector, and whether its norm is positive. */
  datatype Query = Query(shape: nat, nonZero: bool)

  datatype Match = Match(index: nat, similarity: real)
  datatype Comparison = Comparison(matches: seq<Match>, maxSimilarity: real)
  datatype CompareError = BadQueryShape

  /** The similarity recorded for a cosine s at threshold t, if any: values just
      under the threshold are raised by 0.02 and kept when that reaches t. */
  function Boosted(s: real, t: real): (r: Option<real>)
    ensures r.Some? <==> s >= t - Boost
    ensures r.Some? ==> t <= r.value && s <= r.value <= s + Boost
    ensures s >= t ==> r == Some(s)
  {
    if t - BoostWindow <= s < t then
      if s + Boost >= t then Some(s + Boost) else None
    else if s >= t then Some(s)
    else None
  }

  /** What entry i contributes: nothing when either vector is unusable. */
  function Recorded(q: Query, db: seq<Stored>, t: real, i: nat): (r: Option<real>)
    requires i < |db|
    ensures r.Some? <==> q.nonZero && db[i].Vector? && db[i].nonZero && db[i].cosine >= t - Boost
  {
    match db[i]
    case NotAVector => None
    case Vector(nonZero, cosine) => if q.nonZero && nonZero then Boosted(cosine, t) else None
  }

  /** The accepted entries among the first n, in index order. */
  function Accepted(q: Query, db: seq<Stored>, t: real, n: nat): (acc: seq<Match>)
    requires n <= |db|
    ensures forall a :: 0 <= a < |acc| ==>
              acc[a].index < n && Recorded(q, db, t, acc[a].index) == Some(acc[a].similarity)
    ensures forall a, b :: 0 <= a < b < |acc| ==> acc[a].index < acc[b].index
  {
    if n == 0 then []
    else
      var prev := Accepted(q, db, t, n - 1);
      match Recorded(q, db, t, n - 1)
      case None => prev
      case Some(s) => prev + [Match(n - 1, s)]
  }

  /** Every accepted entry among the first n is listed. */
  lemma {:induction false} AcceptedComplete(q: Query, db: seq<Stored>, t: real, n: nat)
    requires n <= |db|
    ensures forall i :: 0 <= i < n && Recorded(q, db, t, i).Some? ==> Listed(Accepted(q, db, t, n), i)
  {
    if n > 0 {
      AcceptedComplete(q, db, t, n - 1);
      AcceptedStep(q, db, t, n);
    }
  }

  /** One more entry keeps everything listed and lists entry n-1 when it is accepted. */
  lemma AcceptedStep(q: Query, db: seq<Stored>, t: real, n: nat)
    requires 0 < n <= |db|
    ensures forall i :: Listed(Accepted(q, db, t, n - 1), i) ==> Listed(Accepted(q, db, t, n), i)
    ensures Recorded(q, db, t, n - 1).Some? ==> Listed(Accepted(q, db, t, n), n - 1)
  {
    var prev := Accepted(q, db, t, n - 1);
    match Recorded(q, db, t, n - 1)
    case None =>
    case Some(s) => ListedAppend(prev, Match(n - 1, s));
  }

  lemma ListedAppend(ms: seq<Match>, m: Match)
    ensures forall i :: Listed(ms, i) ==> Listed(ms + [m], i)
    ensures Listed(ms + [m], m.index)
  {
    assert (ms + [m])[|ms|] == m;
    forall i | Listed(ms, i)
      ensures Listed(ms + [m], i)
    {
      var a :| 0 <= a < |ms| && ms[a].index == i;
      assert (ms + [m])[a] == ms[a];
    }
  }

  function Similarity(m: Match): real {
    m.similarity
  }

  /** Higher similarity first; equal similarities by index. */
  predicate Precedes(m: Match, n: Match) {
    m.similarity > n.similarity || (m.similarity == n.similarity && m.index < n.index)
  }

  predicate RankedMatches(ms: seq<Match>) {
    forall a, b :: 0 <= a < b < |ms| ==> Precedes(ms[a], ms[b])
  }

  /** `matches.sort(key=similarity, reverse=True)` on a list in index order. */
  function SortMatches(acc: seq<Match>): (ms: seq<Match>)
    requires forall a, b :: 0 <= a < b < |acc| ==> acc[a].index < acc[b].index
    ensures |ms| == |acc|
    ensures forall m :: m in ms <==> m in acc
    ensures RankedMatches(ms)
  {
    var p := StableSort.StableOrder(StableSort.Keys(acc, Similarity));
    var ms := seq(|p|, a requires 0 <= a < |p| => acc[p[a]]);
    forall m | m in acc
      ensures m in ms
    {
      var x :| 0 <= x < |acc| && acc[x] == m;
      assert x in p;
      var a :| 0 <= a < |p| && p[a] == x;
      assert ms[a] == m;
    }
    forall a, b | 0 <= a < b < |ms|
      ensures Precedes(ms[a], ms[b])
    {
      assert StableSort.Before(StableSort.Keys(acc, Similarity), p[a], p[b]);
    }
    ms
  }

  predicate Listed(ms: seq<Match>, i: nat) {
    exists a :: 0 <= a < |ms| && ms[a].index == i
  }

  /** The matches of a comparison with a well-formed query: exactly the
      accepted entries, each with its recorded similarity, ranked. */
  function Matches(q: Query, db: seq<Stored>, t: real): (ms: seq<Match>)
    ensures RankedMatches(ms)
    ensures forall a :: 0 <= a < |ms| ==>
              ms[a].index < |db| && Recorded(q, db, t, ms[a].index) == Some(ms[a].similarity)
    ensures forall i :: 0 <= i < |db| && Recorded(q, db, t, i).Some? ==> Listed(ms, i)
  {
    var acc := Accepted(q, db, t, |db|);
    var ms := SortMatches(acc);
    forall a | 0 <= a < |ms|
      ensures ms[a].index < |db| && Recorded(q, db, t, ms[a].index) == Some(ms[a].similarity)
    {
      assert ms[a] in acc;
    }
    AcceptedComplete(q, db, t, |db|);
    forall i | 0 <= i < |db| && Recorded(q, db, t, i).Some?
      ensures Listed(ms, i)
    {
      var x :| 0 <= x < |acc| && acc[x].index == i;
      assert acc[x] in ms;
    }
    ms
  }

  /** `compare_face_features(input_feature, db_features, threshold)`. */
  function Compare(q: Query, db: seq<Stored>, t: real): (r: Result<Comparison, CompareError>)
    ensures r.Failure? <==> q.shape != FeatureDim
    ensures r.Success? ==> r.value.matches == Matches(q, db, t)
    ensures r.Success? && |r.value.matches| == 0 ==> r.value.maxSimilarity == 0.0
    ensures r.Success? && |r.value.matches| > 0 ==>
              r.value.maxSimilarity == r.value.matches[0].similarity >= t
    ensures r.Success? ==> forall a :: 0 <= a < |r.value.matches| ==>
              r.value.matches[a].similarity <= r.value.maxSimilarity
  {
    if q.shape != FeatureDim then Failure(BadQueryShape)
    else if |db| == 0 then Success(Comparison([], 0.0))
    else
      var ms := Matches(q, db, t);
      if |ms| > 0 then
        assert Recorded(q, db, t, ms[0].index).Some?;
        Success(Comparison(ms, ms[0].similarity))
      else Success(Comparison(ms, 0.0))
  }

  /** The contract of `Compare` pins its result down: two ranked lists holding
      the same matches are the same list. */
  lemma {:induction false} RankedUnique(ms: seq<Match>, ns: seq<Match>)
    requires RankedMatches(ms) && RankedMatches(ns)
    requires |ms| == |ns|
    requires forall m :: m in ms <==> m in ns
    ensures ms == ns
    decreases |ms|
  {
    if |ms| > 0 {
      assert (ms[0] in ms) == (ms[0] in ns);
      assert (ns[0] in ms) == (ns[0] in ns);
      if ms[0] != ns[0] {
        assert false;
      }
      forall m
        ensures m in ms[1..] <==> m in ns[1..]
      {
        if m in ms[1..] {
          var a :| 0 <= a < |ms[1..]| && ms[1..][a] == m;
          assert Precedes(ms[0], ms[a + 1]);
          assert m in ns;
          var b :| 0 <= b < |ns| && ns[b] == m;
          assert b != 0;
          assert m == ns[1..][b - 1];
        }
        if m in ns[1..] {
          var a :| 0 <= a < |ns[1..]| && ns[1..][a] == m;
          assert Precedes(ns[0], ns[a + 1]);
          assert m in ms;
          var b :| 0 <= b < |ms| && ms[b] == m;
          assert b != 0;
          assert m == ms[1..][b - 1];
        }
      }
      RankedUnique(ms[1..], ns[1..]);
      assert ms == [ms[0]] + ms[1..] && ns == [ns[0]] + ns[1..];
    }
  }

  /** Every match reaches the threshold, boosted or not. */
  lemma MatchesReachThreshold(q: Query, db: seq<Stored>, t: real)
    ensures forall a :: 0 <= a < |Matches(q, db, t)| ==> Matches(q, db, t)[a].similarity >= t
  {
    var ms := Matches(q, db, t);
    forall a | 0 <= a < |ms|
      ensures ms[a].similarity >= t
    {
      assert Recorded(q, db, t, ms[a].index) == Some(ms[a].similarity);
    }
  }

  /** Entry i is among the matches exactly when it is accepted. */
  lemma ListedIff(q: Query, db: seq<Stored>, t: real, i: nat)
    requires i < |db|
    ensures Listed(Matches(q, db, t), i) <==>
      q.nonZero && db[i].Vector? && db[i].nonZero && db[i].cosine >= t - Boost
  {
    var ms := Matches(q, db, t);
    if Listed(ms, i) {
      var a :| 0 <= a < |ms| && ms[a].index == i;
      assert Recorded(q, db, t, i).Some?;
    }
  }

  /** The query finds a match exactly when some usable stored vector has
      cosine at least the threshold minus the boost. */
  lemma MatchedIffNearThreshold(q: Query, db: seq<Stored>, t: real)
    ensures |Matches(q, db, t)| > 0 <==>
      exists i :: 0 <= i < |db| && q.nonZero && db[i].Vector? && db[i].nonZero && db[i].cosine >= t - Boost
  {
    var ms := Matches(q, db, t);
    if |ms| > 0 {
      assert Recorded(q, db, t, ms[0].index).Some?;
    }
    if exists i :: 0 <= i < |db| && q.nonZero && db[i].Vector? && db[i].nonZero && db[i].cosine >= t - Boost {
      var i :| 0 <= i < |db| && q.nonZero && db[i].Vector? && db[i].nonZero && db[i].cosine >= t - Boost;
      ListedIff(q, db, t, i);
      var a :| 0 <= a < |ms| && ms[a].index == i;
    }
  }

  /** Raising the threshold never adds a match: an entry accepted at t2 is
      accepted at any lower t1. */
  lemma LowerThresholdKeepsMatches(q: Query, db: seq<Stored>, t1: real, t2: real, i: nat)
    requires t1 <= t2 && i < |db|
    requires Listed(Matches(q, db, t2), i)
    ensures Listed(Matches(q, db, t1), i)
  {
    ListedIff(q, db, t2, i);
    ListedIff(q, db, t1, i);
  }
}

=== FILE: selection.dfy ===
/** The user-index selection of the command-line tool's delete menu: a
    comma-separated list of 1-based numbers and inclusive ranges such as
    "1,3,5-7", turned into sorted, de-duplicated 0-based indices. */
module Selection {
  import opened Wrappers
  import opened Text

  datatype SelectionError =
    | NothingSelected  // empty input: the operation is cancelled
    | BadFormat        // a ValueError: a token is not an integer, or a range has not two ends
    | InvalidRange     // a range outside 1..n or with start after end
    | InvalidIndex     // a single number outside 1..n

  /** The 0-based indices one comma part selects, or why it is rejected: a
      part holding '-' is a range, any other part a single number. */
  function ParsePart(part: string, n: nat): (r: Result<set<int>, SelectionError>)
    ensures r.Success? ==> r.value != {} && forall i :: i in r.value ==> 0 <= i < n
    ensures r.Failure? ==> r.error != NothingSelected
  {
    if '-' in part then RangePart(Split(Strip(part), '-'), n) else NumberPart(part, n)
  }

  /** `start, end = part.strip().split('-')`, then the range check. The ends'
      own `.strip()` is left to `int()`, which strips anyway (`StripPyInt`). */
  function RangePart(ends: seq<string>, n: nat): (r: Result<set<int>, SelectionError>)
    ensures r.Success? ==> r.value != {} && forall i :: i in r.value ==> 0 <= i < n
    ensures r.Failure? ==> r.error != NothingSelected
    ensures |ends| != 2 ==> r == Failure(BadFormat)
  {
    if |ends| != 2 then Failure(BadFormat) else Range(PyInt(ends[0]), PyInt(ends[1]), n)
  }

  /** The range check on the two parsed ends, 1-based and inclusive. */
  function Range(start: Option<int>, end: Option<int>, n: nat): (r: Result<set<int>, SelectionError>)
    ensures start.None? || end.None? ==> r == Failure(BadFormat)
    ensures start.Some? && end.Some? ==>
              (r.Success? <==> 1 <= start.value <= end.value <= n)
              && (r.Failure? ==> r.error == InvalidRange)
    ensures r.Success? ==> forall i :: i in r.value <==> start.value - 1 <= i <= end.value - 1
    ensures r.Success? ==> r.value != {} && forall i :: i in r.value ==> 0 <= i < n
  {
    if start.None? || end.None? then Failure(BadFormat)
    else
      var lo, hi := start.value - 1, end.value - 1;
      if lo < 0 || hi >= n || lo > hi then Failure(InvalidRange)
      else
        assert lo in Span(lo, hi);
        Success(Span(lo, hi))
  }

  /** `idx = int(part.strip()) - 1` and the bounds check (`int()` strips
      its argument itself, see `StripPyInt`). */
  function NumberPart(part: string, n: nat): (r: Result<set<int>, SelectionError>)
    ensures PyInt(part).None? ==> r == Failure(BadFormat)
    ensures PyInt(part).Some? ==>
              var k := PyInt(part).value;
              r == (if 1 <= k <= n then Success({k - 1}) else Failure(InvalidIndex))
  {
    match PyInt(part)
    case None => Failure(BadFormat)
    case Some(k) => if k - 1 < 0 || k - 1 >= n then Failure(InvalidIndex) else Success({k - 1})
  }

  /** `range(lo, hi + 1)` as a set. */
  function Span(lo: int, hi: int): (r: set<int>)
    ensures forall i :: i in r <==> lo <= i <= hi
    decreases hi - lo
  {
    if lo > hi then {} else {lo} + Span(lo + 1, hi)
  }

  /** `int()` strips its argument itself, so stripping first changes nothing. */
  lemma StripPyInt(s: string)
    ensures PyInt(Strip(s)) == PyInt(s)
  {
    var t := Strip(s);
    StripIdempotent(s);
    assert Strip(t) == t;
    SameStripSameInt(t, s);
  }

  lemma SameStripSameInt(a: string, b: string)
    requires Strip(a) == Strip(b)
    ensures PyInt(a) == PyInt(b)
  {
  }

  lemma StripIdempotent(s: string)
    ensures Strip(Strip(s)) == Strip(s)
  {
    var t := Strip(s);
    var l := LStrip(s);
    assert |t| > 0 ==> !IsSpace(t[0]) by {
      if |t| > 0 {
        assert t == l[..|t|];
        assert t[0] == l[0];
      }
    }
    assert LStrip(t) == t;
    assert RStrip(t) == t;
  }

  /** Every part is accepted on its own. */
  predicate AllAccepted(parts: seq<string>, n: nat) {
    forall k :: 0 <= k < |parts| ==> ParsePart(parts[k], n).Success?
  }

  /** e is the error of the first part that is rejected. */
  predicate FirstRejection(parts: seq<string>, n: nat, e: SelectionError) {
    exists k :: 0 <= k < |parts| && ParsePart(parts[k], n) == Failure(e)
                && forall j :: 0 <= j < k ==> ParsePart(parts[j], n).Success?
  }

  /** The parts in order, stopping at the first rejected one. */
  function ParseParts(parts: seq<string>, n: nat): (r: Result<set<int>, SelectionError>)
    ensures r.Success? <==> forall k :: 0 <= k < |parts| ==> ParsePart(parts[k], n).Success?
    ensures r.Success? ==> forall i :: i in r.value ==> 0 <= i < n
    ensures r.Success? ==> forall i :: i in r.value <==>
              exists k :: 0 <= k < |parts| && i in ParsePart(parts[k], n).value
    ensures r.Failure? ==> exists k :: 0 <= k < |parts| && ParsePart(parts[k], n) == Failure(r.error)
                              && forall j :: 0 <= j < k ==> ParsePart(parts[j], n).Success?
  {
    var f := (part: string) => ParsePart(part, n);
    var r := Each(parts, f);
    assert forall k :: 0 <= k < |parts| ==> f(parts[k]) == ParsePart(parts[k], n);
    r
  }

  /** A part parser applied to every part in turn: the union of what they
      select, or the error of the first part that is rejected. */
  function Each(parts: seq<string>, f: string -> Result<set<int>, SelectionError>): (r: Result<set<int>, SelectionError>)
    ensures r.Success? <==> forall k :: 0 <= k < |parts| ==> f(parts[k]).Success?
    ensures r.Success? ==> forall i :: i in r.value <==>
              exists k :: 0 <= k < |parts| && i in f(parts[k]).value
    ensures r.Failure? ==> exists k :: 0 <= k < |parts| && f(parts[k]) == Failure(r.error)
                              && forall j :: 0 <= j < k ==> f(parts[j]).Success?
  {
    if |parts| == 0 then Success({})
    else match f(parts[0])
      case Failure(e) => Failure(e)
      case Success(first) =>
        var tail := parts[1..];
        match Each(tail, f)
        case Failure(e) =>
          var k :| 0 <= k < |tail| && f(tail[k]) == Failure(e)
                   && forall j :: 0 <= j < k ==> f(tail[j]).Success?;
          assert tail[k] == parts[k + 1];
          Failure(e)
        case Success(rest) =>
          forall k | 0 <= k < |parts| ensures f(parts[k]).Success? {
            if k > 0 {
              assert tail[k - 1] == parts[k];
            }
          }
          forall i | i in first + rest
            ensures exists k :: 0 <= k < |parts| && i in f(parts[k]).value
          {
            if i !in first {
              var k :| 0 <= k < |tail| && i in f(tail[k]).value;
              assert tail[k] == parts[k + 1];
            }
          }
          forall i | exists k :: 0 <= k < |parts| && i in f(parts[k]).value
            ensures i in first + rest
          {
            var k :| 0 <= k < |parts| && i in f(parts[k]).value;
            if k > 0 {
              assert parts[k] == tail[k - 1];
            }
          }
          Success(first + rest)
  }

  /** The members of s in [lo, n), ascending: `sorted(set(...))` for indices below n. */
  function Ascending(s: set<int>, lo: int, n: int): (r: seq<int>)
    ensures forall a, b :: 0 <= a < b < |r| ==> r[a] < r[b]
    ensures forall i :: i in r <==> i in s && lo <= i < n
    decreases n - lo
  {
    if lo >= n then []
    else
      var rest := Ascending(s, lo + 1, n);
      assert forall b :: 0 <= b < |rest| ==> rest[b] in rest;
      if lo in s then [lo] + rest else rest
  }

  /** The selection parser: the selected 0-based indices in increasing order. */
  function Parse(selection: string, n: nat): (r: Result<seq<int>, SelectionError>)
    ensures r == Failure(NothingSelected) <==> Strip(selection) == []
    ensures r.Success? ==> Strip(selection) != [] && Chosen(r.value, Split(Strip(selection), ','), n)
    // Non-blank input is accepted exactly when every comma-separated part is,
    // and a rejection carries the error of the first part rejected.
    ensures Strip(selection) != [] ==> (r.Success? <==> AllAccepted(Split(Strip(selection), ','), n))
    ensures Strip(selection) != [] && r.Failure? ==> FirstRejection(Split(Strip(selection), ','), n, r.error)
  {
    var t := Strip(selection);
    if t == [] then Failure(NothingSelected)
    else
      var parts := Split(t, ',');
      var chosen := ParseParts(parts, n);
      assert chosen.Success? <==> AllAccepted(parts, n);
      if chosen.Failure? then
        assert FirstRejection(parts, n, chosen.error);
        Failure(chosen.error)
      else Success(Sorted(parts, chosen.value, n))
  }

  /** r lists, in strictly increasing order, the indices some part selects,
      and it is not empty. */
  ghost predicate Chosen(r: seq<int>, parts: seq<string>, n: nat) {
    && |r| > 0
    && (forall a, b :: 0 <= a < b < |r| ==> r[a] < r[b])
    && (forall a :: 0 <= a < |r| ==> 0 <= r[a] < n)
    && (forall i :: i in r <==> exists k :: 0 <= k < |parts| && ParsePart(parts[k], n).Success?
                                             && i in ParsePart(parts[k], n).value)
  }

  /** `sorted(set(selected_indices))`. */
  function Sorted(parts: seq<string>, chosen: set<int>, n: nat): (r: seq<int>)
    requires |parts| > 0 && ParseParts(parts, n) == Success(chosen)
    ensures Chosen(r, parts, n)
  {
    var first := ParsePart(parts[0], n).value;
    var i :| i in first;
    var r := Ascending(chosen, 0, n);
    assert i in r;
    forall a | 0 <= a < |r|
      ensures 0 <= r[a] < n
    {
      assert r[a] in r;
    }
    r
  }

  /** A single number is selected exactly when it is between 1 and n. */
  lemma SingleNumber(k: nat, n: nat)
    ensures Parse(NatToString(k), n) == (if 1 <= k <= n then Success([k - 1]) else Failure(InvalidIndex))
  {
    var s := NatToString(k);
    assert IsDigit(s[0]) && !IsSpace(s[0]);
    assert LStrip(s) == s;
    assert IsDigit(s[|s| - 1]) && !IsSpace(s[|s| - 1]);
    assert RStrip(s) == s;
    assert ',' !in s;
    CountZero(s, ',');
    SplitWithout(s, ',');
    assert '-' !in s;
    PyIntOfNatToString(k);
    if 1 <= k <= n {
      var parts := Split(s, ',');
      assert parts == [s];
      var chosen := ParseParts(parts, n).value;
      assert ParsePart(s, n) == Success({k - 1});
      assert chosen == {k - 1};
      AscendingOne(k - 1, 0, n);
    }
  }

  lemma {:induction false} AscendingOne(x: int, lo: int, n: int)
    requires lo <= x < n
    ensures Ascending({x}, lo, n) == [x]
    decreases n - lo
  {
    if lo < x {
      AscendingOne(x, lo + 1, n);
    } else {
      AscendingNone({x}, lo + 1, n);
    }
  }

  lemma {:induction false} AscendingNone(s: set<int>, lo: int, n: int)
    requires forall i :: i in s ==> i < lo
    ensures Ascending(s, lo, n) == []
    decreases n - lo
  {
    if lo < n {
      AscendingNone(s, lo + 1, n);
    }
  }

  /** "a-b-c" has three ends and is refused as malformed. */
  lemma ThreeEndsRejected(part: string, n: nat)
    requires '-' in part && |Split(Strip(part), '-')| == 3
    ensures ParsePart(part, n) == Failure(BadFormat)
  {
  }

  /** A part holding a '-' that `int()` can read, such as "-1", has a leading
      sign, so as a range its first end is empty and it is refused. */
  lemma NegativeRejected(part: string, n: nat)
    requires '-' in part && PyInt(part).Some?
    ensures ParsePart(part, n) == Failure(BadFormat)
  {
    PyIntNoSign(part);
    LeadingDashSplit(Strip(part));
    EmptyStartRejected(Split(Strip(part), '-'), n);
  }

  /** A text starting with '-' splits with an empty first part. */
  lemma LeadingDashSplit(t: string)
    requires |t| > 0 && t[0] == '-'
    ensures Split(t, '-')[0] == []
  {
    assert t == [] + ['-'] + t[1..];
    SplitAfterFirst([], '-', t[1..]);
  }

  /** A range with an empty first end is malformed, since `int("")` raises. */
  lemma EmptyStartRejected(ends: seq<string>, n: nat)
    requires |ends| > 0 && ends[0] == []
    ensures RangePart(ends, n) == Failure(BadFormat)
  {
    EmptyNotInt();
  }

  /** `int("")` raises. */
  lemma EmptyNotInt()
    ensures PyInt([]) == None
  {
    assert Strip([]) == [];
  }
}

=== FILE: stable_sort.dfy ===
/** Python's `list.sort(key=..., reverse=True)` on real keys, which is stable:
    items with equal keys keep their original relative order. The sort is
    modelled on positions: it yields the order in which positions 0..n-1 of
    the input appear in the output. */
module StableSort {

  /** Position i is output before position j: larger key first, ties by position. */
  predicate Before(keys: seq<real>, i: int, j: int) {
    && 0 <= i < |keys|
    && 0 <= j < |keys|
    && (keys[i] > keys[j] || (keys[i] == keys[j] && i < j))
  }

  predicate SortedBy(keys: seq<real>, p: seq<int>) {
    forall a, b :: 0 <= a < b < |p| ==> Before(keys, p[a], p[b])
  }

  predicate InRange(p: seq<int>, n: nat) {
    forall a :: 0 <= a < |p| ==> 0 <= p[a] < n
  }

  /** p lists every position 0..n-1 exactly once. */
  predicate IsPermutation(p: seq<int>, n: nat) {
    && |p| == n
    && (forall a :: 0 <= a < |p| ==> 0 <= p[a] < n)
    && (forall i :: 0 <= i < n ==> i in p)
  }

  /** Place position k into p just before the first position k must precede. */
  function Insert(keys: seq<real>, k: int, p: seq<int>): (r: seq<int>)
    ensures |r| == |p| + 1
    ensures multiset(r) == multiset(p) + multiset{k}
  {
    if |p| == 0 then [k]
    else if Before(keys, k, p[0]) then [k] + p
    else
      assert p == [p[0]] + p[1..];
      [p[0]] + Insert(keys, k, p[1..])
  }

  /** Inserting a new position keeps a sorted listing sorted. */
  lemma {:induction false} InsertSorted(keys: seq<real>, k: int, p: seq<int>)
    requires 0 <= k < |keys| && k !in p && InRange(p, |keys|) && SortedBy(keys, p)
    ensures SortedBy(keys, Insert(keys, k, p))
  {
    if |p| > 0 && !Before(keys, k, p[0]) {
      var rest := Insert(keys, k, p[1..]);
      InsertSorted(keys, k, p[1..]);
      forall b | 0 <= b < |rest|
        ensures Before(keys, p[0], rest[b])
      {
        assert rest[b] in multiset(rest);
        if rest[b] != k {
          assert rest[b] in multiset(p[1..]);
          HeadBefore(keys, p, rest[b]);
        }
      }
      ConsSorted(keys, p[0], rest);
    }
  }

  lemma ConsSorted(keys: seq<real>, h: int, p: seq<int>)
    requires SortedBy(keys, p)
    requires forall b :: 0 <= b < |p| ==> Before(keys, h, p[b])
    ensures SortedBy(keys, [h] + p)
  {
    var r := [h] + p;
    forall a, b | 0 <= a < b < |r|
      ensures Before(keys, r[a], r[b])
    {
      assert r[b] == p[b - 1];
      if a > 0 {
        assert r[a] == p[a - 1];
      }
    }
  }

  /** The output order of the stable descending sort of the first n keys. */
  function Order(keys: seq<real>, n: nat): (p: seq<int>)
    requires n <= |keys|
    ensures IsPermutation(p, n)
    ensures SortedBy(keys, p)
  {
    if n == 0 then []
    else
      var q := Order(keys, n - 1);
      InsertPermutation(keys, q, n);
      InsertSorted(keys, n - 1, q);
      Insert(keys, n - 1, q)
  }

  lemma InsertPermutation(keys: seq<real>, q: seq<int>, n: nat)
    requires 0 < n && IsPermutation(q, n - 1)
    ensures n - 1 !in q
    ensures IsPermutation(Insert(keys, n - 1, q), n)
  {
    var p := Insert(keys, n - 1, q);
    forall a | 0 <= a < |p|
      ensures 0 <= p[a] < n
    {
      assert p[a] in multiset(p);
      if p[a] != n - 1 {
        assert p[a] in multiset(q);
        assert p[a] in q;
      }
    }
    forall i | 0 <= i < n
      ensures i in p
    {
      if i < n - 1 {
        assert i in q;
        assert i in multiset(q);
      }
      assert i in multiset(p);
    }
  }

  /** The keys of a list of items, read off by `key`. */
  function Keys<T>(xs: seq<T>, key: T -> real): (ks: seq<real>)
    ensures |ks| == |xs| && forall a :: 0 <= a < |xs| ==> ks[a] == key(xs[a])
  {
    seq(|xs|, a requires 0 <= a < |xs| => key(xs[a]))
  }

  /** The items at positions p, in that order. */
  function Pick<T>(xs: seq<T>, p: seq<int>): (r: seq<T>)
    requires InRange(p, |xs|)
    ensures |r| == |p| && forall a :: 0 <= a < |p| ==> r[a] == xs[p[a]]
  {
    seq(|p|, a requires 0 <= a < |p| => xs[p[a]])
  }

  /** Inserting position k adds the item at k to the picked items. */
  lemma {:induction false} PickInsert<T>(xs: seq<T>, keys: seq<real>, k: int, p: seq<int>)
    requires 0 <= k < |xs| && InRange(p, |xs|)
    ensures InRange(Insert(keys, k, p), |xs|)
    ensures multiset(Pick(xs, Insert(keys, k, p))) == multiset(Pick(xs, p)) + multiset{xs[k]}
  {
    InsertInRange(keys, k, p, |xs|);
    if |p| > 0 {
      var t := p[1..];
      assert p == [p[0]] + t;
      PickCons(xs, p[0], t);
      if Before(keys, k, p[0]) {
        PickCons(xs, k, p);
      } else {
        PickInsert(xs, keys, k, t);
        PickCons(xs, p[0], Insert(keys, k, t));
      }
    }
  }

  lemma InsertInRange(keys: seq<real>, k: int, p: seq<int>, n: nat)
    requires 0 <= k < n && InRange(p, n)
    ensures InRange(Insert(keys, k, p), n)
  {
    var r := Insert(keys, k, p);
    forall a | 0 <= a < |r|
      ensures 0 <= r[a] < n
    {
      assert r[a] in multiset(r);
      if r[a] != k {
        assert r[a] in multiset(p);
        assert r[a] in p;
      }
    }
  }

  lemma PickCons<T>(xs: seq<T>, h: int, p: seq<int>)
    requires 0 <= h < |xs| && InRange(p, |xs|)
    ensures InRange([h] + p, |xs|)
    ensures Pick(xs, [h] + p) == [xs[h]] + Pick(xs, p)
  {
  }

  /** The stable order of the first n keys picks exactly the first n items. */
  lemma {:induction false} PickOrder<T>(xs: seq<T>, keys: seq<real>, n: nat)
    requires n <= |keys| && n <= |xs|
    ensures multiset(Pick(xs, Order(keys, n))) == multiset(xs[..n])
  {
    if n > 0 {
      var q := Order(keys, n - 1);
      assert Order(keys, n) == Insert(keys, n - 1, q);
      PickOrder(xs, keys, n - 1);
      PickInsert(xs, keys, n - 1, q);
      calc {
        multiset(Pick(xs, Order(keys, n)));
        multiset(Pick(xs, q)) + multiset{xs[n - 1]};
        multiset(xs[..n - 1]) + multiset{xs[n - 1]};
        { TakeLast(xs, n); }
        multiset(xs[..n]);
      }
    }
  }

  lemma TakeLast<T>(xs: seq<T>, n: nat)
    requires 0 < n <= |xs|
    ensures multiset(xs[..n]) == multiset(xs[..n - 1]) + multiset{xs[n - 1]}
  {
    assert xs[..n] == xs[..n - 1] + [xs[n - 1]];
  }

  /** `xs.sort(key=key, reverse=True)`: the items rearranged by a permutation
      of positions ordered by key, then by position; by `OrderUnique` there
      is only one such rearrangement. */
  function SortByKey<T>(xs: seq<T>, key: T -> real): (r: seq<T>)
    ensures |r| == |xs|
    ensures multiset(r) == multiset(xs)
    ensures forall a, b :: 0 <= a < b < |r| ==> key(r[a]) >= key(r[b])
    ensures exists p :: IsPermutation(p, |xs|) && SortedBy(Keys(xs, key), p) && r == Pick(xs, p)
  {
    var keys := Keys(xs, key);
    var p := StableOrder(keys);
    var r := Pick(xs, p);
    PickOrder(xs, keys, |xs|);
    assert xs[..|xs|] == xs;
    forall a, b | 0 <= a < b < |r|
      ensures key(r[a]) >= key(r[b])
    {
      assert Before(keys, p[a], p[b]);
    }
    r
  }

  /** The stable descending order of all keys. */
  function StableOrder(keys: seq<real>): (p: seq<int>)
    ensures IsPermutation(p, |keys|)
    ensures SortedBy(keys, p)
  {
    Order(keys, |keys|)
  }

  function Range(n: nat): (r: seq<int>)
    ensures |r| == n && forall a :: 0 <= a < n ==> r[a] == a
  {
    seq(n, a => a)
  }

  /** Sorting keys that are already non-increasing leaves every item where it was. */
  predicate NonIncreasing(keys: seq<real>, n: nat) {
    forall i, j :: 0 <= i < j < n && j < |keys| ==> keys[i] >= keys[j]
  }

  /** Items whose keys are already non-increasing stay where they are. */
  lemma SortByKeyKeepsSorted<T>(xs: seq<T>, key: T -> real)
    requires forall a, b :: 0 <= a < b < |xs| ==> key(xs[a]) >= key(xs[b])
    ensures SortByKey(xs, key) == xs
  {
    var keys := Keys(xs, key);
    assert NonIncreasing(keys, |keys|);
    AlreadySorted(keys, |keys|);
    assert Pick(xs, Range(|xs|)) == xs;
  }

  lemma {:induction false} AlreadySorted(keys: seq<real>, n: nat)
    requires n <= |keys|
    requires NonIncreasing(keys, n)
    ensures Order(keys, n) == Range(n)
  {
    if n > 0 {
      assert NonIncreasing(keys, n - 1);
      AlreadySorted(keys, n - 1);
      LastOfSorted(keys, n);
    }
  }

  /** Inserting position n-1 after 0..n-2 of non-increasing keys appends it. */
  lemma LastOfSorted(keys: seq<real>, n: nat)
    requires 0 < n <= |keys| && NonIncreasing(keys, n)
    ensures Insert(keys, n - 1, Range(n - 1)) == Range(n)
  {
    var r := Range(n - 1);
    forall a | 0 <= a < |r|
      ensures !Before(keys, n - 1, r[a])
    {
      assert keys[r[a]] >= keys[n - 1];
    }
    InsertLast(keys, n - 1, r);
    assert r + [n - 1] == Range(n);
  }

  lemma {:induction false} InsertLast(keys: seq<real>, k: int, p: seq<int>)
    requires forall a :: 0 <= a < |p| ==> !Before(keys, k, p[a])
    ensures Insert(keys, k, p) == p + [k]
  {
    if |p| > 0 {
      InsertLast(keys, k, p[1..]);
      assert [p[0]] + (p[1..] + [k]) == p + [k];
    }
  }

  /** The stable order is the only one with its defining property: any listing
      of all positions sorted by `Before` is exactly `StableOrder(keys)`. */
  lemma OrderUnique(keys: seq<real>, p: seq<int>, q: seq<int>)
    requires IsPermutation(p, |keys|) && SortedBy(keys, p)
    requires IsPermutation(q, |keys|) && SortedBy(keys, q)
    ensures p == q
  {
    SortedUnique(keys, p, q);
  }

  lemma {:induction false} SortedUnique(keys: seq<real>, p: seq<int>, q: seq<int>)
    requires SortedBy(keys, p) && SortedBy(keys, q)
    requires |p| == |q|
    requires forall x :: x in p <==> x in q
    ensures p == q
    decreases |p|
  {
    if |p| > 0 {
      assert p[0] in q && q[0] in p;
      if p[0] != q[0] {
        HeadBefore(keys, p, q[0]);
        HeadBefore(keys, q, p[0]);
        assert false;
      }
      forall x
        ensures x in p[1..] <==> x in q[1..]
      {
        if x in p[1..] {
          var a :| 0 <= a < |p[1..]| && p[1..][a] == x;
          assert Before(keys, p[0], p[a + 1]);
          assert x != p[0];
          assert x in q;
          var b :| 0 <= b < |q| && q[b] == x;
          assert b != 0;
          assert x == q[1..][b - 1];
        }
        if x in q[1..] {
          var a :| 0 <= a < |q[1..]| && q[1..][a] == x;
          assert Before(keys, q[0], q[a + 1]);
          assert x in p;
          var b :| 0 <= b < |p| && p[b] == x;
          assert b != 0;
          assert x == p[1..][b - 1];
        }
      }
      SortedUnique(keys, p[1..], q[1..]);
      assert p == [p[0]] + p[1..] && q == [q[0]] + q[1..];
    }
  }

  /** In a sorted listing the head precedes every other entry. */
  lemma HeadBefore(keys: seq<real>, p: seq<int>, x: int)
    requires SortedBy(keys, p) && x in p && x != p[0]
    ensures Before(keys, p[0], x)
  {
    var a :| 0 <= a < |p| && p[a] == x;
    assert a != 0;
  }

  /** The first position of the stable order has the largest key, and it is the
      earliest position holding that key. */
  lemma FirstIsEarliestBest(keys: seq<real>)
    requires |keys| > 0
    ensures var f := StableOrder(keys)[0];
      && (forall i :: 0 <= i < |keys| ==> keys[i] <= keys[f])
      && (forall i :: 0 <= i < f ==> keys[i] < keys[f])
  {
    var p := StableOrder(keys);
    var f := p[0];
    forall i | 0 <= i < |keys|
      ensures keys[i] <= keys[f] && (i < f ==> keys[i] < keys[f])
    {
      if i != f {
        assert i in p;
        var a :| 0 <= a < |p| && p[a] == i;
        assert a != 0;
        assert Before(keys, p[0], p[a]);
      }
    }
  }
}

=== FILE: store.dfy ===
/** The `users` table and the files beside it, as the rest of the model sees
    them: rows in insertion order and the set of paths that exist. */
module Store {
  import opened Wrappers

  /** One row of `users`: primary key, name (not unique), identity id
      (unique), and the paths of the feature and image files. */
  datatype Record = Record(rowId: nat, name: string, identityId: string, featurePath: string, imagePath: string)

  datatype Db = Db(rows: seq<Record>, files: set<string>)

  /** The table's constraints: identity ids and primary keys are unique. */
  predicate Valid(db: Db) {
    forall i, j :: 0 <= i < j < |db.rows| ==> Apart(db.rows[i], db.rows[j])
  }

  /** Two distinct rows of a valid table share neither key. */
  predicate Apart(a: Record, b: Record) {
    a.identityId != b.identityId && a.rowId != b.rowId
  }

  /** The key SQLite gives a new row of a table without AUTOINCREMENT: one
      more than the largest key present, 1 in an empty table. */
  function NewRowId(rows: seq<Record>): (k: nat)
    ensures k >= 1 && forall i :: 0 <= i < |rows| ==> rows[i].rowId < k
  {
    if |rows| == 0 then 1
    else
      var k := NewRowId(rows[..|rows| - 1]);
      assert forall i :: 0 <= i < |rows| - 1 ==> rows[i] == rows[..|rows| - 1][i];
      if rows[|rows| - 1].rowId >= k then rows[|rows| - 1].rowId + 1 else k
  }

  function IdentityIds(rows: seq<Record>): (ids: seq<string>)
    ensures |ids| == |rows| && forall i :: 0 <= i < |rows| ==> ids[i] == rows[i].identityId
  {
    seq(|rows|, i requires 0 <= i < |rows| => rows[i].identityId)
  }

  function Names(rows: seq<Record>): (names: set<string>)
    ensures forall n :: n in names <==> exists i :: 0 <= i < |rows| && rows[i].name == n
  {
    set i | 0 <= i < |rows| :: rows[i].name
  }

  /** `WHERE identity_id = ?` followed by `fetchone()`: the first such row. */
  function FindById(rows: seq<Record>, id: string): (r: Option<Record>)
    ensures r.Some? <==> exists i :: 0 <= i < |rows| && rows[i].identityId == id
    ensures r.Some? ==> r.value in rows && r.value.identityId == id
  {
    if |rows| == 0 then None
    else if rows[0].identityId == id then Some(rows[0])
    else
      var r := FindById(rows[1..], id);
      assert forall i :: 1 <= i < |rows| ==> rows[i] == rows[1..][i - 1];
      r
  }

  /** `WHERE name = ?` followed by `fetchone()`: the first such row. */
  function FindByName(rows: seq<Record>, name: string): (r: Option<Record>)
    ensures r.Some? <==> exists i :: 0 <= i < |rows| && rows[i].name == name
    ensures r.Some? ==> r.value in rows && r.value.name == name
  {
    if |rows| == 0 then None
    else if rows[0].name == name then Some(rows[0])
    else
      var r := FindByName(rows[1..], name);
      assert forall i :: 1 <= i < |rows| ==> rows[i] == rows[1..][i - 1];
      r
  }

  /** The rows whose identity id differs from `id`: `DELETE ... WHERE identity_id = ?`. */
  function RemoveId(rows: seq<Record>, id: string): (r: seq<Record>)
    ensures forall x :: x in r <==> x in rows && x.identityId != id
    ensures |r| <= |rows|
    ensures (forall i :: 0 <= i < |rows| ==> rows[i].identityId != id) ==> r == rows
  {
    if |rows| == 0 then []
    else
      var rest := RemoveId(rows[1..], id);
      assert rows == [rows[0]] + rows[1..];
      if rows[0].identityId == id then rest else [rows[0]] + rest
  }

  /** Removing rows keeps the table's constraints. */
  lemma {:induction false} RemoveIdKeepsValid(db: Db, id: string)
    requires Valid(db)
    ensures Valid(db.(rows := RemoveId(db.rows, id)))
    decreases |db.rows|
  {
    if |db.rows| > 0 {
      var rows := db.rows;
      var tail := db.(rows := rows[1..]);
      assert forall i, j :: 0 <= i < j < |rows[1..]| ==> rows[1..][i] == rows[i + 1] && rows[1..][j] == rows[j + 1];
      assert Valid(tail);
      RemoveIdKeepsValid(tail, id);
      var rest := RemoveId(rows[1..], id);
      if rows[0].identityId != id {
        HeadApart(rows, rest);
        ConsPairwise(rows[0], rest);
      }
    }
  }

  lemma HeadApart(rows: seq<Record>, rest: seq<Record>)
    requires |rows| > 0
    requires forall i, j :: 0 <= i < j < |rows| ==> Apart(rows[i], rows[j])
    requires forall x :: x in rest ==> x in rows[1..]
    ensures forall x :: x in rest ==> Apart(rows[0], x)
  {
    forall x | x in rest
      ensures Apart(rows[0], x)
    {
      var k :| 0 <= k < |rows[1..]| && rows[1..][k] == x;
      assert rows[k + 1] == x;
    }
  }

  lemma ConsPairwise(h: Record, rest: seq<Record>)
    requires forall x :: x in rest ==> Apart(h, x)
    requires forall i, j :: 0 <= i < j < |rest| ==> Apart(rest[i], rest[j])
    ensures forall i, j :: 0 <= i < j < |[h] + rest| ==> Apart(([h] + rest)[i], ([h] + rest)[j])
  {
    var r := [h] + rest;
    forall i, j | 0 <= i < j < |r|
      ensures Apart(r[i], r[j])
    {
      assert r[j] == rest[j - 1];
      if i > 0 {
        assert r[i] == rest[i - 1];
      } else {
        assert r[j] in rest;
      }
    }
  }

  // ---------------------------------------------------------------------------
  // Paths, as `os.path` treats them on POSIX.

  predicate IsAbs(p: string) {
    |p| > 0 && p[0] == '/'
  }

  /** `os.path.join(a, b)`. */
  function PathJoin(a: string, b: string): (p: string)
    ensures IsAbs(b) ==> p == b
    ensures !IsAbs(b) ==> |p| >= |a| + |b| && p[..|a|] == a && p[|p| - |b|..] == b
  {
    if IsAbs(b) then b
    else if a == [] || a[|a| - 1] == '/' then a + b
    else a + "/" + b
  }

  function LastSlash(p: string): (k: int)
    ensures -1 <= k < |p|
    ensures k >= 0 ==> p[k] == '/'
    ensures forall i :: k < i < |p| ==> p[i] != '/'
  {
    if |p| == 0 then -1
    else if p[|p| - 1] == '/' then |p| - 1
    else LastSlash(p[..|p| - 1])
  }

  function RStripSlashes(s: string): (r: string)
    ensures |r| <= |s| && r == s[..|r|]
  {
    if |s| > 0 && s[|s| - 1] == '/' then RStripSlashes(s[..|s| - 1]) else s
  }

  /** `os.path.dirname(p)`: everything before the last slash, without trailing
      slashes unless it is made only of slashes. */
  function DirName(p: string): (d: string)
    ensures |d| <= |p| && d == p[..|d|]
    ensures d != [] ==> '/' in p
  {
    var head := p[..LastSlash(p) + 1];
    var stripped := RStripSlashes(head);
    if stripped == [] then head else stripped
  }

  /** A stored image path as the manager resolves it: relative paths are taken
      against the database's directory. */
  function Resolve(path: string, dbPath: string): (p: string)
    ensures IsAbs(path) ==> p == path
    ensures !IsAbs(path) ==> p == PathJoin(DirName(dbPath), path)
  {
    if IsAbs(path) then path else PathJoin(DirName(dbPath), path)
  }
}

=== FILE: text.dfy ===
/** Characters and strings with the meaning of the Python built-ins the system
    relies on: `str.isdigit`, `int`, `str`, `str.zfill`, `str.strip`,
    `str.split`, `str.upper`, and the byte-wise ordering SQLite uses for TEXT.
    Only ASCII digits are modelled (see README, "Left out"). */
module Text {
  import opened Wrappers

  predicate IsDigit(c: char) { '0' <= c <= '9' }

  predicate AllDigits(s: string) { forall i :: 0 <= i < |s| ==> IsDigit(s[i]) }

  /** `s.isdigit()`: non-empty and made of digits only. */
  predicate IsDigits(s: string) { |s| > 0 && AllDigits(s) }

  function DigitValue(c: char): nat
    requires IsDigit(c)
  {
    c as int - '0' as int
  }

  function DigitChar(d: nat): (c: char)
    requires d < 10
    ensures IsDigit(c) && DigitValue(c) == d
  {
    ('0' as int + d) as char
  }

  /** The number `int(s)` denotes for a string of decimal digits, leading zeros allowed. */
  function DigitsValue(s: string): nat
    requires AllDigits(s)
  {
    if |s| == 0 then 0 else 10 * DigitsValue(s[..|s| - 1]) + DigitValue(s[|s| - 1])
  }

  function Pow10(k: nat): (p: nat)
    ensures p >= 1
  {
    if k == 0 then 1 else 10 * Pow10(k - 1)
  }

  /** `str(n)` for a natural number: its decimal digits without leading zeros. */
  function NatToString(n: nat): (s: string)
    ensures IsDigits(s)
    ensures n > 0 ==> s[0] != '0'
    ensures n == 0 ==> s == "0"
    decreases n
  {
    if n < 10 then [DigitChar(n)] else NatToString(n / 10) + [DigitChar(n % 10)]
  }

  /** `int(str(n)) == n`. */
  lemma {:induction false} NatToStringValue(n: nat)
    ensures DigitsValue(NatToString(n)) == n
    decreases n
  {
    if n >= 10 {
      var t := NatToString(n / 10);
      var s := NatToString(n);
      assert s == t + [DigitChar(n % 10)];
      assert s[..|s| - 1] == t;
      NatToStringValue(n / 10);
    }
  }

  /** `str(n)` has at most k digits exactly when n < 10^k. */
  lemma {:induction false} NatToStringLength(n: nat, k: nat)
    requires k >= 1
    ensures |NatToString(n)| <= k <==> n < Pow10(k)
    decreases n
  {
    if n >= 10 {
      assert |NatToString(n)| == |NatToString(n / 10)| + 1;
      if k == 1 {
        assert Pow10(1) == 10;
      } else {
        NatToStringLength(n / 10, k - 1);
        assert n / 10 < Pow10(k - 1) <==> n < 10 * Pow10(k - 1);
      }
    } else {
      assert Pow10(k) >= 10 by { Pow10AtLeastTen(k); }
    }
  }

  lemma {:induction false} Pow10AtLeastTen(k: nat)
    requires k >= 1
    ensures Pow10(k) >= 10
  {
    if k > 1 {
      Pow10AtLeastTen(k - 1);
    }
  }

  function Zeros(k: nat): (z: string)
    ensures |z| == k && forall i :: 0 <= i < k ==> z[i] == '0'
  {
    seq(k, _ => '0')
  }

  /** `s.zfill(width)` for an unsigned string: pad with '0' on the left up to `width`. */
  function ZFill(s: string, width: nat): (r: string)
    ensures |r| == if |s| >= width then |s| else width
    ensures r[|r| - |s|..] == s
    ensures forall i :: 0 <= i < |r| - |s| ==> r[i] == '0'
  {
    if |s| >= width then s else Zeros(width - |s|) + s
  }

  lemma {:induction false} ZerosValue(k: nat)
    ensures DigitsValue(Zeros(k)) == 0
  {
    if k > 0 {
      assert Zeros(k)[..k - 1] == Zeros(k - 1);
      ZerosValue(k - 1);
    }
  }

  /** Leading zeros do not change the value `int()` reads. */
  lemma {:induction false} LeadingZerosValue(k: nat, s: string)
    requires AllDigits(s)
    ensures AllDigits(Zeros(k) + s)
    ensures DigitsValue(Zeros(k) + s) == DigitsValue(s)
    decreases |s|
  {
    var z := Zeros(k);
    if |s| == 0 {
      assert z + s == z;
      ZerosValue(k);
    } else {
      var t := z + s;
      assert t[..|t| - 1] == z + s[..|s| - 1];
      LeadingZerosValue(k, s[..|s| - 1]);
    }
  }

  /** `int(s.zfill(width)) == int(s)`. */
  lemma ZFillValue(s: string, width: nat)
    requires AllDigits(s)
    ensures AllDigits(ZFill(s, width))
    ensures DigitsValue(ZFill(s, width)) == DigitsValue(s)
  {
    if |s| < width {
      LeadingZerosValue(width - |s|, s);
    }
  }

  // ---------------------------------------------------------------------------
  // Ordering of TEXT values (SQLite BINARY collation: UTF-8 bytes, which is
  // code-point order).

  predicate LexLess(a: string, b: string)
    decreases |a|
  {
    |b| > 0 && (|a| == 0 || a[0] < b[0] || (a[0] == b[0] && LexLess(a[1..], b[1..])))
  }

  lemma {:induction false} LexIrreflexive(a: string)
    ensures !LexLess(a, a)
    decreases |a|
  {
    if |a| > 0 {
      LexIrreflexive(a[1..]);
    }
  }

  lemma {:induction false} LexTransitive(a: string, b: string, c: string)
    requires LexLess(a, b) && LexLess(b, c)
    ensures LexLess(a, c)
    decreases |a|
  {
    if |a| > 0 && a[0] == b[0] && b[0] == c[0] {
      LexTransitive(a[1..], b[1..], c[1..]);
    }
  }

  lemma {:induction false} LexTotal(a: string, b: string)
    ensures a == b || LexLess(a, b) || LexLess(b, a)
    decreases |a|
  {
    if |a| > 0 && |b| > 0 && a[0] == b[0] {
      LexTotal(a[1..], b[1..]);
      if a[1..] == b[1..] {
        assert a == [a[0]] + a[1..] && b == [b[0]] + b[1..];
      }
    }
  }

  /** A string of k digits denotes a number below 10^k. */
  lemma {:induction false} DigitsValueBound(s: string)
    requires AllDigits(s)
    ensures DigitsValue(s) < Pow10(|s|)
    decreases |s|
  {
    if |s| > 0 {
      DigitsValueBound(s[..|s| - 1]);
    }
  }

  /** Reading the leading digit first. */
  lemma {:induction false} DigitsValueFront(s: string)
    requires IsDigits(s)
    ensures DigitsValue(s) == DigitValue(s[0]) * Pow10(|s| - 1) + DigitsValue(s[1..])
    decreases |s|
  {
    if |s| > 1 {
      var init := s[..|s| - 1];
      var tail := s[1..];
      var d, last := DigitValue(s[0]), DigitValue(s[|s| - 1]);
      DigitsValueFront(init);
      assert init[1..] == tail[..|tail| - 1];
      assert init[0] == s[0];
      assert tail[|tail| - 1] == s[|s| - 1];
      ShiftDigit(d, Pow10(|s| - 2), DigitsValue(init[1..]), last);
    } else {
      assert s[1..] == [];
    }
  }

  lemma ShiftDigit(d: int, p: int, mid: int, last: int)
    ensures 10 * (d * p + mid) + last == d * (10 * p) + (10 * mid + last)
  {
  }

  /** For digit strings of equal length the text order is the numeric order. */
  lemma {:induction false} LexDigitsValue(a: string, b: string)
    requires AllDigits(a) && AllDigits(b) && |a| == |b|
    requires LexLess(a, b)
    ensures DigitsValue(a) < DigitsValue(b)
    decreases |a|
  {
    DigitsValueFront(a);
    DigitsValueFront(b);
    if a[0] == b[0] {
      LexDigitsValue(a[1..], b[1..]);
    } else {
      DigitsValueBound(a[1..]);
      LeadingDigitOrder(DigitValue(a[0]), DigitValue(b[0]), DigitsValue(a[1..]), DigitsValue(b[1..]), Pow10(|a| - 1));
    }
  }

  lemma LeadingDigitOrder(da: nat, db: nat, ra: nat, rb: nat, p: nat)
    requires da < db && ra < p
    ensures da * p + ra < db * p + rb
  {
    var k := db - da;
    assert db * p == da * p + k * p;
    assert k * p == (k - 1) * p + p;
    assert (k - 1) * p >= 0;
  }

  /** Strings sharing a prefix compare as their remainders do. */
  lemma {:induction false} LexDropPrefix(p: string, a: string, b: string)
    requires LexLess(p + a, p + b)
    ensures LexLess(a, b)
    decreases |p|
  {
    if |p| > 0 {
      assert (p + a)[1..] == p[1..] + a;
      assert (p + b)[1..] == p[1..] + b;
      LexDropPrefix(p[1..], a, b);
    } else {
      assert p + a == a && p + b == b;
    }
  }

  // ---------------------------------------------------------------------------
  // Whitespace, strip, split.

  /** `c.isspace()` in Python 3. */
  predicate IsSpace(c: char) {
    var k := c as int;
    k == 0x20 || 0x09 <= k <= 0x0d || 0x1c <= k <= 0x1f || k == 0x85 || k == 0xa0
    || k == 0x1680 || 0x2000 <= k <= 0x200a || k == 0x2028 || k == 0x2029
    || k == 0x202f || k == 0x205f || k == 0x3000
  }

  function LStrip(s: string): (r: string)
    ensures |r| <= |s| && r == s[|s| - |r|..]
    ensures |r| > 0 ==> !IsSpace(r[0])
    ensures forall i :: 0 <= i < |s| - |r| ==> IsSpace(s[i])
  {
    if |s| > 0 && IsSpace(s[0]) then LStrip(s[1..]) else s
  }

  function RStrip(s: string): (r: string)
    ensures |r| <= |s| && r == s[..|r|]
    ensures |r| > 0 ==> !IsSpace(r[|r| - 1])
    ensures forall i :: |r| <= i < |s| ==> IsSpace(s[i])
  {
    if |s| > 0 && IsSpace(s[|s| - 1]) then RStrip(s[..|s| - 1]) else s
  }

  /** `s.strip()`: drop leading and trailing whitespace. The kept text is the slice of s
      that starts after the leading whitespace; everything outside it is whitespace, and
      only an all-whitespace text strips to nothing. */
  function Strip(s: string): (r: string)
    ensures var k := |s| - |LStrip(s)|;
            && k + |r| <= |s|
            && r == s[k..k + |r|]
            && (forall i :: 0 <= i < k ==> IsSpace(s[i]))
            && (forall i :: k + |r| <= i < |s| ==> IsSpace(s[i]))
    ensures |r| > 0 ==> !IsSpace(r[0]) && !IsSpace(r[|r| - 1])
    ensures r == [] <==> forall i :: 0 <= i < |s| ==> IsSpace(s[i])
  {
    var l := LStrip(s);
    var r := RStrip(l);
    assert forall i :: |s| - |l| <= i < |s| ==> s[i] == l[i - (|s| - |l|)];
    r
  }

  function Count(s: string, c: char): nat {
    if |s| == 0 then 0 else (if s[0] == c then 1 else 0) + Count(s[1..], c)
  }

  /** `s.split(sep)` for a one-character separator. */
  function Split(s: string, sep: char): (parts: seq<string>)
    ensures |parts| == Count(s, sep) + 1
    ensures forall k :: 0 <= k < |parts| ==> sep !in parts[k]
    decreases |s|
  {
    if |s| == 0 then [""]
    else
      var rest := Split(s[1..], sep);
      if s[0] == sep then [""] + rest else [[s[0]] + rest[0]] + rest[1..]
  }

  /** `sep.join(parts)`: the first part, then each further part after one separator. When
      no part holds the separator, the result holds exactly one fewer separator than parts. */
  function Join(parts: seq<string>, sep: char): (r: string)
    requires |parts| > 0
    ensures |parts[0]| <= |r| && r[..|parts[0]|] == parts[0]
    ensures |parts[|parts| - 1]| <= |r| && r[|r| - |parts[|parts| - 1]|..] == parts[|parts| - 1]
    ensures (forall k :: 0 <= k < |parts| ==> sep !in parts[k]) ==> Count(r, sep) == |parts| - 1
    decreases |parts|
  {
    if |parts| == 1 then
      if sep !in parts[0] then CountZero(parts[0], sep); parts[0] else parts[0]
    else
      var tail := Join(parts[1..], sep);
      CountAppend(parts[0] + [sep], tail, sep);
      CountAppend(parts[0], [sep], sep);
      if forall k :: 0 <= k < |parts| ==> sep !in parts[k] then
        CountZero(parts[0], sep);
        parts[0] + [sep] + tail
      else parts[0] + [sep] + tail
  }

  lemma {:induction false} CountAppend(a: string, b: string, c: char)
    ensures Count(a + b, c) == Count(a, c) + Count(b, c)
    decreases |a|
  {
    if |a| > 0 {
      CountAppend(a[1..], b, c);
      assert (a + b)[1..] == a[1..] + b;
    } else {
      assert a + b == b;
    }
  }

  /** Splitting loses nothing: joining the parts back gives the original string. */
  lemma {:induction false} SplitJoin(s: string, sep: char)
    ensures Join(Split(s, sep), sep) == s
    decreases |s|
  {
    if |s| > 0 {
      var rest := Split(s[1..], sep);
      SplitJoin(s[1..], sep);
      if s[0] != sep {
        var parts := Split(s, sep);
        assert parts[1..] == rest[1..];
        if |rest| > 1 {
          assert rest[1..][1..] == rest[2..];
          assert Join(rest, sep) == rest[0] + [sep] + Join(rest[1..], sep);
        }
      } else {
        assert Split(s, sep)[1..] == rest;
      }
    }
  }

  /** A string without the separator is a single part. */
  lemma SplitWithout(s: string, sep: char)
    requires sep !in s
    ensures Split(s, sep) == [s]
  {
    CountZero(s, sep);
    SplitJoin(s, sep);
  }

  /** Splitting at the first separator peels off the part before it. */
  lemma {:induction false} SplitAfterFirst(p: string, sep: char, t: string)
    requires sep !in p
    ensures Split(p + [sep] + t, sep) == [p] + Split(t, sep)
    decreases |p|
  {
    var s := p + [sep] + t;
    if |p| == 0 {
      assert s[1..] == t;
    } else {
      assert s[1..] == p[1..] + [sep] + t;
      SplitAfterFirst(p[1..], sep, t);
      assert [s[0]] + p[1..] == p;
    }
  }

  /** Joining parts that hold no separator and splitting again gives the parts back. */
  lemma {:induction false} JoinSplit(parts: seq<string>, sep: char)
    requires |parts| > 0
    requires forall k :: 0 <= k < |parts| ==> sep !in parts[k]
    ensures Split(Join(parts, sep), sep) == parts
    decreases |parts|
  {
    if |parts| == 1 {
      SplitWithout(parts[0], sep);
    } else {
      JoinSplit(parts[1..], sep);
      SplitAfterFirst(parts[0], sep, Join(parts[1..], sep));
      assert [parts[0]] + parts[1..] == parts;
    }
  }

  lemma CountZero(s: string, c: char)
    requires c !in s
    ensures Count(s, c) == 0
  {
  }

  // ---------------------------------------------------------------------------
  // Python's int() on a decimal string.

  /** Digits with single underscores between them, as `int()` accepts ("1_000"). */
  predicate GroupedDigits(s: string) {
    && |s| > 0
    && IsDigit(s[0])
    && IsDigit(s[|s| - 1])
    && (forall i :: 0 <= i < |s| ==> IsDigit(s[i]) || s[i] == '_')
    && (forall i :: 0 <= i < |s| - 1 ==> !(s[i] == '_' && s[i + 1] == '_'))
  }

  function DropUnderscores(s: string): (r: string)
    ensures (forall i :: 0 <= i < |s| ==> IsDigit(s[i]) || s[i] == '_') ==> AllDigits(r)
    ensures AllDigits(s) ==> r == s
  {
    if |s| == 0 then [] else (if s[0] == '_' then [] else [s[0]]) + DropUnderscores(s[1..])
  }

  /** The text after an optional leading '+' or '-'. */
  function Unsigned(t: string): string {
    if |t| > 0 && (t[0] == '+' || t[0] == '-') then t[1..] else t
  }

  /** `int(s)` in base 10: `None` where Python raises ValueError. It accepts exactly an
      optional sign followed by digits with single underscores between them, inside any
      surrounding whitespace; the magnitude is the digits' decimal value and the sign
      is negative only after '-'. */
  function PyInt(s: string): (r: Option<int>)
    ensures r.Some? <==> GroupedDigits(Unsigned(Strip(s)))
    ensures r.Some? ==>
              var t := Strip(s);
              var u := DropUnderscores(Unsigned(t));
              && AllDigits(u)
              && (t[0] == '-' ==> r.value == -(DigitsValue(u) as int))
              && (t[0] != '-' ==> r.value == DigitsValue(u))
  {
    var t := Strip(s);
    if |t| > 0 && (t[0] == '+' || t[0] == '-') then
      var body := t[1..];
      if GroupedDigits(body) then
        var v: int := DigitsValue(DropUnderscores(body));
        Some(if t[0] == '-' then -v else v)
      else None
    else if GroupedDigits(t) then Some(DigitsValue(DropUnderscores(t)))
    else None
  }

  /** `int(str(n)) == n` through the full `int()` parser. */
  lemma PyIntOfNatToString(n: nat)
    ensures PyInt(NatToString(n)) == Some(n)
  {
    var s := NatToString(n);
    assert IsDigit(s[0]) && !IsSpace(s[0]);
    assert LStrip(s) == s;
    assert IsDigit(s[|s| - 1]) && !IsSpace(s[|s| - 1]);
    assert RStrip(s) == s;
    assert Strip(s) == s;
    assert !(s[0] == '+' || s[0] == '-');
    assert GroupedDigits(s);
    assert DropUnderscores(s) == s;
    NatToStringValue(n);
  }

  /** A string holding a '-' never parses as a non-negative number without a leading sign. */
  lemma PyIntNoSign(s: string)
    requires '-' in s
    requires PyInt(s).Some?
    ensures Strip(s)[0] == '-'
  {
    var t := Strip(s);
    var i :| 0 <= i < |s| && s[i] == '-';
    StripKeepsNonSpace(s, i);
    assert GroupedDigits(Unsigned(t));
    if !(|t| > 0 && (t[0] == '+' || t[0] == '-')) {
      assert Unsigned(t) == t;
      GroupedNoDash(t);
      assert false;
    } else if t[0] == '+' {
      assert Unsigned(t) == t[1..];
      PlusNoDash(t);
      assert false;
    }
  }

  lemma GroupedNoDash(s: string)
    requires GroupedDigits(s)
    ensures '-' !in s
  {
  }

  lemma PlusNoDash(s: string)
    requires |s| > 0 && s[0] == '+' && GroupedDigits(s[1..])
    ensures '-' !in s
  {
    assert s == [s[0]] + s[1..];
    GroupedNoDash(s[1..]);
  }

  /** A non-space character of s at position i survives in strip(s), at i - (stripped prefix). */
  lemma StripKeepsNonSpace(s: string, i: int)
    requires 0 <= i < |s| && !IsSpace(s[i])
    ensures s[i] in Strip(s)
  {
    var l := LStrip(s);
    var j := i - (|s| - |l|);
    assert 0 <= j < |l| && l[j] == s[i];
    var r := RStrip(l);
    assert j < |r|;
    assert r[j] == s[i];
  }

  // ---------------------------------------------------------------------------
  // ASCII case.

  function UpperChar(c: char): char {
    if 'a' <= c <= 'z' then (c as int - 32) as char else c
  }

  /** `s.upper()` on ASCII text: each of 'a'..'z' becomes the same letter in 'A'..'Z',
      every other character is kept, and no 'a'..'z' remains. */
  function Upper(s: string): (r: string)
    ensures |r| == |s|
    ensures forall i :: 0 <= i < |s| && 'a' <= s[i] <= 'z' ==>
              'A' <= r[i] <= 'Z' && r[i] as int - 'A' as int == s[i] as int - 'a' as int
    ensures forall i :: 0 <= i < |s| && !('a' <= s[i] <= 'z') ==> r[i] == s[i]
    ensures forall i :: 0 <= i < |r| ==> !('a' <= r[i] <= 'z')
  {
    seq(|s|, i requires 0 <= i < |s| => UpperChar(s[i]))
  }
}

=== FILE: uniqueness.dfy ===
/** `FaceUniquenessChecker`: whether a face is already registered, how similar
    the closest registered face is, the confirmation prompt, and whether
    registration may go ahead. Feature extraction and the database load are
    inputs: the extracted query features and the loaded users. */
module Uniqueness {
  import opened Wrappers
  import StableSort
  import Matcher

  const UniquenessThreshold: real := 0.5

  /** A registered user as loaded for the check. */
  datatype StoredUser = StoredUser(userId: string, userName: string, imagePath: string, feature: Matcher.Stored)

  datatype SimilarUser = SimilarUser(userId: string, userName: string, similarity: real, imagePath: string)

  /** Which message the check produced. */
  datatype Tier = HighTier | MediumTier | LowTier
  datatype Outcome = NoFeatures | EmptyDatabase | Similar(tier: Tier) | NotRegistered | CheckFailed

  datatype CheckResult = CheckResult(isUnique: bool, outcome: Outcome, similarUsers: seq<SimilarUser>, maxSimilarity: real)

  function Features(db: seq<StoredUser>): (fs: seq<Matcher.Stored>)
    ensures |fs| == |db| && forall i :: 0 <= i < |db| ==> fs[i] == db[i].feature
  {
    seq(|db|, i requires 0 <= i < |db| => db[i].feature)
  }

  function Similarity(u: SimilarUser): real {
    u.similarity
  }

  /** `similar_users.sort(key=similarity, reverse=True)`: a stable rearrangement
      by descending similarity. */
  function SortBySimilarity(us: seq<SimilarUser>): (r: seq<SimilarUser>)
    ensures |r| == |us| && multiset(r) == multiset(us)
    ensures forall a, b :: 0 <= a < b < |r| ==> r[a].similarity >= r[b].similarity
    ensures exists p :: StableSort.IsPermutation(p, |us|)
                        && StableSort.SortedBy(StableSort.Keys(us, Similarity), p)
                        && r == StableSort.Pick(us, p)
  {
    var r := StableSort.SortByKey(us, Similarity);
    assert forall a, b :: 0 <= a < b < |r| ==> Similarity(r[a]) >= Similarity(r[b]);
    r
  }

  /** The matches arrive best first, so the re-sort changes nothing. */
  lemma SortKeepsRankedList(us: seq<SimilarUser>)
    requires forall a, b :: 0 <= a < b < |us| ==> us[a].similarity >= us[b].similarity
    ensures SortBySimilarity(us) == us
  {
    assert forall a, b :: 0 <= a < b < |us| ==> Similarity(us[a]) >= Similarity(us[b]);
    StableSort.SortByKeyKeepsSorted(us, Similarity);
  }

  /** The matches at or above the threshold, described by their users. */
  function Describe(ms: seq<Matcher.Match>, db: seq<StoredUser>, t: real): (us: seq<SimilarUser>)
    requires forall a :: 0 <= a < |ms| ==> ms[a].index < |db|
    ensures |us| <= |ms|
    ensures forall a :: 0 <= a < |us| ==> us[a].similarity >= t
    ensures (forall a :: 0 <= a < |ms| ==> ms[a].similarity >= t) ==>
              |us| == |ms| && forall a :: 0 <= a < |ms| ==>
                us[a] == Entry(db[ms[a].index], ms[a].similarity)
  {
    if |ms| == 0 then []
    else
      var rest := Describe(ms[1..], db, t);
      if ms[0].similarity >= t then [Entry(db[ms[0].index], ms[0].similarity)] + rest else rest
  }

  function Entry(u: StoredUser, s: real): SimilarUser {
    SimilarUser(u.userId, u.userName, s, u.imagePath)
  }

  function TierOf(maxSimilarity: real): Tier {
    if maxSimilarity >= 0.75 then HighTier
    else if maxSimilarity >= 0.65 then MediumTier
    else LowTier
  }

  /** `similar_users` for a well-formed query: the comparison's matches, in
      its order, each described by the registered user it matched. */
  function Listing(q: Matcher.Query, db: seq<StoredUser>, t: real): (us: seq<SimilarUser>)
    ensures var ms := Matcher.Matches(q, Features(db), t);
      && |us| == |ms|
      && (forall a :: 0 <= a < |ms| ==> us[a] == Entry(db[ms[a].index], ms[a].similarity))
    ensures forall a :: 0 <= a < |us| ==> us[a].similarity >= t
    ensures forall a, b :: 0 <= a < b < |us| ==> us[a].similarity >= us[b].similarity
  {
    var ms := Matcher.Matches(q, Features(db), t);
    Matcher.MatchesReachThreshold(q, Features(db), t);
    var listed := Describe(ms, db, t);
    SortKeepsRankedList(listed);
    SortBySimilarity(listed)
  }

  /** `check_face_uniqueness(face_image, threshold)`: `features` is what the
      extractor returned for the image (empty when it failed). */
  function CheckFaceUniqueness(features: seq<Matcher.Query>, db: seq<StoredUser>, threshold: Option<real>): (r: CheckResult)
    ensures var t := threshold.GetOr(UniquenessThreshold);
      r.isUnique <==> (|features| > 0 && (|db| == 0 ||
        (features[0].shape == Matcher.FeatureDim && |Matcher.Matches(features[0], Features(db), t)| == 0)))
    ensures |features| == 0 ==> r.outcome == NoFeatures && !r.isUnique
    ensures r.outcome.Similar? <==> !r.isUnique && |r.similarUsers| > 0
    ensures r.outcome.Similar? ==>
      && r.similarUsers == Listing(features[0], db, threshold.GetOr(UniquenessThreshold))
      && r.maxSimilarity == r.similarUsers[0].similarity
      && r.outcome.tier == TierOf(r.maxSimilarity)
    ensures forall a :: 0 <= a < |r.similarUsers| ==> r.similarUsers[a].similarity <= r.maxSimilarity
    ensures !r.outcome.Similar? ==> r.similarUsers == []
    ensures |features| > 0 && |db| == 0 ==> r.outcome == EmptyDatabase
    ensures |features| > 0 && |db| > 0 && features[0].shape != Matcher.FeatureDim ==> r.outcome == CheckFailed
    ensures r.outcome == NotRegistered <==>
              |features| > 0 && |db| > 0 && features[0].shape == Matcher.FeatureDim && r.isUnique
    ensures !r.outcome.Similar? ==> r.maxSimilarity == 0.0
  {
    var t := threshold.GetOr(UniquenessThreshold);
    if |features| == 0 then CheckResult(false, NoFeatures, [], 0.0)
    else if |db| == 0 then CheckResult(true, EmptyDatabase, [], 0.0)
    else
      match Matcher.Compare(features[0], Features(db), t)
      case Failure(_) => CheckResult(false, CheckFailed, [], 0.0)
      case Success(c) =>
        var similar := Listing(features[0], db, t);
        if |similar| > 0 then
          CheckResult(false, Similar(TierOf(c.maxSimilarity)), similar, c.maxSimilarity)
        else
          CheckResult(true, NotRegistered, [], c.maxSimilarity)
  }

  /** A face that recognition would match at its threshold 0.6 is never
      reported unique at the default threshold 0.5. */
  lemma RecognisedIsNotUnique(features: seq<Matcher.Query>, db: seq<StoredUser>, i: nat)
    requires |features| > 0 && i < |db|
    requires Matcher.Listed(Matcher.Matches(features[0], Features(db), 0.6), i)
    ensures !CheckFaceUniqueness(features, db, None).isUnique
  {
    Matcher.LowerThresholdKeepsMatches(features[0], Features(db), UniquenessThreshold, 0.6, i);
  }

  /** The five similarity levels of `get_similarity_level`, lowest first. */
  datatype Level = VeryLow | Low | Medium | High | VeryHigh

  const LevelCuts: seq<real> := [0.55, 0.65, 0.75, 0.85]

  function Rank(l: Level): nat {
    match l
    case VeryLow => 0
    case Low => 1
    case Medium => 2
    case High => 3
    case VeryHigh => 4
  }

  /** The level's rank counts the cut points the similarity reaches. */
  function SimilarityLevel(s: real): (l: Level)
    ensures forall k :: 0 <= k < |LevelCuts| ==> (Rank(l) > k <==> s >= LevelCuts[k])
  {
    if s >= 0.85 then VeryHigh
    else if s >= 0.75 then High
    else if s >= 0.65 then Medium
    else if s >= 0.55 then Low
    else VeryLow
  }

  lemma LevelMonotone(s1: real, s2: real)
    requires s1 <= s2
    ensures Rank(SimilarityLevel(s1)) <= Rank(SimilarityLevel(s2))
  {
    var k := Rank(SimilarityLevel(s1));
    if k > 0 {
      assert s1 >= LevelCuts[k - 1];
    }
  }

  datatype PromptType = Info | Warning | Error

  /** The prompt; `top` is the first similar user the message names, if any. */
  datatype Prompt = Prompt(promptType: PromptType, level: Option<Level>, actionRequired: bool,
                           similarUsers: seq<SimilarUser>, top: Option<SimilarUser>)

  /** `generate_confirmation_prompt(check_result)`. */
  function ConfirmationPrompt(c: CheckResult): (p: Prompt)
    ensures p.actionRequired <==> !c.isUnique
    ensures p.promptType == Info <==> c.isUnique
    ensures p.promptType == Error <==> !c.isUnique && c.maxSimilarity >= 0.85
    ensures p.level == (if c.isUnique then None else Some(SimilarityLevel(c.maxSimilarity)))
    ensures p.promptType == Warning <==> !c.isUnique && c.maxSimilarity < 0.85
    ensures p.similarUsers == (if c.isUnique then [] else c.similarUsers)
    ensures p.top.Some? ==> |c.similarUsers| > 0 && p.top.value == c.similarUsers[0]
    ensures !c.isUnique && |c.similarUsers| > 0 ==> p.top.Some?
  {
    if c.isUnique then Prompt(Info, None, false, [], None)
    else
      var level := SimilarityLevel(c.maxSimilarity);
      var top := if |c.similarUsers| > 0 then Some(c.similarUsers[0]) else None;
      Prompt(if level != VeryHigh then Warning else Error, Some(level), true, c.similarUsers, top)
  }

  datatype Reason = UniqueFace | ConfirmedDespiteVeryHigh | VeryHighRefused | Confirmed | SimilarRefused | LowSimilarity
  datatype Permission = Permission(allowed: bool, reason: Reason)

  /** `verify_registration_permission(check_result, user_confirmation)`. */
  function RegistrationPermission(c: CheckResult, confirmed: bool): (p: Permission)
    ensures p.allowed <==> c.isUnique || confirmed || c.maxSimilarity < 0.65
    ensures !c.isUnique && c.maxSimilarity >= 0.85 ==>
              p.reason == (if confirmed then ConfirmedDespiteVeryHigh else VeryHighRefused)
  {
    if c.isUnique then Permission(true, UniqueFace)
    else if c.maxSimilarity >= 0.85 then
      if confirmed then Permission(true, ConfirmedDespiteVeryHigh) else Permission(false, VeryHighRefused)
    else if c.maxSimilarity >= 0.65 then
      if confirmed then Permission(true, Confirmed) else Permission(false, SimilarRefused)
    else Permission(true, LowSimilarity)
  }

  /** The two steps together: without confirmation, registration is refused
      exactly when the check found a similar user at 0.65 or above; a check
      that failed or found no features reports 0.0 and so does not block. */
  lemma UnconfirmedPermission(features: seq<Matcher.Query>, db: seq<StoredUser>, threshold: Option<real>)
    ensures var c := CheckFaceUniqueness(features, db, threshold);
      !RegistrationPermission(c, false).allowed <==> c.outcome.Similar? && c.maxSimilarity >= 0.65
  {
  }

  /** Asking for a prompt and asking for permission agree: a prompt that needs
      no action always comes with permission. */
  lemma PromptAndPermissionAgree(c: CheckResult, confirmed: bool)
    requires !ConfirmationPrompt(c).actionRequired
    ensures RegistrationPermission(c, confirmed).allowed
  {
  }
}

=== FILE: user_data_manager.dfy ===
/** `UserDataManager`: looking users up by identity id or name, deleting one
    user or a batch, and checking that stored image paths still exist. The
    SQLite table and the file system are a `Store.Db`; `online` says whether
    the database can be opened and queried. */
module UserDataManager {
  import opened Wrappers
  import opened Store
  import Text

  /** `get_user_by_id_or_name`: the row with that identity id, else the first
      row with that name; a database error reads as not found. */
  function Lookup(rows: seq<Record>, online: bool, ident: string): (r: Option<Record>)
    ensures r.Some? ==> online && r.value in rows
    ensures r.Some? ==> r.value.identityId == ident || r.value.name == ident
    ensures online ==> (r.None? <==> forall u :: u in rows ==> u.identityId != ident && u.name != ident)
    ensures online && FindById(rows, ident).Some? ==> r == FindById(rows, ident)
  {
    if !online then None
    else
      match FindById(rows, ident)
      case Some(u) => Some(u)
      case None => FindByName(rows, ident)
  }

  /** In a valid table a user's own identity id finds that user. */
  lemma LookupOwnId(rows: seq<Record>, u: Record)
    requires Valid(Db(rows, {})) && u in rows
    ensures Lookup(rows, true, u.identityId) == Some(u)
  {
    var r := FindById(rows, u.identityId);
    var k :| 0 <= k < |rows| && rows[k] == u;
    var j :| 0 <= j < |rows| && rows[j] == r.value;
    assert rows[j].identityId == rows[k].identityId;
  }

  /** `get_users_by_ids_or_names`: the rows whose identity id or name is one
      of the identifiers, in table order; a database error gives none. */
  function LookupMany(rows: seq<Record>, online: bool, idents: seq<string>): (us: seq<Record>)
    ensures online ==> forall u :: u in us <==> u in rows && (u.identityId in idents || u.name in idents)
    ensures !online ==> us == []
    ensures |us| <= |rows|
    ensures Subsequence(us, rows)
  {
    if !online || |rows| == 0 then []
    else
      var rest := LookupMany(rows[1..], online, idents);
      assert forall u :: u in rows <==> u == rows[0] || u in rows[1..];
      if rows[0].identityId in idents || rows[0].name in idents then [rows[0]] + rest else rest
  }

  /** us keeps some of the rows, in their order. */
  predicate Subsequence(us: seq<Record>, rows: seq<Record>)
    decreases |rows|
  {
    |us| == 0 || (|rows| > 0 && (if us[0] == rows[0] then Subsequence(us[1..], rows[1..]) else Subsequence(us, rows[1..])))
  }

  /** Rows kept from a valid table are themselves a valid table. */
  lemma {:induction false} SubsequenceValid(us: seq<Record>, rows: seq<Record>)
    requires Subsequence(us, rows) && Valid(Db(rows, {}))
    ensures Valid(Db(us, {}))
    ensures forall u :: u in us ==> u in rows
    decreases |rows|
  {
    if |us| > 0 {
      assert Valid(Db(rows[1..], {})) by {
        assert forall i, j :: 0 <= i < j < |rows[1..]| ==> rows[1..][i] == rows[i + 1] && rows[1..][j] == rows[j + 1];
      }
      if us[0] == rows[0] {
        SubsequenceValid(us[1..], rows[1..]);
        forall u | u in us[1..]
          ensures Apart(us[0], u)
        {
          var k :| 0 <= k < |rows[1..]| && rows[1..][k] == u;
          assert rows[k + 1] == u;
        }
        ConsPairwise(us[0], us[1..]);
        assert us == [us[0]] + us[1..];
      } else {
        SubsequenceValid(us, rows[1..]);
      }
    }
  }

  // ---------------------------------------------------------------------------
  // delete_user_by_id.

  /** The result dictionary: `success`, `deleted_user` and `deleted_files`. */
  datatype Deletion = Deletion(success: bool, deletedUser: Option<Record>, deletedFiles: seq<string>)

  /** The outside world a deletion meets: whether the database answers, where
      the database file lives, whether the DELETE statement runs, and which
      files `os.remove` manages to remove. */
  datatype World = World(online: bool, dbPath: string, deleteOk: bool, removes: string -> bool)

  /** The image file scheduled for removal: the resolved image path, when
      images are to be deleted, the path is set, and the file exists. */
  function Scheduled(db: Db, u: Record, deleteImages: bool, dbPath: string): (fs: seq<string>)
    ensures |fs| <= 1
    ensures forall f :: f in fs ==> f in db.files && f == Resolve(u.imagePath, dbPath)
    ensures |fs| == 1 <==> deleteImages && u.imagePath != [] && Resolve(u.imagePath, dbPath) in db.files
  {
    var p := Resolve(u.imagePath, dbPath);
    if deleteImages && u.imagePath != [] && p in db.files then [p] else []
  }

  /** The scheduled files whose removal succeeds, in order. */
  function Removed(fs: seq<string>, removes: string -> bool): (rs: seq<string>)
    ensures forall f :: f in rs <==> f in fs && removes(f)
    ensures |rs| <= |fs|
  {
    if |fs| == 0 then []
    else
      var rest := Removed(fs[1..], removes);
      assert forall f :: f in fs <==> f == fs[0] || f in fs[1..];
      if removes(fs[0]) then [fs[0]] + rest else rest
  }

  /** The deletion, with the DELETE statement keyed on `key`. */
  function DeleteWithKey(db: Db, ident: string, key: Record -> string, deleteImages: bool, dryRun: bool,
                         w: World): (out: (Deletion, Db))
    ensures Lookup(db.rows, w.online, ident).None? ==> out == (Deletion(false, None, []), db)
    ensures out.0.success ==> out.0.deletedUser == Lookup(db.rows, w.online, ident)
    ensures out.0.success <==> Lookup(db.rows, w.online, ident).Some? && (dryRun || w.deleteOk)
    ensures !out.0.success ==> out.0 == Deletion(false, None, []) && out.1 == db
    // A dry run reports what would be removed and changes nothing.
    ensures dryRun && out.0.success ==>
              out.1 == db && out.0.deletedFiles == Scheduled(db, out.0.deletedUser.value, deleteImages, w.dbPath)
    // A real deletion removes at most the scheduled image, and exactly the files it reports.
    ensures !dryRun && out.0.success ==>
              var u := out.0.deletedUser.value;
              && (forall f :: f in out.0.deletedFiles <==>
                    f in Scheduled(db, u, deleteImages, w.dbPath) && w.removes(f))
              && out.1.files == db.files - set f | f in out.0.deletedFiles
              && out.1.rows == RemoveId(db.rows, key(u))
  {
    match Lookup(db.rows, w.online, ident)
    case None => (Deletion(false, None, []), db)
    case Some(u) =>
      var scheduled := Scheduled(db, u, deleteImages, w.dbPath);
      if dryRun then (Deletion(true, Some(u), scheduled), db)
      else if !w.deleteOk then (Deletion(false, None, []), db)
      else
        var removed := Removed(scheduled, w.removes);
        (Deletion(true, Some(u), removed), Db(RemoveId(db.rows, key(u)), db.files - set f | f in removed))
  }

  /** `delete_user_by_id(user_id, delete_images, dry_run)` as written: the row
      delete is keyed on the argument itself as an identity id. */
  function DeleteUserByIdAsWritten(db: Db, ident: string, deleteImages: bool, dryRun: bool, w: World)
    : (out: (Deletion, Db))
    ensures !dryRun && out.0.success ==> out.1.rows == RemoveId(db.rows, ident)
  {
    DeleteWithKey(db, ident, (_: Record) => ident, deleteImages, dryRun, w)
  }

  /** Deleting by a name that is nobody's identity id reports the user as
      deleted and removes their image, yet the row stays. */
  lemma DeleteByNameKeepsRow(db: Db, name: string, deleteImages: bool, w: World)
    requires w.online && w.deleteOk
    requires exists u :: u in db.rows && u.name == name
    requires forall u :: u in db.rows ==> u.identityId != name
    ensures var out := DeleteUserByIdAsWritten(db, name, deleteImages, false, w);
      && out.0.success
      && out.0.deletedUser.Some? && out.0.deletedUser.value in out.1.rows
      && out.1.rows == db.rows
  {
    var out := DeleteUserByIdAsWritten(db, name, deleteImages, false, w);
    assert out.0.deletedUser.value in db.rows;
  }

  /** `delete_user_by_id` keyed, as its result promises, on the identity id of
      the user the lookup found. */
  function DeleteUserById(db: Db, ident: string, deleteImages: bool, dryRun: bool, w: World)
    : (out: (Deletion, Db))
    ensures !dryRun && out.0.success ==>
              out.0.deletedUser.Some? && out.1.rows == RemoveId(db.rows, out.0.deletedUser.value.identityId)
  {
    DeleteWithKey(db, ident, (u: Record) => u.identityId, deleteImages, dryRun, w)
  }

  /** After a successful real deletion the reported user is gone, every other
      row stays, and the table stays valid. */
  lemma DeletedUserIsGone(db: Db, ident: string, deleteImages: bool, w: World)
    requires Valid(db)
    ensures var out := DeleteUserById(db, ident, deleteImages, false, w);
      && Valid(out.1)
      && (out.0.success ==>
            && out.0.deletedUser.value !in out.1.rows
            && forall x :: x in db.rows && x != out.0.deletedUser.value ==> x in out.1.rows)
  {
    var out := DeleteUserById(db, ident, deleteImages, false, w);
    if out.0.success {
      var u := out.0.deletedUser.value;
      RemoveIdKeepsValid(db, u.identityId);
      assert Valid(db.(rows := out.1.rows));
      forall x | x in db.rows && x != u
        ensures x.identityId != u.identityId
      {
        var i :| 0 <= i < |db.rows| && db.rows[i] == x;
        var j :| 0 <= j < |db.rows| && db.rows[j] == u;
        assert i != j;
        assert Apart(db.rows[i], db.rows[j]) || Apart(db.rows[j], db.rows[i]);
      }
    }
  }

  /** When the argument is an identity id the two versions agree. */
  lemma AgreeOnIdentityIds(db: Db, ident: string, deleteImages: bool, dryRun: bool, w: World)
    requires exists u :: u in db.rows && u.identityId == ident
    ensures DeleteUserByIdAsWritten(db, ident, deleteImages, dryRun, w) == DeleteUserById(db, ident, deleteImages, dryRun, w)
  {
    if w.online {
      var u :| u in db.rows && u.identityId == ident;
      var k :| 0 <= k < |db.rows| && db.rows[k] == u;
      assert FindById(db.rows, ident).Some?;
    }
  }

  // ---------------------------------------------------------------------------
  // delete_users_by_identifiers and friends.

  /** The `identifiers` argument: a list of strings, or anything else. */
  datatype Identifiers = NotAList | List(items: seq<string>)

  /** One entry of `details`. */
  datatype BatchDetail = BatchDetail(userId: string, userName: string, success: bool, deletedFiles: seq<string>)

  /** The result dictionary of a batch deletion; `usersToConfirm` is present
      only when confirmation is required. */
  datatype Batch = Batch(success: bool, deletedCount: nat, failedCount: nat, details: seq<BatchDetail>,
                         usersToConfirm: Option<seq<Record>>)

  function Successes(ds: seq<BatchDetail>): (n: nat)
    ensures n <= |ds|
    ensures n == |ds| <==> forall i :: 0 <= i < |ds| ==> ds[i].success
  {
    if |ds| == 0 then 0 else (if ds[0].success then 1 else 0) + Successes(ds[1..])
  }

  /** The loop of the batch deletion: each resolved user passed in turn, by
      identity id, to `delete_user_by_id` as written. */
  function DeleteEach(db: Db, users: seq<Record>, deleteImages: bool, w: World): (out: (seq<BatchDetail>, Db))
    ensures |out.0| == |users|
    ensures forall i :: 0 <= i < |users| ==>
              out.0[i].userId == users[i].identityId && out.0[i].userName == users[i].name
    ensures forall x :: x in out.1.rows ==> x in db.rows
    decreases |users|
  {
    if |users| == 0 then ([], db)
    else
      var u := users[0];
      var d := DeleteUserByIdAsWritten(db, u.identityId, deleteImages, false, w);
      var rest := DeleteEach(d.1, users[1..], deleteImages, w);
      ([BatchDetail(u.identityId, u.name, d.0.success, d.0.deletedFiles)] + rest.0, rest.1)
  }

  /** `delete_users_by_identifiers(identifiers, delete_images, require_confirmation)`. */
  function DeleteUsersByIdentifiers(db: Db, identifiers: Identifiers, deleteImages: bool,
                                    requireConfirmation: bool, w: World): (out: (Batch, Db))
    // Bad input, no matching user, or a pending confirmation delete nothing.
    ensures identifiers.NotAList? || identifiers.items == [] ==> out == (Batch(false, 0, 0, [], None), db)
    ensures identifiers.List? && LookupMany(db.rows, w.online, identifiers.items) == [] ==>
              out == (Batch(false, 0, 0, [], None), db)
    ensures requireConfirmation ==> out.1 == db && !out.0.success
    ensures out.0.usersToConfirm.Some? <==>
              requireConfirmation && identifiers.List? && identifiers.items != []
              && LookupMany(db.rows, w.online, identifiers.items) != []
    ensures out.0.usersToConfirm.Some? ==>
              out.0.usersToConfirm.value == LookupMany(db.rows, w.online, identifiers.items)
    // A run reports every resolved user once, and succeeds when none failed.
    ensures !requireConfirmation && identifiers.List? && identifiers.items != [] ==>
              var users := LookupMany(db.rows, w.online, identifiers.items);
              users != [] ==>
                && |out.0.details| == |users|
                && out.0.deletedCount + out.0.failedCount == |users|
                && out.0.deletedCount == Successes(out.0.details)
                && (out.0.success <==> out.0.failedCount == 0)
  {
    if identifiers.NotAList? || identifiers.items == [] then (Batch(false, 0, 0, [], None), db)
    else
      var users := LookupMany(db.rows, w.online, identifiers.items);
      if users == [] then (Batch(false, 0, 0, [], None), db)
      else if requireConfirmation then (Batch(false, 0, 0, [], Some(users)), db)
      else
        var run := DeleteEach(db, users, deleteImages, w);
        var deleted := Successes(run.0);
        (Batch(deleted == |users|, deleted, |users| - deleted, run.0, None), run.1)
  }

  /** `confirm_and_delete_users(user_ids)`: the batch deletion, images included,
      without asking again. */
  function ConfirmAndDeleteUsers(db: Db, userIds: Identifiers, w: World): (out: (Batch, Db))
    ensures out.0.usersToConfirm.None?
    ensures userIds.List? && LookupMany(db.rows, w.online, userIds.items) != [] ==>
              out.0.deletedCount + out.0.failedCount == |LookupMany(db.rows, w.online, userIds.items)|
  {
    DeleteUsersByIdentifiers(db, userIds, true, false, w)
  }

  /** With the database answering, each resolved user is deleted: the batch
      succeeds, and none of them is left in the table. */
  lemma {:induction false} DeleteEachRemovesAll(db: Db, users: seq<Record>, deleteImages: bool, w: World)
    requires Valid(db) && Valid(Db(users, {}))
    requires forall u :: u in users ==> u in db.rows
    requires w.online && w.deleteOk
    ensures var out := DeleteEach(db, users, deleteImages, w);
      && Valid(out.1)
      && Successes(out.0) == |users|
      && (forall u :: u in users ==> u !in out.1.rows)
    decreases |users|
  {
    if |users| > 0 {
      var u := users[0];
      var tail := users[1..];
      var d := DeleteUserByIdAsWritten(db, u.identityId, deleteImages, false, w);
      FirstDeleted(db, users, deleteImages, w);
      DeleteEachRemovesAll(d.1, tail, deleteImages, w);
      var out := DeleteEach(db, users, deleteImages, w);
      assert out.0 == [out.0[0]] + DeleteEach(d.1, tail, deleteImages, w).0;
      forall v | v in users
        ensures v !in out.1.rows
      {
        if v != u {
          assert v in tail;
        }
      }
    }
  }

  /** Deleting the first resolved user succeeds, keeps the store valid, and
      leaves the other resolved users in place. */
  lemma FirstDeleted(db: Db, users: seq<Record>, deleteImages: bool, w: World)
    requires Valid(db) && Valid(Db(users, {})) && |users| > 0
    requires forall u :: u in users ==> u in db.rows
    requires w.online && w.deleteOk
    ensures var d := DeleteUserByIdAsWritten(db, users[0].identityId, deleteImages, false, w);
      && d.0.success && d.0.deletedUser == Some(users[0]) && users[0] !in d.1.rows
      && Valid(d.1) && Valid(Db(users[1..], {}))
      && forall v :: v in users[1..] ==> v in d.1.rows
  {
    var u := users[0];
    LookupOwnId(db.rows, u);
    AgreeOnIdentityIds(db, u.identityId, deleteImages, false, w);
    var d := DeleteUserById(db, u.identityId, deleteImages, false, w);
    DeletedUserIsGone(db, u.identityId, deleteImages, w);
    var tail := users[1..];
    assert forall i, j :: 0 <= i < j < |tail| ==> tail[i] == users[i + 1] && tail[j] == users[j + 1];
    forall v | v in tail
      ensures v in d.1.rows
    {
      var k :| 0 <= k < |tail| && tail[k] == v;
      assert Apart(users[0], users[k + 1]);
    }
  }

  /** A confirmed batch over a valid, reachable store deletes every user it resolved. */
  lemma ConfirmedBatchDeletesAll(db: Db, identifiers: seq<string>, deleteImages: bool, w: World)
    requires Valid(db) && w.online && w.deleteOk
    requires LookupMany(db.rows, w.online, identifiers) != []
    ensures var users := LookupMany(db.rows, w.online, identifiers);
      var out := DeleteUsersByIdentifiers(db, List(identifiers), deleteImages, false, w);
      && out.0.success && out.0.deletedCount == |users| && out.0.failedCount == 0
      && Valid(out.1)
      && forall u :: u in users ==> u !in out.1.rows
  {
    var users := LookupMany(db.rows, w.online, identifiers);
    SubsequenceValid(users, db.rows);
    DeleteEachRemovesAll(db, users, deleteImages, w);
  }

  // ---------------------------------------------------------------------------
  // create_delete_confirmation.

  /** The confirmation dictionary: the list lines, the count and the users. */
  datatype Confirmation = Confirmation(text: string, userCount: nat, userDetails: seq<Record>)

  /** `- {user_name} (ID: {user_id})`. */
  function ConfirmationLine(u: Record): string {
    "- " + u.name + " (ID: " + u.identityId + ")"
  }

  function Lines(users: seq<Record>): (ls: seq<string>)
    ensures |ls| == |users| && forall i :: 0 <= i < |users| ==> ls[i] == ConfirmationLine(users[i])
  {
    seq(|users|, i requires 0 <= i < |users| => ConfirmationLine(users[i]))
  }

  /** The first line of the confirmation text, naming the count. */
  function ConfirmationHeader(n: nat): string {
    "您确定要删除以下 " + Text.NatToString(n) + " 个用户吗？\n"
  }

  /** Neither the name nor the id of any user holds a line break. */
  predicate SingleLine(users: seq<Record>) {
    forall i :: 0 <= i < |users| ==> '\n' !in users[i].name && '\n' !in users[i].identityId
  }

  /** `create_delete_confirmation(users)`: the header, then one line per user
      in the given order, which the text's lines give back when no name or id
      breaks a line. */
  function CreateDeleteConfirmation(users: seq<Record>): (c: Confirmation)
    ensures c.userCount == |users| && c.userDetails == users
    ensures var h := ConfirmationHeader(|users|);
      |c.text| >= |h| && c.text[..|h|] == h
    ensures |users| == 0 ==> c.text == ConfirmationHeader(0)
    ensures |users| > 0 && SingleLine(users) ==>
              Text.Split(c.text[|ConfirmationHeader(|users|)|..], '\n') == Lines(users)
  {
    var header := ConfirmationHeader(|users|);
    var list := if |users| == 0 then "" else Text.Join(Lines(users), '\n');
    assert (header + list)[..|header|] == header;
    assert (header + list)[|header|..] == list;
    assert |users| > 0 && SingleLine(users) ==> Text.Split(list, '\n') == Lines(users) by {
      if |users| > 0 && SingleLine(users) {
        LinesSingle(users);
        Text.JoinSplit(Lines(users), '\n');
      }
    }
    Confirmation(header + list, |users|, users)
  }

  lemma LinesSingle(users: seq<Record>)
    requires SingleLine(users)
    ensures forall k :: 0 <= k < |Lines(users)| ==> '\n' !in Lines(users)[k]
  {
    forall k | 0 <= k < |users|
      ensures '\n' !in ConfirmationLine(users[k])
    {
      var u := users[k];
      assert ConfirmationLine(u) == "- " + u.name + " (ID: " + u.identityId + ")";
    }
  }

  /** The users a batch asks to confirm are the ones the confirmed run then
      processes: the confirmation's count is the run's deleted plus failed. */
  lemma ConfirmationMatchesRun(db: Db, identifiers: seq<string>, deleteImages: bool, w: World)
    requires identifiers != []
    ensures var asked := DeleteUsersByIdentifiers(db, List(identifiers), deleteImages, true, w).0;
      var run := ConfirmAndDeleteUsers(db, List(identifiers), w).0;
      asked.usersToConfirm.Some? ==>
        CreateDeleteConfirmation(asked.usersToConfirm.value).userCount == run.deletedCount + run.failedCount
  {
  }

  // ---------------------------------------------------------------------------
  // check_database_integrity.

  datatype Status = Ok | Warning | Error

  /** A `missing_file` issue: the user's id and the resolved path that does not exist. */
  datatype Issue = MissingFile(userId: string, filePath: string)

  datatype Integrity = Integrity(status: Status, issues: seq<Issue>)

  /** The row has an image path that resolves to no existing file. */
  predicate Missing(u: Record, files: set<string>, dbPath: string) {
    u.imagePath != [] && Resolve(u.imagePath, dbPath) !in files
  }

  function MissingIssues(rows: seq<Record>, files: set<string>, dbPath: string): (issues: seq<Issue>)
    ensures |issues| <= |rows|
    ensures forall x :: x in issues <==>
              exists u :: u in rows && Missing(u, files, dbPath) && x == MissingFile(u.identityId, Resolve(u.imagePath, dbPath))
  {
    if |rows| == 0 then []
    else
      var rest := MissingIssues(rows[1..], files, dbPath);
      assert forall u :: u in rows <==> u == rows[0] || u in rows[1..];
      var u := rows[0];
      if Missing(u, files, dbPath) then [MissingFile(u.identityId, Resolve(u.imagePath, dbPath))] + rest else rest
  }

  /** `check_database_integrity()`: read-only; `queryOk` says whether the
      SELECT succeeds. */
  function CheckDatabaseIntegrity(db: Db, dbPath: string, queryOk: bool): (r: Integrity)
    ensures !queryOk ==> r == Integrity(Error, [])
    ensures queryOk ==> (r.status == Ok <==> forall u :: u in db.rows ==> !Missing(u, db.files, dbPath))
    ensures queryOk ==> r.status != Error && (r.status == Warning <==> |r.issues| > 0)
    ensures forall x :: x in r.issues ==> x.filePath !in db.files
    ensures queryOk ==> forall u :: u in db.rows && Missing(u, db.files, dbPath) ==>
              MissingFile(u.identityId, Resolve(u.imagePath, dbPath)) in r.issues
  {
    if !queryOk then Integrity(Error, [])
    else
      var issues := MissingIssues(db.rows, db.files, dbPath);
      assert forall u :: u in db.rows && Missing(u, db.files, dbPath) ==>
               MissingFile(u.identityId, Resolve(u.imagePath, dbPath)) in issues;
      if issues == [] then
        Integrity(Ok, [])
      else
        assert issues[0] in issues;
        Integrity(Warning, issues)
  }

  /** A store fresh from a successful real deletion has no missing-file issue
      for the deleted user: the scan looks only at rows still present. */
  lemma IntegrityIgnoresDeleted(db: Db, ident: string, w: World)
    requires Valid(db)
    ensures var out := DeleteUserById(db, ident, true, false, w);
      out.0.success ==>
        var u := out.0.deletedUser.value;
        forall x :: x in CheckDatabaseIntegrity(out.1, w.dbPath, true).issues ==>
          exists v :: v in out.1.rows && v != u && x.userId == v.identityId
  {
    DeletedUserIsGone(db, ident, true, w);
  }
}

=== FILE: user_ids.dfy ===
/** `UserIDGenerator`: user numbers "USR" + YYMMDD + a four-digit daily
    sequence, their validation, and numbers with a custom prefix. The clock and
    the database query for the latest number are inputs. */
module UserIds {
  import opened Wrappers
  import opened Text

  const IdPrefix: string := "USR"
  const SequenceLength: nat := 4
  /** Where the sequence starts in a standard number: the prefix and six date digits. */
  const SequenceStart: nat := 9

  /** `datetime.datetime.now()`, to the minute. */
  datatype Clock = Clock(year: int, month: int, day: int, hour: int, minute: int)

  predicate IsLeap(y: int) {
    y % 4 == 0 && (y % 100 != 0 || y % 400 == 0)
  }

  function DaysInMonth(y: int, m: int): (days: int)
    requires 1 <= m <= 12
    ensures 28 <= days <= 31
  {
    if m == 2 then (if IsLeap(y) then 29 else 28)
    else if m == 4 || m == 6 || m == 9 || m == 11 then 30
    else 31
  }

  /** `datetime.datetime(y, m, d)` accepts the date. */
  predicate ValidDate(y: int, m: int, d: int) {
    1 <= y <= 9999 && 1 <= m <= 12 && 1 <= d <= DaysInMonth(y, m)
  }

  predicate ValidClock(c: Clock) {
    ValidDate(c.year, c.month, c.day) && 0 <= c.hour < 24 && 0 <= c.minute < 60
  }

  /** `%02d`-style two digits, as `strftime` writes them. */
  function TwoDigits(n: nat): (s: string)
    requires n < 100
    ensures |s| == 2 && AllDigits(s) && DigitsValue(s) == n
  {
    assert Pow10(2) == 100;
    NatToStringLength(n, 2);
    NatToStringValue(n);
    ZFillValue(NatToString(n), 2);
    ZFill(NatToString(n), 2)
  }

  /** `strftime("%y%m%d")`. */
  function DatePart(c: Clock): (s: string)
    requires ValidClock(c)
    ensures |s| == 6 && AllDigits(s)
  {
    TwoDigits(c.year % 100) + TwoDigits(c.month) + TwoDigits(c.day)
  }

  /** `strftime("%y%m%d%H%M")`. */
  function Timestamp(c: Clock): (s: string)
    requires ValidClock(c)
    ensures |s| == 10 && AllDigits(s) && s[..6] == DatePart(c)
  {
    DatePart(c) + TwoDigits(c.hour) + TwoDigits(c.minute)
  }

  /** What `SELECT ... ORDER BY user_id DESC LIMIT 1` produced. */
  datatype LastId = QueryFailed | NoRow | Row(id: string)

  /** `_get_max_sequence_for_today`: the digits after the date in the latest
      number; 0 when there is none, they are not all digits, or the query failed. */
  function MaxSequenceForToday(last: LastId): (n: nat)
    ensures n > 0 ==> last.Row? && |last.id| > SequenceStart && AllDigits(last.id[SequenceStart..])
    ensures last.Row? && |last.id| > SequenceStart && AllDigits(last.id[SequenceStart..]) ==>
              n == DigitsValue(last.id[SequenceStart..])
  {
    match last
    case Row(id) =>
      var part := if |id| > SequenceStart then id[SequenceStart..] else "";
      if IsDigits(part) then DigitsValue(part) else 0
    case _ => 0
  }

  /** The sequence number as `generate_user_id` writes it. */
  function SequenceText(n: nat, width: nat): (s: string)
    requires width >= 1
    ensures AllDigits(s) && DigitsValue(s) == n
    ensures |s| == width <==> n < Pow10(width)
    ensures |s| >= width
  {
    NatToStringValue(n);
    ZFillValue(NatToString(n), width);
    NatToStringLength(n, width);
    ZFill(NatToString(n), width)
  }

  /** `generate_user_id()`: today's prefix and the next sequence number. */
  function GenerateUserId(c: Clock, last: LastId): (id: string)
    requires ValidClock(c)
    ensures |id| >= 13 && AllDigits(id[SequenceStart..])
    ensures id[..SequenceStart] == IdPrefix + DatePart(c)
    ensures id == IdPrefix + DatePart(c) + id[SequenceStart..]
    ensures DigitsValue(id[SequenceStart..]) == MaxSequenceForToday(last) + 1
    ensures |id| == 13 <==> MaxSequenceForToday(last) + 1 < 10000
  {
    var today := IdPrefix + DatePart(c);
    var sq := SequenceText(MaxSequenceForToday(last) + 1, SequenceLength);
    assert Pow10(4) == 10000;
    var id := today + sq;
    assert id[..SequenceStart] == today && id[SequenceStart..] == sq;
    id
  }

  /** Reading back the number just generated gives the next sequence: the
      daily sequence counts up by one. */
  lemma SequenceAdvances(c: Clock, last: LastId)
    requires ValidClock(c)
    ensures MaxSequenceForToday(Row(GenerateUserId(c, last))) == MaxSequenceForToday(last) + 1
  {
  }

  /** A generated number is not taken, provided the query returned the greatest
      of today's numbers (all of the standard shape), or none when there are none.
      Numbers of other days and prefixed numbers may be anything. */
  lemma GeneratedIdIsFresh(c: Clock, ids: set<string>, last: LastId)
    requires ValidClock(c)
    requires forall id :: id in ids && |id| >= SequenceStart && id[..SequenceStart] == IdPrefix + DatePart(c) ==>
               |id| == 13 && AllDigits(id[SequenceStart..])
    requires last.Row? ==> last.id in ids && |last.id| >= SequenceStart && last.id[..SequenceStart] == IdPrefix + DatePart(c)
    requires last.Row? ==> forall id :: id in ids && |id| >= SequenceStart && id[..SequenceStart] == IdPrefix + DatePart(c) ==>
               !LexLess(last.id, id)
    requires last.NoRow? ==> forall id :: id in ids && |id| >= SequenceStart ==> id[..SequenceStart] != IdPrefix + DatePart(c)
    requires !last.QueryFailed?
    requires MaxSequenceForToday(last) + 1 < 10000
    ensures IsIdUnique(Some(ids), GenerateUserId(c, last))
  {
    var today := IdPrefix + DatePart(c);
    var g := GenerateUserId(c, last);
    var m := MaxSequenceForToday(last);
    forall id | id in ids
      ensures id != g
    {
      if |id| >= SequenceStart && id[..SequenceStart] == today {
        SameDayBelowLatest(today, id, last.id);
      }
    }
  }

  /** Two numbers of the same day and length order as their sequences do, so
      none exceeds the text-greatest one. */
  lemma SameDayBelowLatest(today: string, id: string, top: string)
    requires |today| == SequenceStart
    requires |id| == 13 && id[..SequenceStart] == today && AllDigits(id[SequenceStart..])
    requires |top| == 13 && top[..SequenceStart] == today && AllDigits(top[SequenceStart..])
    requires !LexLess(top, id)
    ensures DigitsValue(id[SequenceStart..]) <= DigitsValue(top[SequenceStart..])
  {
    if id != top {
      LexTotal(id, top);
      assert id == today + id[SequenceStart..];
      assert top == today + top[SequenceStart..];
      LexDropPrefix(today, id[SequenceStart..], top[SequenceStart..]);
      LexDigitsValue(id[SequenceStart..], top[SequenceStart..]);
    }
  }

  /** `is_id_unique(user_id)`: no stored row has the number; a failed query
      (None) answers False. */
  function IsIdUnique(stored: Option<set<string>>, id: string): (unique: bool)
    ensures unique ==> stored.Some?
    ensures stored.Some? ==> (unique <==> id !in stored.value)
  {
    match stored
    case None => false
    case Some(ids) => id !in ids
  }

  // ---------------------------------------------------------------------------
  // Validation.

  datatype IdCheck = Valid | BadFormat | BadDate

  /** `re.match(r"^USR\d{10}$", id)`; `$` also matches before a final newline. */
  predicate MatchesIdPattern(id: string) {
    && (|id| == 13 || (|id| == 14 && id[13] == '\n'))
    && id[..3] == IdPrefix
    && AllDigits(id[3..13])
  }

  /** The date a well-formed number carries: (2000 + YY, MM, DD). */
  function IdDate(id: string): (ymd: (int, int, int))
    requires MatchesIdPattern(id)
    ensures 2000 <= ymd.0 < 2100 && 0 <= ymd.1 < 100 && 0 <= ymd.2 < 100
  {
    forall i | 3 <= i < 13
      ensures IsDigit(id[i])
    {
      assert id[3..13][i - 3] == id[i];
    }
    (2000 + TwoDigitValue(id[3..5]), TwoDigitValue(id[5..7]), TwoDigitValue(id[7..9]))
  }

  /** `int()` of a two-digit field. */
  function TwoDigitValue(s: string): (v: nat)
    requires |s| == 2 && AllDigits(s)
    ensures v < 100
  {
    10 * DigitValue(s[0]) + DigitValue(s[1])
  }

  lemma TwoDigitValueIs(s: string)
    requires |s| == 2 && AllDigits(s)
    ensures TwoDigitValue(s) == DigitsValue(s)
  {
    var h := s[..1];
    assert h[..0] == [] && h[0] == s[0];
    assert DigitsValue(h) == DigitValue(s[0]);
    assert DigitsValue(s) == 10 * DigitsValue(h) + DigitValue(s[1]);
  }

  /** `validate_user_id` as evidently intended: the pattern, then the date
      must exist. */
  function ValidateUserId(id: string): (r: IdCheck)
    ensures r == Valid <==> (MatchesIdPattern(id) && ValidDate(IdDate(id).0, IdDate(id).1, IdDate(id).2))
    ensures r == BadFormat <==> !MatchesIdPattern(id)
  {
    if !MatchesIdPattern(id) then BadFormat
    else
      var (year, month, day) := IdDate(id);
      if ValidDate(year, month, day) then Valid else BadDate
  }

  /** A date stays valid when its year is read back as 2000 + (year mod 100). */
  lemma CenturyShift(y: int, m: int, d: int)
    requires ValidDate(y, m, d)
    ensures ValidDate(2000 + y % 100, m, d)
  {
    if m == 2 && d == 29 {
      assert IsLeap(y);
      assert (y % 100) % 4 == 0;
    }
  }

  /** Round trip: a number generated on any valid day validates while the
      sequence fits four digits, and is rejected from the 10000th on. */
  lemma GeneratedIdValidates(c: Clock, last: LastId)
    requires ValidClock(c)
    ensures MaxSequenceForToday(last) + 1 < 10000 ==> ValidateUserId(GenerateUserId(c, last)) == Valid
    ensures MaxSequenceForToday(last) + 1 >= 10000 ==> ValidateUserId(GenerateUserId(c, last)) == BadFormat
  {
    if |GenerateUserId(c, last)| == 13 {
      GeneratedValid(c, last);
    } else {
      GeneratedTooLong(c, last);
    }
  }

  lemma GeneratedValid(c: Clock, last: LastId)
    requires ValidClock(c) && |GenerateUserId(c, last)| == 13
    ensures ValidateUserId(GenerateUserId(c, last)) == Valid
  {
    GeneratedDate(c, last);
    ValidFromDate(GenerateUserId(c, last), c);
  }

  lemma ValidFromDate(id: string, c: Clock)
    requires ValidClock(c)
    requires MatchesIdPattern(id) && IdDate(id) == (2000 + c.year % 100, c.month, c.day)
    ensures ValidateUserId(id) == Valid
  {
    CenturyShift(c.year, c.month, c.day);
  }

  lemma GeneratedTooLong(c: Clock, last: LastId)
    requires ValidClock(c) && |GenerateUserId(c, last)| != 13
    ensures ValidateUserId(GenerateUserId(c, last)) == BadFormat
  {
    var id := GenerateUserId(c, last);
    assert id[13] == id[SequenceStart..][4];
  }

  /** A 13-character generated number has the pattern and carries the clock's date. */
  lemma GeneratedDate(c: Clock, last: LastId)
    requires ValidClock(c) && |GenerateUserId(c, last)| == 13
    ensures MatchesIdPattern(GenerateUserId(c, last))
    ensures IdDate(GenerateUserId(c, last)) == (2000 + c.year % 100, c.month, c.day)
  {
    var id := GenerateUserId(c, last);
    ComposedDate(c, id[SequenceStart..]);
  }

  lemma ComposedDate(c: Clock, sq: string)
    requires ValidClock(c) && |sq| == 4 && AllDigits(sq)
    ensures MatchesIdPattern(IdPrefix + DatePart(c) + sq)
    ensures IdDate(IdPrefix + DatePart(c) + sq) == (2000 + c.year % 100, c.month, c.day)
  {
    DateFields(c);
    Fields(IdPrefix + DatePart(c) + sq, DatePart(c), sq);
  }

  /** The three two-digit fields of `strftime("%y%m%d")` read back as the date. */
  lemma DateFields(c: Clock)
    requires ValidClock(c)
    ensures var dp := DatePart(c);
      && TwoDigitValue(Pair(dp, 0)) == c.year % 100
      && TwoDigitValue(Pair(dp, 2)) == c.month
      && TwoDigitValue(Pair(dp, 4)) == c.day
  {
    var yy, mm, dd := TwoDigits(c.year % 100), TwoDigits(c.month), TwoDigits(c.day);
    ThreePairs(yy, mm, dd);
    TwoDigitValueIs(yy);
    TwoDigitValueIs(mm);
    TwoDigitValueIs(dd);
  }

  /** The two characters of s from position i. */
  function Pair(s: string, i: nat): (r: string)
    requires i + 2 <= |s|
    ensures |r| == 2 && r == s[i..i + 2]
    ensures AllDigits(s) ==> AllDigits(r)
  {
    s[i..i + 2]
  }

  /** Three two-character fields read back by position. */
  lemma ThreePairs(a: string, b: string, c: string)
    requires |a| == 2 && |b| == 2 && |c| == 2
    ensures var s := a + b + c; Pair(s, 0) == a && Pair(s, 2) == b && Pair(s, 4) == c
  {
  }

  /** The fields of "USR" + date + sequence, by position. */
  lemma Fields(id: string, dp: string, sq: string)
    requires |dp| == 6 && |sq| == 4 && AllDigits(dp) && AllDigits(sq)
    requires id == IdPrefix + dp + sq
    ensures MatchesIdPattern(id)
    ensures IdDate(id) == (2000 + TwoDigitValue(Pair(dp, 0)), TwoDigitValue(Pair(dp, 2)), TwoDigitValue(Pair(dp, 4)))
  {
    FieldsPattern(id, dp + sq);
    assert id[3..9] == dp;
    assert id[3..5] == Pair(dp, 0) && id[5..7] == Pair(dp, 2) && id[7..9] == Pair(dp, 4);
  }

  lemma FieldsPattern(id: string, rest: string)
    requires |rest| == 10 && AllDigits(rest) && id == IdPrefix + rest
    ensures MatchesIdPattern(id)
  {
    assert id[..3] == IdPrefix;
    assert id[3..] == rest;
  }

  /** The pattern text of line 130 after the f-string is evaluated:
      doubled braces have become single ones. */
  const PatternTemplate: string := "^" + IdPrefix + "\\d{10}$"

  datatype FormatError = IndexError | KeyError | ValueError

  /** `template.format(*args)` for templates whose replacement fields are empty
      or a decimal index; `next` is the automatic field number. */
  function PyFormat(t: string, args: seq<string>, next: nat): (r: Result<string, FormatError>)
    decreases |t|
  {
    if |t| == 0 then Success("")
    else if t[0] == '{' && |t| > 1 && t[1] == '{' then Prefix("{", PyFormat(t[2..], args, next))
    else if t[0] == '}' && |t| > 1 && t[1] == '}' then Prefix("}", PyFormat(t[2..], args, next))
    else if t[0] == '}' then Failure(ValueError)
    else if t[0] == '{' then
      match FieldEnd(t, 1)
      case None => Failure(ValueError)
      case Some(close) =>
        var field := t[1..close];
        if field == "" then
          if next < |args| then Prefix(args[next], PyFormat(t[close + 1..], args, next + 1)) else Failure(IndexError)
        else if IsDigits(field) then
          var k := DigitsValue(field);
          if k < |args| then Prefix(args[k], PyFormat(t[close + 1..], args, next)) else Failure(IndexError)
        else Failure(KeyError)
    else Prefix([t[0]], PyFormat(t[1..], args, next))
  }

  function Prefix(p: string, r: Result<string, FormatError>): Result<string, FormatError> {
    match r
    case Success(s) => Success(p + s)
    case Failure(e) => Failure(e)
  }

  /** Position of the first '}' at or after i. */
  function FieldEnd(t: string, i: nat): (r: Option<nat>)
    requires i <= |t|
    ensures r.Some? ==> i <= r.value < |t| && t[r.value] == '}' && '}' !in t[i..r.value]
    ensures r.None? ==> '}' !in t[i..]
    decreases |t| - i
  {
    if i == |t| then None
    else if t[i] == '}' then Some(i)
    else
      var r := FieldEnd(t, i + 1);
      assert t[i..] == [t[i]] + t[i + 1..];
      if r.Some? then assert t[i..r.value] == [t[i]] + t[i + 1..r.value]; r else r
  }

  /** `validate_user_id` as written: building the pattern calls `format` on a
      text whose `{10}` is a replacement field, so the call raises. */
  function ValidateUserIdAsWritten(id: string): (r: Result<IdCheck, FormatError>)
    ensures r.Success? ==> r.value == ValidateUserId(id)
  {
    match PyFormat(PatternTemplate, [IdPrefix], 0)
    case Failure(e) => Failure(e)
    case Success(_) => Success(ValidateUserId(id))
  }

  /** The defect: every call raises IndexError, including on numbers that
      `generate_user_id` itself produced and the intended check accepts. */
  lemma ValidateAsWrittenAlwaysRaises(id: string)
    ensures ValidateUserIdAsWritten(id) == Failure(IndexError)
  {
    var t := PatternTemplate;
    assert t == "^USR\\d{10}$";
    assert t[6..] == "{10}$";
    FieldTenRaises(t[6..]);
    PlainPrefixKeepsError(t, 6, [IdPrefix], 0, IndexError);
  }

  /** "{10}$" with one argument: field 10 does not exist. */
  lemma FieldTenRaises(tail: string)
    requires tail == "{10}$"
    ensures PyFormat(tail, [IdPrefix], 0) == Failure(IndexError)
  {
    assert FieldEnd(tail, 1) == Some(3) by {
      assert FieldEnd(tail, 3) == Some(3);
      assert FieldEnd(tail, 2) == FieldEnd(tail, 3);
    }
    assert tail[1..3] == "10";
    assert DigitsValue("10") == 10 by {
      assert "10"[..1] == "1";
      assert DigitsValue("1") == 1 by { assert "1"[..0] == ""; }
    }
  }

  /** Text without braces in front of a failing remainder does not change the error. */
  lemma {:induction false} PlainPrefixKeepsError(t: string, k: nat, args: seq<string>, next: nat, e: FormatError)
    requires k <= |t|
    requires forall i :: 0 <= i < k ==> t[i] != '{' && t[i] != '}'
    requires PyFormat(t[k..], args, next) == Failure(e)
    ensures PyFormat(t, args, next) == Failure(e)
    decreases k
  {
    if k > 0 {
      assert t[1..][k - 1..] == t[k..];
      PlainPrefixKeepsError(t[1..], k - 1, args, next, e);
    }
  }

  // ---------------------------------------------------------------------------
  // Numbers with a custom prefix.

  predicate IsAsciiAlnum(c: char) {
    'A' <= c <= 'Z' || 'a' <= c <= 'z' || '0' <= c <= '9'
  }

  predicate AlnumRun(s: string) {
    2 <= |s| <= 4 && forall i :: 0 <= i < |s| ==> IsAsciiAlnum(s[i])
  }

  /** `re.match(r'^[A-Za-z0-9]{2,4}$', prefix)`, a final newline allowed by `$`. */
  predicate PrefixAccepted(p: string) {
    AlnumRun(p) || (|p| > 0 && p[|p| - 1] == '\n' && AlnumRun(p[..|p| - 1]))
  }

  /** `_get_max_sequence_for_prefix`: the last three characters of the latest
      number if they are digits, else 0. */
  function MaxSequenceForPrefix(last: LastId): (n: nat)
    ensures n < 1000
    ensures last.Row? && |last.id| >= 3 && AllDigits(last.id[|last.id| - 3..]) ==>
              n == DigitsValue(last.id[|last.id| - 3..])
    ensures !(last.Row? && |last.id| >= 3 && AllDigits(last.id[|last.id| - 3..])) ==> n == 0
  {
    match last
    case Row(id) =>
      if |id| >= 3 && IsDigits(id[|id| - 3..]) then
        DigitsValueBound(id[|id| - 3..]);
        assert Pow10(3) == 1000;
        DigitsValue(id[|id| - 3..])
      else 0
    case _ => 0
  }

  /** The prefix, the timestamp and the sequence, the timestamp cut to the
      date when the whole is longer than 20 characters. */
  function Compose(p: string, ts: string, sq: string): (id: string)
    requires |ts| == 10 && |p| <= 5 && 3 <= |sq| <= 4
    ensures |id| == |p| + 10 + |sq| <= 19
    ensures id[..|p|] == p && id[|p|..|p| + 10] == ts && id[|p| + 10..] == sq
  {
    var id := p + ts + sq;
    assert id[..|p|] == p && id[|p|..|p| + 10] == ts && id[|p| + 10..] == sq;
    if |id| > 20 then p + Head(ts, 6) + sq else id
  }

  /** `s[:k]`, which never fails in Python. */
  function Head(s: string, k: int): string {
    if 0 <= k <= |s| then s[..k] else s
  }

  /** The prefix used: "USR" for an empty one, else the accepted one in upper case. */
  function ChosenPrefix(custom: string): (p: string)
    requires custom == "" || PrefixAccepted(custom)
    ensures |p| <= 5
    ensures custom == "" ==> p == IdPrefix
    ensures custom != "" ==> |p| == |custom| && forall i :: 0 <= i < |p| ==> p[i] == UpperChar(custom[i])
  {
    if custom == "" then IdPrefix else Upper(custom)
  }

  /** `str(max + 1).zfill(3)` for the prefixed sequence. */
  function PrefixSequence(last: LastId): (sq: string)
    ensures 3 <= |sq| <= 4 && AllDigits(sq)
    ensures DigitsValue(sq) == MaxSequenceForPrefix(last) + 1
  {
    var n := MaxSequenceForPrefix(last) + 1;
    NatToStringLength(n, 4);
    assert Pow10(4) == 10000;
    SequenceText(n, 3)
  }

  /** `generate_id_with_prefix(custom_prefix)`: `lastForPrefix` answers the
      query for the chosen prefix, `lastToday` the one the fallback makes. */
  function GenerateIdWithPrefix(custom: string, c: Clock, lastForPrefix: LastId, lastToday: LastId): (id: string)
    requires ValidClock(c)
    ensures custom != "" && !PrefixAccepted(custom) ==> id == GenerateUserId(c, lastToday)
    ensures custom == "" || PrefixAccepted(custom) ==>
      var p := ChosenPrefix(custom);
      && |id| <= 19 && |id| >= |p| + 13
      && id[..|p|] == p
      && id[|p|..|p| + 10] == Timestamp(c)
      && AllDigits(id[|p| + 10..])
      && DigitsValue(id[|p| + 10..]) == MaxSequenceForPrefix(lastForPrefix) + 1
  {
    if custom != "" && !PrefixAccepted(custom) then GenerateUserId(c, lastToday)
    else Compose(ChosenPrefix(custom), Timestamp(c), PrefixSequence(lastForPrefix))
  }

  /** The sequence fits four digits and the prefix five characters, so the
      timestamp is never cut: a prefixed number keeps the full minute. */
  lemma PrefixedIdKeepsTimestamp(custom: string, c: Clock, lastForPrefix: LastId, lastToday: LastId)
    requires ValidClock(c) && PrefixAccepted(custom)
    ensures var id := GenerateIdWithPrefix(custom, c, lastForPrefix, lastToday);
      id == Upper(custom) + Timestamp(c) + id[|custom| + 10..]
  {
    PrefixedShape(custom, c, lastForPrefix, lastToday);
    Reassemble(GenerateIdWithPrefix(custom, c, lastForPrefix, lastToday), Upper(custom), Timestamp(c));
  }

  lemma PrefixedShape(custom: string, c: Clock, lastForPrefix: LastId, lastToday: LastId)
    requires ValidClock(c) && PrefixAccepted(custom)
    ensures var id := GenerateIdWithPrefix(custom, c, lastForPrefix, lastToday);
      && |Upper(custom)| == |custom| && |custom| + 10 <= |id|
      && id[..|custom|] == Upper(custom) && id[|custom|..|custom| + 10] == Timestamp(c)
  {
    assert custom != "";
    var p := ChosenPrefix(custom);
    assert p == Upper(custom);
    var id := GenerateIdWithPrefix(custom, c, lastForPrefix, lastToday);
    assert id[..|p|] == p && id[|p|..|p| + 10] == Timestamp(c);
  }

  lemma Reassemble(s: string, p: string, ts: string)
    requires |p| + |ts| <= |s| && s[..|p|] == p && s[|p|..|p| + |ts|] == ts
    ensures s == p + ts + s[|p| + |ts|..]
  {
    assert s == s[..|p|] + s[|p|..|p| + |ts|] + s[|p| + |ts|..];
  }
}

=== FILE: wrappers.dfy ===
/** Failure-compatible wrappers used throughout the model: an optional value and
    a value-or-error result, standing in for Python's `None` and raised exceptions. */
module Wrappers {

  datatype Option<+T> = None | Some(value: T) {
    predicate IsFailure() { None? }

    function PropagateFailure<U>(): Option<U>
      requires None?
    {
      None
    }

    function Extract(): T
      requires Some?
    {
      value
    }

    function GetOr(default: T): T {
      match this
      case Some(v) => v
      case None => default
    }
  }

  datatype Result<+R, +E> = Success(value: R) | Failure(error: E) {
    predicate IsFailure() { Failure? }

    function PropagateFailure<U>(): Result<U, E>
      requires Failure?
    {
      Failure(error)
    }

    function Extract(): R
      requires Success?
    {
      value
    }
  }
}
